=== FILE: README.md ===
# mobell-proxy core in Dafny

This project models the core of mobell-proxy. The proxy sits between a Mobotix camera that speaks MxPEG and the MoBell apps. The model covers these parts:

- **JPEG tables** (`JpegTables`, mxpeg/helpers.go). The marker-segment walk that saves the DQT and DHT segments of a key frame. The patch that inserts those segments before the SOS marker of a later frame that has none of its own.
- **Ring buffer** (`RingBuffer`, mxpeg/ring_buffer.go). A power-of-two buffer with `start`/`end`/`pos` indices and mask arithmetic, fed from a byte source. Each operation is proved to refine an operation of a plain stream cursor (`StreamCursor`): a window of the input stream, a position in it, and the buffer capacity.
- **Packet reader** (`PacketReader`, mxpeg/packet_reader.go). Splits the camera stream into packets:
  - garbage is skipped up to the first 0xFF;
  - the packet is chosen by its marker;
  - a video frame is walked segment by segment, with byte stuffing handled in the scan data;
  - PCM audio and event payloads are extracted.

  `PacketFormat` states what the camera writes (frames, audio and event segments) and proves the reader reads each one back.
- **Camera client** (`MxpegClient`, mxpeg/client.go). The line reader, the HTTP handshake (the status code is the second field of the status line; headers run up to the empty line), the LF NUL command framing, and the table of listeners waiting for replies, keyed by 32-bit command ids.
- **App connection** (`Connection`, connection.go). Three directions of traffic:
  - the APP12 framing of events sent to an app;
  - the reader for the app's text and binary events, and the classification of 22-byte talk-back control segments;
  - the command handler, the app's HTTP request with its /bell and /nobell commands, and the gating of bell notifications by a registered event id.
- **JSON accessors** (`JsonValue`, json_value.go). The total accessors over decoded JSON that answer nil, 0, "" or false when the shape is wrong.
- **Server state** (`Server`, server.go). The state that the server's command loop changes one step at a time: the connection list, the audio owner, the saved tables, and whether the next frame must be patched. Each step is a function from the state to the next state and the bytes it sends.

Go panics that the reader's `Recover` turns into errors are `Err` results of a `Result` datatype (`Bytes`). A panic it re-raises is the `Panic` error. The integer arithmetic that `%` needs lives in `Modular`.

## Model

| member | source | states |
|---|---|---|
| JpegTables.ExtractDqtDht | mobell/mxpeg/helpers.go:3-39 | the saved DQT (DHT) bytes are the DQT (DHT) segments the marker walk from offset 2 meets before it stops, whole and in frame order |
| JpegTables.Walk | mobell/mxpeg/helpers.go:5-23 | the walk stops at a place where no segment starts, and it stops at the scan exactly when an SOS marker is there |
| JpegTables.WalkTiles | mobell/mxpeg/helpers.go:8-35 | the segments the walk passes lie back to back, from offset 2 to where it stops, each inside the frame |
| JpegTables.ExtractedFitsFrame | mobell/mxpeg/helpers.go:19-35 | the saved tables together are never longer than the frame less its two SOI bytes |
| JpegTables.ExtractedIffPresent | mobell/mxpeg/helpers.go:25-33 | a kind of table is saved (non-empty) exactly when the walk meets a segment of that kind |
| JpegTables.TablesEmptyIffAbsent | mobell/mxpeg/helpers.go:25-33 | for any tiling, the tables of a kind are empty exactly when no segment of the tiling has that marker |
| JpegTables.PatchDqtDht | mobell/mxpeg/helpers.go:41-92 | the patched frame is the frame with each saved kind it lacks inserted, DQT then DHT, just before SOS; a frame whose walk does not reach SOS is returned unchanged |
| JpegTables.PatchLoopIsPatched | mobell/mxpeg/helpers.go:46-89 | the copy loop, started on the two SOI bytes, produces that patched frame |
| JpegTables.PatchWithoutTablesIsIdentity | mobell/mxpeg/helpers.go:48-89 | with no saved tables, the patch returns the frame unchanged |
| JpegTables.PatchKeepsCompleteFrame | mobell/mxpeg/helpers.go:75-81 | a frame that has both kinds of table before SOS is never changed |
| JpegTables.ExtractedTablesWellFormed | mobell/mxpeg/helpers.go:25-33 | the tables saved from a frame that reaches its scan are sequences of whole segments of their kind |
| JpegTables.ExtractAfterPatch | mobell/mxpeg/helpers.go:3-92 | saving the tables of a patched frame gives the frame's own tables of each kind, or the inserted ones where it had none |
| JpegTables.PatchSuppliesMissingTables | mobell/mxpeg/helpers.go:3-92 | the round trip: a motion frame without tables, patched with well-formed tables, gives back exactly those tables |
| RingBuffer.Capacity | mobell/mxpeg/ring_buffer.go:27-35 | the capacity is a power of two, at least the requested size, and the least such (or 1) |
| RingBuffer.MaskIsReduction | mobell/mxpeg/ring_buffer.go:62-64 | masking with size − 1 is the non-negative remainder modulo the size, negative indices included |
| RingBuffer.WindowLength | mobell/mxpeg/ring_buffer.go:66-68 | `dist(end)` counts the buffered bytes |
| RingBuffer.WindowAt | mobell/mxpeg/ring_buffer.go:62-68 | the i-th buffered byte is in the slot i after `start`, round the ring |
| RingBuffer.Read | mobell/mxpeg/ring_buffer.go:70-93 | the read fails with overflow once `dist(end)` ≥ size − 1, and with a read error when the source is exhausted; otherwise it keeps `start` and `pos` and takes bytes from the source |
| RingBuffer.ReadKeepsStream | mobell/mxpeg/ring_buffer.go:70-93 | the bytes read are appended to the window and nothing buffered is lost: the stream from the cut point is unchanged |
| RingBuffer.ReadAsWritten | mobell/mxpeg/ring_buffer.go:70-93 | the read as written succeeds under the same conditions and keeps `start` and `pos` |
| RingBuffer.ReadAsWrittenLosesWindow | mobell/mxpeg/ring_buffer.go:76-80 | when the window starts at slot 0 or wraps and the source fills the chosen slice, `end` lands on `start`: the window empties and the buffered bytes drop out of the stream |
| RingBuffer.ReadAsWrittenExample | mobell/mxpeg/ring_buffer.go:76-80 | a four-byte buffer over the stream 1,2,3,4,5 keeps only 5 as written, and all five bytes when corrected |
| RingBuffer.ReadToPos | mobell/mxpeg/ring_buffer.go:95-99 | reads until the index is buffered; fails (read error) exactly when the stream ends before it; reads nothing when it is already buffered |
| RingBuffer.ReadFails | mobell/mxpeg/ring_buffer.go:84-90 | a read that fails while an index is still missing fails because the source ran out, and the stream then ends before the index |
| RingBuffer.MoveRefines | mobell/mxpeg/ring_buffer.go:101-107 | Move on the buffer agrees with the cursor's Move: the same overflow, or the same new position |
| RingBuffer.Move | mobell/mxpeg/ring_buffer.go:101-107 | a move that does not overflow keeps the buffer valid, the buffered window and the source; only the read position changes |
| RingBuffer.Get | mobell/mxpeg/ring_buffer.go:109-112 | before the last slot, Get agrees with the cursor's Get; on the last slot it returns the slot's stale byte and reads nothing |
| RingBuffer.Next | mobell/mxpeg/ring_buffer.go:114-118 | Next agrees with the cursor's Next: the byte at the position, and the position one further |
| RingBuffer.CutAt | mobell/mxpeg/ring_buffer.go:120-124 | cut agrees with the cursor's cut at the distance of the masked index |
| RingBuffer.Cut | mobell/mxpeg/ring_buffer.go:126-128 | Cut agrees with the cursor's cut at the position |
| RingBuffer.CutWithStep | mobell/mxpeg/ring_buffer.go:130-132 | CutWithStep agrees with the cursor's cut `step` bytes from the position |
| RingBuffer.GetAndCut | mobell/mxpeg/ring_buffer.go:134-138 | GetAndCut agrees with the cursor's: the bytes from the cut point up to the position, then a cut there |
| RingBuffer.GetRange | mobell/mxpeg/ring_buffer.go:140-157 | get fails exactly when the stream ends before `to`; otherwise it returns `norm(to − from)` slots from `norm(from)` on, round the ring |
| RingBuffer.CopyRange | mobell/mxpeg/ring_buffer.go:146-156 | both copy branches give `(t − f) mod size` bytes, the i-th from slot `f + i` round the ring |
| RingBuffer.ResetRefines | mobell/mxpeg/ring_buffer.go:56-60 | after Reset the cursor is an empty window over what the source still holds |
| RingBuffer.Reset | mobell/mxpeg/ring_buffer.go:56-60 | after Reset nothing is buffered and the read position is at the cut point; the storage and the source are kept |
| RingBuffer.NewRefines | mobell/mxpeg/ring_buffer.go:26-39 | a new buffer is the cursor at the start of the whole source, with the chosen capacity |
| RingBuffer.New | mobell/mxpeg/ring_buffer.go:26-39 | a new buffer has the power-of-two capacity for the requested size, buffers nothing and reads from the given source |
| StreamCursor.Move | mobell/mxpeg/ring_buffer.go:101-107 | a step that reaches the capacity overflows; otherwise the position moves by the step |
| StreamCursor.Get | mobell/mxpeg/ring_buffer.go:109-112 | the byte at the position, if it lies before the last slot and within the stream; a read error when the stream ends first |
| StreamCursor.Next | mobell/mxpeg/ring_buffer.go:114-118 | the byte at the position, and the position one further |
| StreamCursor.CutAt | mobell/mxpeg/ring_buffer.go:120-124 | the stream before the offset is dropped, and the position keeps pointing at the same byte |
| StreamCursor.Cut | mobell/mxpeg/ring_buffer.go:126-128 | the stream restarts at the position |
| StreamCursor.CutWithStep | mobell/mxpeg/ring_buffer.go:130-132 | the stream restarts `step` bytes from the position, and the position stays on its byte |
| StreamCursor.GetAndCut | mobell/mxpeg/ring_buffer.go:134-138 | the bytes before the position are returned, and the stream restarts at the position |
| PacketReader.SkipPastFF | mobell/mxpeg/packet_reader.go:56-57 | the skip ends just after a 0xFF, and a read error means the stream ended first |
| PacketReader.SkipStopsAtFirst | mobell/mxpeg/packet_reader.go:56-57 | the skip stops at the first 0xFF; if it fails, there is no 0xFF before the capacity |
| PacketReader.ReadPacketAnnounced | mobell/mxpeg/packet_reader.go:50-74 | every packet read is the one announced by the marker after the first 0xFF |
| PacketReader.ReadPacket | mobell/mxpeg/packet_reader.go:50-74 | after a packet the next read starts at a fresh cut point of the same capacity, strictly later in the stream |
| PacketReader.ReadPacketSkipsTo | mobell/mxpeg/packet_reader.go:55-60 | whatever precedes the first 0xFF is dropped, and the packet is read from that 0xFF |
| PacketReader.ReadMarked | mobell/mxpeg/packet_reader.go:62-73 | SOI is video, APP11 is audio, APP12 is an event; any other marker, APP13 included, is a parse error; a missing marker byte is a read error |
| PacketReader.ReadLength | mobell/mxpeg/packet_reader.go:99-100 | the big-endian 16-bit length at the position, and the position two further |
| PacketReader.ScanEntropy | mobell/mxpeg/packet_reader.go:102-113 | the scan stops on a 0xFF that is followed by a non-zero byte |
| PacketReader.ScanPassesStuffed | mobell/mxpeg/packet_reader.go:102-113 | every 0xFF the scan passes is followed by 0x00, so the stop is the first unstuffed 0xFF |
| PacketReader.VideoSegment | mobell/mxpeg/packet_reader.go:85-100 | a marker other than SOF0, SOS, APP0, COM, DQT or DHT is a parse error; any other segment is passed over by its length |
| PacketReader.ReadVideo | mobell/mxpeg/packet_reader.go:76-119 | the frame is the bytes from SOI through the EOI marker, and the next packet starts after it |
| PacketReader.ReadAudioPcm | mobell/mxpeg/packet_reader.go:145-169 | 'M' and 'X' must follow the length (a parse error otherwise); the whole segment is handed on when the type is 'A' and dropped otherwise; the next packet starts after it |
| PacketReader.ReadEvents | mobell/mxpeg/packet_reader.go:171-197 | the payload is the length − 2 bytes after the length field, less one trailing NUL; the next packet starts after it |
| PacketReader.ReadEventsAsWritten | mobell/mxpeg/packet_reader.go:181-184 | as written, the reader agrees with ReadEvents except on an empty payload, where it panics |
| PacketReader.EmptyEventPanics | mobell/mxpeg/packet_reader.go:181-184 | an APP12 segment with length field 2 crashes the reader as written and is an empty event when corrected |
| PacketFormat.HasSOF0Exactly | mobell/mxpeg/packet_reader.go:95-97 | the frame-start flag is set exactly when some segment of the frame is SOF0 |
| PacketFormat.ReadPacketVideo | mobell/mxpeg/packet_reader.go:76-119 | a frame of well-formed segments after any garbage is read back whole, with the frame-start flag set exactly when it holds SOF0 |
| PacketFormat.ReadPacketAudio | mobell/mxpeg/packet_reader.go:145-169 | an encoded PCM segment after any garbage is read back whole when its type is 'A', and dropped otherwise |
| PacketFormat.ReadPacketEvent | mobell/mxpeg/packet_reader.go:171-197 | an encoded event segment after any garbage is read back as its payload less one trailing NUL |
| PacketFormat.SkipGarbage | mobell/mxpeg/packet_reader.go:55-60 | bytes without 0xFF before a packet do not change what is read |
| MxpegClient.ReadLine | mobell/mxpeg/client.go:192-211 | the line is the bytes before the first CR or LF; the stream restarts past the terminator and one following LF |
| MxpegClient.ReadLineFinds | mobell/mxpeg/client.go:192-211 | whenever the terminator and the byte after it are in the stream, the line is read |
| MxpegClient.ReadLineCrLf | mobell/mxpeg/client.go:192-211 | a CR LF terminated line reads back as itself, and the stream continues after the LF |
| MxpegClient.ReadLineSwallowsEmptyLine | mobell/mxpeg/client.go:202-207 | an LF terminator takes a second LF with it, so an empty line right after it is not seen |
| MxpegClient.ReadLineUnterminated | mobell/mxpeg/client.go:192-211 | a stream that ends without a terminator is a read error |
| MxpegClient.Fields | mobell/mxpeg/client.go:172 | every field is a non-empty run of non-space bytes |
| MxpegClient.FieldsJoin | mobell/mxpeg/client.go:172 | splitting words that are joined by spaces gives back those words |
| MxpegClient.AtoiDecimal | mobell/mxpeg/client.go:177 | the status parse reads back the decimal form of every 64-bit value, either sign |
| MxpegClient.AtoiOutOfRange | mobell/mxpeg/client.go:177 | a value beyond 64 bits is a number error |
| MxpegClient.Atoi | mobell/mxpeg/client.go:177 | a parsed status is a 64-bit value and ends in a digit; every failure is a number error |
| MxpegClient.SkipHeaders | mobell/mxpeg/client.go:182-187 | the header lines are consumed up to the empty line: the stream left is strictly shorter and starts at a cut point |
| MxpegClient.HandleHttp | mobell/mxpeg/client.go:168-190 | a failed status line read is passed on; a status line with fewer than two fields is a read error; a second field that is not an integer is a number error; a status read is the number in the second field, and the stream continues after the headers |
| MxpegClient.HandleHttpReads | mobell/mxpeg/client.go:168-190 | the status is the number in the second field of the status line, and the stream continues after the empty line that ends the headers |
| MxpegClient.HandleHttpShortStatus | mobell/mxpeg/client.go:172-175 | a one-word status line is a read error |
| MxpegClient.WriteCmd | mobell/mxpeg/client.go:221-228 | the frame is the command unchanged, then LF and NUL, two bytes longer |
| MxpegClient.NextId | mobell/mxpeg/client.go:235 | the next id is one more, wrapping to 0 after 2^32 − 1 |
| MxpegClient.SendCmd | mobell/mxpeg/client.go:234-258 | the command gets the next id; its listener is stored under that id only when given; the command is sent framed by writeCmd |
| MxpegClient.CommandFields | mobell/mxpeg/client.go:237-248 | the command carries its id and method, and a params field exactly when params are given |
| MxpegClient.OnEvent | mobell/mxpeg/client.go:260-278 | an event for a waiting listener is answered by that listener, which is dropped exactly when it answers true; any other event is answered true and changes nothing; other listeners are never touched |
| MxpegClient.EventId | mobell/mxpeg/client.go:260-266 | an event has an id exactly when its "id" field is a number; the id is that number modulo 2^32, so an id within uint32 range is kept as it is |
| MxpegClient.ReplyReachesListener | mobell/mxpeg/client.go:234-278 | the reply to a command reaches that command's listener and is answered as the listener answers; the listener is removed exactly when it answers true |
| MxpegClient.SendAllIds | mobell/mxpeg/client.go:235 | until the counter wraps, consecutive commands get consecutive ids |
| MxpegClient.ResetRenumbers | mobell/mxpeg/client.go:141-147 | after the reset the commands are numbered 11, 12, … and no event reaches a listener of the previous connection |
| MxpegClient.Reset | mobell/mxpeg/client.go:141-147 | after a reset the next command id is 11 and no listener waits |
| MxpegClient.Handshake | mobell/mxpeg/client.go:131-147 | a handshake error or a status other than 200 ends the attempt; a 200 resets the ids and the listener table |
| Connection.EventFrameReads | mobell/connection.go:49-69 | the frame of an event is the camera's own APP12 segment: the packet reader reads the payload back |
| Connection.EventFrame | mobell/connection.go:58-66 | the frame is 0xFF, APP12, the payload length plus two as a big-endian 16-bit field (truncated to 16 bits), then the payload unchanged |
| Connection.ShiftSplits | mobell/connection.go:58-66 | the two length bytes are the big-endian split of the 16-bit length |
| Connection.BellEvent | mobell/connection.go:71-80 | a bell notification exists exactly when the app registered a bell event id |
| Connection.SuppressEvent | mobell/connection.go:82-93 | a suppress notification exists exactly when the app registered a bell event id |
| Connection.BellEventReads | mobell/connection.go:71-93 | the app reads "bell", the ringing flag and its own event id from a bell notification, and "suppress" from a suppress one |
| Connection.TextEvt | mobell/connection.go:262-279 | a text event is the bytes before the first LF, which is followed by NUL; the stream restarts after the NUL |
| Connection.BinaryEvt | mobell/connection.go:251-261 | a binary event needs APP11 after the 0xFF (a parse error otherwise) and is the whole segment, length + 2 bytes |
| Connection.ReadEvt | mobell/connection.go:248-280 | an event starting with 0xFF is read as binary, any other as text |
| Connection.ReadEvtKind | mobell/connection.go:248-280 | a binary event starts with 0xFF and a text event never does, so the first byte tells them apart |
| Connection.ReadEvtText | mobell/connection.go:262-279 | a command framed by writeCmd reads back as itself, and the rest of the stream is left unread |
| Connection.ReadEvtBinary | mobell/connection.go:251-261 | an APP11 segment reads back whole |
| Connection.ClassifyAsWritten | mobell/connection.go:152-161 | as written, the dispatch panics exactly on an empty event |
| Connection.Classify | mobell/connection.go:152-179 | a 22-byte 0xFF segment of type 'S' starts talk-back when byte 9 is 0x81 and stops it otherwise; other 0xFF events are audio, and the rest go to the JSON decoder |
| Connection.ClassifyAgrees | mobell/connection.go:152-179 | the corrected dispatch differs from the one as written only on the empty event |
| Connection.EmptyTextEventPanics | mobell/connection.go:152 | the text event "\n\0" is read as an empty event, on which the dispatch as written panics |
| Connection.AudioAction | mobell/connection.go:152-161 | a 22-byte segment of type S is a talk-back start exactly when its flag byte is 0x81 and a stop otherwise; every other binary segment is audio; the segment is passed on unchanged |
| Connection.TextEvent | mobell/connection.go:162-179 | the connection ends exactly when the event does not decode to an object or null; otherwise the command carries the numeric id, the string method and the params of the event, with 0, "" and nil for missing or mistyped fields |
| Connection.CommandDispatched | mobell/connection.go:162-179 | a command framed by writeCmd reaches handleEvt with the id, method and params of its JSON object |
| Connection.AudioSegmentsClassified | mobell/connection.go:152-161 | for an encoded audio segment: a type 'S' segment with 15 samples starts or stops talk-back by its flag, and every other segment is audio data |
| Connection.HandleEvt | mobell/connection.go:183-210 | "pong" gets no reply; every other reply has the command's id and a nil error, and its result is the addressee list for "list_addressees" and 0 otherwise; "live" enables video, "trigger" opens the door, "bell_ack" accepts or rejects by its first parameter, "suppress" silences the others, "register_device" registers under the command id, and any other method makes no request |
| Connection.BellCommand | mobell/connection.go:223-238 | a request line rings the bell exactly when it is a GET or POST of /bell, and stops the ringing exactly when it is a GET or POST of /nobell |
| Connection.ScanRequest | mobell/connection.go:217-238 | the request lines are read up to the empty line; the stream left is strictly shorter and starts at a cut point |
| Connection.BellRequestLines | mobell/connection.go:223-238 | `GET /bell …` rings and `POST /nobell …` stops ringing |
| Connection.HandleRequest | mobell/connection.go:212-246 | a request with a bell command is answered "Command applied" and ends the connection; a request without one gets 200 OK and goes on to the event loop |
| Connection.HandleRequestReads | mobell/connection.go:212-246 | for CR LF terminated lines, the bells are rung in line order, and the event loop starts after the empty line exactly when no line is a bell command |
| JsonValue.AsBool | mobell/json_value.go:51-63 | true exactly for the boolean true and the string "true" |
| JsonValue.IsNil | mobell/json_value.go:7-9 | only the absent value is nil, and every accessor then answers its default |
| JsonValue.AsMap | mobell/json_value.go:11-19 | a map exactly for an object, and the object is rebuilt from it |
| JsonValue.AsArr | mobell/json_value.go:21-29 | a slice exactly for an array, and the array is rebuilt from it |
| JsonValue.AsInt | mobell/json_value.go:31-39 | a number is read back as itself; anything else reads as 0 |
| JsonValue.AsString | mobell/json_value.go:41-49 | a string is read back as itself; anything else reads as "" |
| JsonValue.MapGet | mobell/json_value.go:65-73 | the stored value under the key, or nil on a non-object or a missing key |
| JsonValue.ArrGet | mobell/json_value.go:75-83 | the item at the index, or nil on a non-array or an index out of range |
| JsonValue.NilDefaults | mobell/json_value.go:7-83 | on nil every accessor gives its default, and every lookup gives nil |
| JsonValue.AccessorsRecover | mobell/json_value.go:7-49 | isNil holds exactly for nil, and each typed accessor gives back what a value of its kind holds |
| JsonValue.WrongKindDefaults | mobell/json_value.go:11-49 | an accessor applied to a value of another kind gives its default |
| JsonValue.FollowNil | mobell/json_value.go:65-83 | every chain of lookups from nil gives nil |
| JsonValue.FollowSplit | mobell/json_value.go:65-83 | a chain of lookups can be followed in two parts |
| JsonValue.NilAbsorbs | mobell/json_value.go:65-83 | once a chain meets nil, the rest of the chain gives nil |
| Server.AddConnection | mobell/server.go:251-255 | a new connection goes to the back of the list, nothing else in the state changes, and the invariant holds |
| Server.RemoveFirst | mobell/server.go:257-269 | only the first occurrence is removed, so the list is one shorter exactly when the connection was in it |
| Server.RemoveFirstCuts | mobell/server.go:257-269 | the removal cuts out the one position, and the other connections keep their order |
| Server.RemoveFirstDistinct | mobell/server.go:257-269 | in a list without repeats, the connection is gone and every other one stays |
| Server.DelConnection | mobell/server.go:257-271 | the connection leaves the list; if it owned the audio, ownership is cleared and the camera gets the stop segment; otherwise the owner is kept; nothing else in the state changes |
| Server.DelConnectionKeeps | mobell/server.go:257-271 | removal keeps the invariant and the order of the others |
| Server.AudioStopEvtIsStop | mobell/server.go:14-17 | the stop segment is an APP11 segment with length field 20 that the event reader reads whole and the dispatch takes for a stop |
| Server.AudioStart | mobell/server.go:287-297 | a free camera is taken by the connection and its segment is forwarded; while another connection owns it, nothing changes |
| Server.AudioStop | mobell/server.go:299-309 | the owner's stop gives the camera back and forwards the segment to it; a connection that is not the owner changes nothing and sends nothing |
| Server.AudioData | mobell/server.go:311-317 | the owner's audio is forwarded to the camera as it is; anything else sends nothing; the state is unchanged |
| Server.OwnerOnly | mobell/server.go:287-317 | a connection that is not the owner cannot stop or feed the audio, nor take it while it is owned |
| Server.StartDataStop | mobell/server.go:287-317 | start, audio and stop from one connection send all three segments and give the camera back |
| Server.AudioStepsKeepInv | mobell/server.go:287-317 | the audio owner stays a live connection across the audio steps |
| Server.SendVideo | mobell/server.go:208-215 | the data goes exactly to the listed connections that enabled video |
| Server.EnableVideo | mobell/server.go:273-285 | the connection gets video, and the patch becomes pending every time; the snapshot is sent only on the first enable and only when there is one; the saved tables, the connection list, the audio owner and the other connections are unchanged |
| Server.EnableVideoOnce | mobell/server.go:273-285 | a second enable sends no second snapshot |
| Server.OnVideo | mobell/server.go:217-243 | an undecodable frame makes the client reconnect; otherwise the frame's tables replace the saved ones when present, the frame is patched with them if a patch was pending, the flag is cleared, and the frame goes to every video connection |
| Server.PatchOnce | mobell/server.go:217-243 | at most one frame is patched per pending patch: every later frame goes out as it came |
| Server.UnpatchedFeed | mobell/server.go:217-243 | without a pending patch every frame goes out as it came |
| Server.OnAudio | mobell/server.go:245-249 | the camera's audio goes exactly to the connections that enabled video |
| Server.RegisterBell | mobell/server.go:319-323 | the connection's bell id is set, and nothing else in the state changes |
| Server.NotifyAll | mobell/server.go:327-336 | every notice goes to a listed, registered connection other than the excluded one, and every such connection gets one |
| Server.SendBell | mobell/server.go:192-198 | every registered connection is told whether the bell rings, and no other connection is |
| Server.NotifyOthers | mobell/server.go:327-336 | every registered connection except the one that acted gets the notice, and that one never does |
| Server.BellResp | mobell/server.go:338-343 | the camera gets the answer first, then the other apps stop ringing |
| Server.OnBell | mobell/server.go:179-190 | the listener stays registered; a "bell" event rings or stops every registered app by its second result item, and any other event sends nothing |
| Server.BellEventRoundTrip | mobell/server.go:179-198 | a bell notification the proxy sends, fed back to onBell, rings every app the same way |
| Server.Apply | mobell/connection.go:186-204 | the server step each request of handleEvt makes: "live" is enableVideo (server.go:273-285), register_device is registerBell (server.go:319-323), bell_ack, reject and trigger reach the camera with their parameters, and suppress notifies the others |
| Server.BellAckForwarded | mobell/server.go:345-351 | an app's bell_ack is answered under its id, reaches the camera with the app's answer, and stops the ringing of the other apps only |
| Server.MethodsReachServer | mobell/connection.go:186-204 | "live" switches the app to video, "trigger" sends the camera the door command, "suppress" silences the other apps, and an unknown method changes nothing and sends nothing |

## Left out

- RingBuffer.Read: the model's read leaves the slot before `start` free, where ring_buffer.go:76-80 can fill it. The refinement lemmas (`ReadToPos`, `Get`, `Next`, `CutAt`, `GetAndCut`, `GetRange`) are about this corrected read. `RingBuffer.ReadAsWritten` models the code as written (see Findings).
- PacketReader.ReadEvents: the model's readEvents accepts an empty payload, where packet_reader.go:181-184 panics. `PacketReader.ReadEventsAsWritten` models the code as written (see Findings).
- PacketReader.ReadPacket: dispatches to the corrected `ReadEvents`, so an APP12 segment with length field 2 is an empty event here, not a crash.
- Connection.Classify: dispatches an empty text event to the decoder, where connection.go:152 panics. `Connection.ClassifyAsWritten` models the code as written (see Findings).
- StreamCursor.Get: reports an overflow on the last slot of the capacity, where ring_buffer.go:109-112 returns the slot's stale byte. `RingBuffer.Get` models the stale byte, and the refinement holds before the last slot.
- JpegTables.PatchDqtDht: requires a frame of at least two bytes. `frame[:2]` panics on a shorter one; `Server.OnVideo` models that panic as `Err(Panic)`.
- ErrClosed and ErrReadError (ring_buffer.go:84-89) are one `ReadError`. Which one the code returns depends on the text of the socket's error, which is I/O detail.
- Recover (ring_buffer.go:41-54) has no member of its own. The errors it returns are the `Err` results of every operation. A panic it re-raises (an index out of range) is the `Panic` error.
- readAudioAlaw (packet_reader.go:121-143) is dead code: ReadPacket answers APP13 with a parse error, and readAudioAlaw only ever returns one. `ReadMarked` states the parse error.
- The byte source behind the ring buffer is a sequence of chunks, each delivered by one read. An exhausted source is a read error. Sockets, deadlines and keepalive are not modelled.
- The codec (decoding a frame and taking its snapshot) is not part of this model. `Server.OnVideo` takes the decode result as a flag, and `Server.EnableVideo` takes the snapshot as a parameter.
- json.Marshal and json.Unmarshal are parameters: `marshal` in `MxpegClient.SendCmd` and `decode` in `Connection.TextEvent`. `Out.EventToApp` carries the event itself; its bytes on the wire are `Connection.EventFrame` of the marshalled event.
- JSON numbers are integers. `asInt` truncates a float64 and `OnEvent` converts it to uint32; fractional and out-of-range numbers are not modelled. `MxpegClient.EventId` keeps the low 32 bits, as the conversion does on amd64.
- MxpegClient.Fields: splits at ASCII white space only. strings.Fields also splits at Unicode spaces, which never occur in the status lines and request lines read here.
- runOnce (client.go:110-166): the request it writes, with its base64 credentials, and the packet loop after the handshake are I/O. `MxpegClient.Handshake` models the status check and the reset.
- OnStreamStart (server.go:158-177): the chain of commands it sends the camera is the client's `SendCmd` applied in turn, with listeners that are closures. Its `list_addressees` lookup is the nil-safe chain `JsonValue.NilAbsorbs` covers.
- The server's command loop (server.go:134-146) runs each closure one at a time. This is what makes the step functions faithful. The channel, the goroutines, the timers and the keepalive ping in connection.go are not modelled.
- Connection.BinaryEvt: a length field below 2 moves the position backwards before the cut. The model follows the cursor there and states nothing about it.
- Connection.HandleEvt: the reply is stated as a JSON value; sending it is not modelled beyond its framing, which is `Connection.EventFrame` of the marshalled reply. The request it makes is applied by `Server.Apply`.

## Findings

| source | as written | input that shows it | evidently intended | confidence | as-written member | corrected member |
|---|---|---|---|---|---|---|
| mobell/mxpeg/ring_buffer.go:76-80 | when the window starts at slot 0 (or wraps), the slice read into runs up to `start`, so a read that fills it moves `end` onto `start` | a fresh 4-byte buffer whose source delivers 4 bytes: `end` returns to 0 and the window reads as empty | leave one slot free so that `end` never reaches `start` | not executed | RingBuffer.ReadAsWrittenLosesWindow | RingBuffer.ReadKeepsStream |
| mobell/mxpeg/packet_reader.go:181-184 | the last payload byte is read without checking that there is one | an APP12 segment `FF EC 00 02`: `v[len(v)-1]` is an index panic, which Recover re-raises | an empty payload is an empty event | not executed | PacketReader.EmptyEventPanics | PacketReader.ReadEvents |
| mobell/connection.go:152 | the first byte of an event is read without checking that there is one | the text event `0A 00` from an app: readEvt returns an empty slice and `data[0]` panics in a goroutine without recover | an empty event goes to the decoder, which rejects it and closes this connection only | not executed | Connection.EmptyTextEventPanics | Connection.Classify |

=== FILE: bytes.dfy ===
/** Bytes, JPEG/MxPEG marker codes and the error results shared by every part of the proxy. */
module Bytes {

  /** One octet of a stream. */
  type byte = x: int | 0 <= x < 256

  // JPEG marker codes (the byte after 0xFF) used by the MxPEG stream
  const SOI: byte := 0xD8
  const EOI: byte := 0xD9
  const SOS: byte := 0xDA
  const DQT: byte := 0xDB
  const DHT: byte := 0xC4
  const SOF0: byte := 0xC0
  const APP0: byte := 0xE0
  const APP11: byte := 0xEB
  const APP12: byte := 0xEC
  const APP13: byte := 0xED
  const COM: byte := 0xFE

  const LF: byte := 0x0A
  const CR: byte := 0x0D

  /** A 16-bit big-endian length field. */
  function BigEndian16(hi: byte, lo: byte): (n: nat)
    ensures n < 0x1_0000
  {
    hi * 256 + lo
  }

  /** The two bytes of a 16-bit big-endian field holding `n` truncated to 16 bits. */
  function Split16(n: nat): (r: (byte, byte))
    ensures BigEndian16(r.0, r.1) == n % 0x1_0000
  {
    ((n % 0x1_0000) / 256, n % 256)
  }

  /** The errors the proxy's readers report. `Panic` stands for a Go runtime panic that no
      `recover` turns into an error value: it ends the whole process. */
  datatype Error =
    | ParseError      // ErrParseError: unexpected marker or frame byte
    | ReadError       // ErrReadError: the byte source failed or ended
    | Overflow        // ErrOverflow: a position would leave the ring buffer's capacity
    | BadNumber       // strconv.Atoi rejected its input
    | CommandApplied  // the client HTTP request carried a /bell or /nobell command
    | BadStatus       // the camera answered the stream request with a status other than 200
    | Panic           // runtime index-out-of-range panic

  datatype Result<+T> = Ok(value: T) | Err(error: Error) {
    predicate IsFailure() { Err? }

    function PropagateFailure<U>(): Result<U>
      requires Err?
    {
      Err(error)
    }

    function Extract(): T
      requires Ok?
    {
      value
    }
  }

  datatype Option<+T> = None | Some(value: T)
}

=== FILE: client.dfy ===
/** The camera client (mobell/mxpeg/client.go): the HTTP handshake that opens the event stream,
    the line reader it uses, and the table of pending commands.

    The client posts a request for the camera's event stream, reads the HTTP status line and the
    header lines up to the empty line, and from then on sends JSON commands, each followed by
    LF and NUL. Every command carries a fresh 32-bit id; a command sent with a listener leaves
    the listener in a table under that id, and the camera's reply with the same id is handed to
    it. After each successful handshake the ids start again at 11 and the table is emptied. */
module MxpegClient {
  import opened Bytes
  import opened StreamCursor
  import opened JsonValue

  // ---------------------------------------------------------------------------------------
  // Lines

  predicate IsEol(b: byte) {
    b == CR || b == LF
  }

  /** No CR or LF in `d` from `from` up to (not including) `to`. */
  predicate NoEol(d: seq<byte>, from: nat, to: int) {
    forall i :: from <= i < to && i < |d| ==> !IsEol(d[i])
  }

  /** `for { c := rb.Next(); if c == 0x0d || c == 0x0a { break } }`: reads up to and including
      the first CR or LF from the position. */
  function SkipToEol(c: Cursor): (r: Result<Cursor>)
    requires Valid(c)
    ensures r.Ok? ==> Valid(r.value) && r.value.data == c.data && r.value.cap == c.cap
    ensures r.Ok? ==> c.pos < r.value.pos <= |c.data| && IsEol(c.data[r.value.pos - 1])
    ensures r.Ok? ==> NoEol(c.data, c.pos, r.value.pos - 1)
    ensures r.Err? && c.pos <= |c.data| && |c.data| + 1 < c.cap ==> r.error == ReadError
    decreases c.cap - c.pos
  {
    match Next(c)
    case Err(e) => Err(e)
    case Ok(n) => if IsEol(n.0) then Ok(n.1) else SkipToEol(n.1)
  }

  /** A line of `d` read from `from` ends at `k`: the terminator at `k` is the first CR or LF at
      or after `from`, and the byte after it is available (the reader looks at it). */
  predicate LineEndsAt(d: seq<byte>, from: nat, k: nat) {
    from <= k && k + 1 < |d| && IsEol(d[k]) && NoEol(d, from, k)
  }

  /** Where the next line starts after a terminator at `k`: one LF after the terminator is
      consumed with it, whether the terminator was CR or LF. */
  function Past(d: seq<byte>, k: nat): (n: nat)
    requires k + 1 < |d|
    ensures k + 1 <= n <= k + 2 && n <= |d|
  {
    if d[k + 1] == LF then k + 2 else k + 1
  }

  /** ReadLine: the bytes from the cut point up to the first CR or LF at or after the position;
      the stream is then cut past the terminator and one following LF. */
  function ReadLine(c: Cursor): (r: Result<(seq<byte>, Cursor)>)
    requires Valid(c)
    ensures r.Ok? ==> LineEndsAt(c.data, c.pos, |r.value.0|) && r.value.0 == c.data[..|r.value.0|]
    ensures r.Ok? ==> r.value.1 == Cursor(c.data[Past(c.data, |r.value.0|)..], 0, c.cap)
    ensures r.Ok? ==> 2 < c.cap && |r.value.0| + 1 < c.cap
    ensures r.Err? && c.pos <= |c.data| && |c.data| + 1 < c.cap && NoEol(c.data, c.pos, |c.data|) ==> r.error == ReadError
  {
    match SkipToEol(c)
    case Err(e) => Err(e)
    case Ok(c1) =>
      var c2 := Move(c1, -1).value;
      match GetAndCut(c2)
      case Err(e) => Err(e)
      case Ok(lc) =>
        match Move(lc.1, 1)
        case Err(e) => Err(e)
        case Ok(c3) =>
          match Get(c3)
          case Err(e) => Err(e)
          case Ok(b) =>
            match (if b == LF then Move(c3, 1) else Ok(c3))
            case Err(e) => Err(e)
            case Ok(c4) =>
              match Cut(c4)
              case Err(e) => Err(e)
              case Ok(c5) => Ok((lc.0, c5))
  }

  lemma {:induction false} SkipToEolFinds(c: Cursor, k: nat)
    requires Valid(c) && c.pos <= k < |c.data| && k + 1 < c.cap
    requires IsEol(c.data[k]) && NoEol(c.data, c.pos, k)
    ensures SkipToEol(c) == Ok(c.(pos := k + 1))
    decreases k - c.pos
  {
    if c.pos < k {
      assert !IsEol(c.data[c.pos]) && Next(c) == Ok((c.data[c.pos], c.(pos := c.pos + 1)));
      SkipToEolFinds(c.(pos := c.pos + 1), k);
    }
  }

  /** Whenever the line's terminator and the byte after it are in the stream, ReadLine returns
      the line and the stream past it. */
  lemma ReadLineFinds(c: Cursor, k: nat)
    requires Valid(c) && 2 < c.cap && k + 1 < c.cap
    requires LineEndsAt(c.data, c.pos, k)
    ensures ReadLine(c) == Ok((c.data[..k], Cursor(c.data[Past(c.data, k)..], 0, c.cap)))
  {
    SkipToEolFinds(c, k);
  }

  /** A CR LF terminated line reads back as itself, and the stream continues after the LF. */
  lemma ReadLineCrLf(line: seq<byte>, rest: seq<byte>, cap: nat)
    requires NoEol(line, 0, |line|) && |line| + 2 < cap
    ensures ReadLine(Cursor(line + [CR, LF] + rest, 0, cap)) == Ok((line, Cursor(rest, 0, cap)))
  {
    var d := line + [CR, LF] + rest;
    assert d[|line|] == CR && d[|line| + 1] == LF;
    assert NoEol(d, 0, |line|) by {
      forall i | 0 <= i < |line| ensures d[i] == line[i] { }
    }
    ReadLineFinds(Cursor(d, 0, cap), |line|);
    assert d[..|line|] == line;
    assert d[|line| + 2..] == rest;
  }

  /** An LF terminator takes a second LF with it, so an empty line right after an LF terminated
      one is not seen. */
  lemma ReadLineSwallowsEmptyLine(line: seq<byte>, rest: seq<byte>, cap: nat)
    requires NoEol(line, 0, |line|) && |line| + 2 < cap
    ensures ReadLine(Cursor(line + [LF, LF] + rest, 0, cap)) == Ok((line, Cursor(rest, 0, cap)))
  {
    var d := line + [LF, LF] + rest;
    assert d[|line|] == LF && d[|line| + 1] == LF;
    assert NoEol(d, 0, |line|) by {
      forall i | 0 <= i < |line| ensures d[i] == line[i] { }
    }
    ReadLineFinds(Cursor(d, 0, cap), |line|);
    assert d[..|line|] == line;
    assert d[|line| + 2..] == rest;
  }

  /** A stream that ends without a terminator gives a read error. */
  lemma ReadLineUnterminated(line: seq<byte>, cap: nat)
    requires NoEol(line, 0, |line|) && |line| + 1 < cap
    ensures ReadLine(Cursor(line, 0, cap)) == Err(ReadError)
  {
  }

  // ---------------------------------------------------------------------------------------
  // strings.Fields and strconv.Atoi on ASCII text

  /** White space as strings.Fields sees it in ASCII text: TAB, LF, VT, FF, CR and space. */
  predicate IsSpace(b: byte) {
    b == 0x20 || 0x09 <= b <= 0x0D
  }

  /** A field: a non-empty run of non-space bytes. */
  predicate Word(w: seq<byte>) {
    w != [] && forall i :: 0 <= i < |w| ==> !IsSpace(w[i])
  }

  /** The length of the leading run of non-space bytes. */
  function WordLen(s: seq<byte>): (n: nat)
    ensures n <= |s|
    ensures forall i :: 0 <= i < n ==> !IsSpace(s[i])
    ensures n < |s| ==> IsSpace(s[n])
  {
    if s == [] || IsSpace(s[0]) then 0 else 1 + WordLen(s[1..])
  }

  /** strings.Fields: the maximal runs of non-space bytes, in order. */
  function Fields(s: seq<byte>): (r: seq<seq<byte>>)
    ensures forall i :: 0 <= i < |r| ==> Word(r[i])
    decreases |s|
  {
    if s == [] then []
    else if IsSpace(s[0]) then Fields(s[1..])
    else [s[..WordLen(s)]] + Fields(s[WordLen(s)..])
  }

  /** The words separated by single spaces. */
  function Join(ws: seq<seq<byte>>): seq<byte>
    decreases |ws|
  {
    if ws == [] then []
    else if |ws| == 1 then ws[0]
    else ws[0] + [0x20] + Join(ws[1..])
  }

  /** A field followed by white space (or by nothing) is read whole. */
  lemma FieldsWordThen(w: seq<byte>, t: seq<byte>)
    requires Word(w) && (t == [] || IsSpace(t[0]))
    ensures Fields(w + t) == [w] + Fields(t)
  {
    var s := w + t;
    assert s[0] == w[0];
    assert forall i :: 0 <= i < |w| ==> s[i] == w[i];
    assert t != [] ==> s[|w|] == t[0];
    var n := WordLen(s);
    assert n == |w|;
    assert s[..n] == w && s[n..] == t;
  }

  /** Fields splits a space-joined sequence of words back into those words. */
  lemma {:induction false} FieldsJoin(ws: seq<seq<byte>>)
    requires forall i :: 0 <= i < |ws| ==> Word(ws[i])
    ensures Fields(Join(ws)) == ws
    decreases |ws|
  {
    if |ws| == 1 {
      FieldsWordThen(ws[0], []);
      assert ws[0] + [] == ws[0];
    } else if |ws| > 1 {
      var t := [0x20] + Join(ws[1..]);
      assert ws[0] + [0x20] + Join(ws[1..]) == ws[0] + t;
      FieldsWordThen(ws[0], t);
      assert t[1..] == Join(ws[1..]);
      FieldsJoin(ws[1..]);
      assert [ws[0]] + ws[1..] == ws;
    }
  }

  /** No line terminator inside space-joined words (CR and LF are white space). */
  lemma {:induction false} JoinNoEol(ws: seq<seq<byte>>)
    requires forall i :: 0 <= i < |ws| ==> Word(ws[i])
    ensures NoEol(Join(ws), 0, |Join(ws)|)
    decreases |ws|
  {
    if |ws| > 1 {
      JoinNoEol(ws[1..]);
      var j := Join(ws);
      forall i | 0 <= i < |j|
        ensures !IsEol(j[i])
      {
        if i < |ws[0]| {
          assert j[i] == ws[0][i];
        } else if i > |ws[0]| {
          assert j[i] == Join(ws[1..])[i - |ws[0]| - 1];
        }
      }
    }
  }

  predicate IsDigit(b: byte) {
    0x30 <= b <= 0x39
  }

  predicate AllDigits(s: seq<byte>) {
    forall i :: 0 <= i < |s| ==> IsDigit(s[i])
  }

  /** The value of a run of decimal digits, most significant first. */
  function DigitsValue(s: seq<byte>): nat
    requires AllDigits(s)
    decreases |s|
  {
    if s == [] then 0 else DigitsValue(s[..|s| - 1]) * 10 + (s[|s| - 1] - 0x30)
  }

  const MinInt64: int := -0x8000_0000_0000_0000
  const MaxInt64: int := 0x7FFF_FFFF_FFFF_FFFF

  /** strconv.Atoi on a 64-bit platform: an optional sign and at least one decimal digit, with a
      value that fits in 64 bits; anything else is a number error. */
  function Atoi(s: seq<byte>): (r: Result<int>)
    ensures r.Err? ==> r.error == BadNumber
    ensures r.Ok? ==> MinInt64 <= r.value <= MaxInt64
    ensures r.Ok? ==> s != [] && IsDigit(s[|s| - 1])
  {
    var signed := s != [] && (s[0] == 0x2B || s[0] == 0x2D);
    var d := if signed then s[1..] else s;
    if d == [] || !AllDigits(d) then Err(BadNumber)
    else
      var v: int := if signed && s[0] == 0x2D then 0 - DigitsValue(d) as int else DigitsValue(d);
      if v < MinInt64 || MaxInt64 < v then Err(BadNumber) else Ok(v)
  }

  /** The decimal digits of `n`, without leading zeros. */
  function Decimal(n: nat): (r: seq<byte>)
    ensures r != [] && AllDigits(r)
    decreases n
  {
    if n < 10 then [0x30 + n] else Decimal(n / 10) + [0x30 + n % 10]
  }

  lemma {:induction false} DecimalValue(n: nat)
    ensures DigitsValue(Decimal(n)) == n
    decreases n
  {
    if n >= 10 {
      var d := Decimal(n);
      assert d[..|d| - 1] == Decimal(n / 10);
      DecimalValue(n / 10);
    }
  }

  /** Atoi reads back the decimal form of every 64-bit value, positive or negative. */
  lemma AtoiDecimal(n: nat)
    ensures n <= MaxInt64 ==> Atoi(Decimal(n)) == Ok(n)
    ensures n <= -MinInt64 ==> Atoi([0x2D] + Decimal(n)) == Ok(-(n as int))
  {
    DecimalValue(n);
    assert ([0x2D] + Decimal(n))[1..] == Decimal(n);
  }

  /** A value beyond 64 bits is a number error. */
  lemma AtoiOutOfRange(n: nat)
    requires n > MaxInt64
    ensures Atoi(Decimal(n)) == Err(BadNumber)
  {
    DecimalValue(n);
  }

  // ---------------------------------------------------------------------------------------
  // The HTTP handshake

  /** The header lines up to and including the empty line. */
  function SkipHeaders(c: Cursor): (r: Result<Cursor>)
    requires Valid(c)
    ensures r.Ok? ==> Valid(r.value) && r.value.pos == 0 && r.value.cap == c.cap
    ensures r.Ok? ==> |r.value.data| < |c.data|
    decreases |c.data|
  {
    match ReadLine(c)
    case Err(e) => Err(e)
    case Ok(lc) => if lc.0 == [] then Ok(lc.1) else SkipHeaders(lc.1)
  }

  /** handleHttp: the status code, the second field of the status line, once the header lines
      up to the empty line have been read. */
  function HandleHttp(c: Cursor): (r: Result<(int, Cursor)>)
    requires Valid(c)
    ensures r.Ok? ==> Valid(r.value.1) && r.value.1.pos == 0 && r.value.1.cap == c.cap
    ensures r.Err? && ReadLine(c).Ok? && |Fields(ReadLine(c).value.0)| < 2 ==> r.error == ReadError
    ensures ReadLine(c).Err? ==> r == Err(ReadLine(c).error)
    ensures ReadLine(c).Ok? && |Fields(ReadLine(c).value.0)| < 2 ==> r == Err(ReadError)
    ensures ReadLine(c).Ok? && |Fields(ReadLine(c).value.0)| >= 2 && Atoi(Fields(ReadLine(c).value.0)[1]).Err? ==>
              r == Err(BadNumber)
    ensures r.Ok? ==> ReadLine(c).Ok? && |Fields(ReadLine(c).value.0)| >= 2
                      && Atoi(Fields(ReadLine(c).value.0)[1]) == Ok(r.value.0)
  {
    match ReadLine(c)
    case Err(e) => Err(e)
    case Ok(lc) =>
      var f := Fields(lc.0);
      if |f| < 2 then Err(ReadError)
      else
        match Atoi(f[1])
        case Err(e) => Err(e)
        case Ok(status) =>
          match SkipHeaders(lc.1)
          case Err(e) => Err(e)
          case Ok(c2) => Ok((status, c2))
  }

  /** Header lines, each terminated by CR LF. */
  function Lines(hs: seq<seq<byte>>): seq<byte>
    decreases |hs|
  {
    if hs == [] then [] else hs[0] + [CR, LF] + Lines(hs[1..])
  }

  /** A header line: not empty, no terminator inside, and short enough to fit the buffer. */
  predicate HeaderLine(h: seq<byte>, cap: nat) {
    h != [] && NoEol(h, 0, |h|) && |h| + 2 < cap
  }

  lemma {:induction false} SkipHeadersReads(hs: seq<seq<byte>>, rest: seq<byte>, cap: nat)
    requires 2 < cap && forall i :: 0 <= i < |hs| ==> HeaderLine(hs[i], cap)
    ensures SkipHeaders(Cursor(Lines(hs) + [CR, LF] + rest, 0, cap)) == Ok(Cursor(rest, 0, cap))
    decreases |hs|
  {
    if hs == [] {
      ReadLineCrLf([], rest, cap);
      assert [] + [CR, LF] + rest == Lines(hs) + [CR, LF] + rest;
    } else {
      var tail := Lines(hs[1..]) + [CR, LF] + rest;
      assert Lines(hs) + [CR, LF] + rest == hs[0] + [CR, LF] + tail;
      ReadLineCrLf(hs[0], tail, cap);
      SkipHeadersReads(hs[1..], rest, cap);
    }
  }

  /** A status line whose second word is a decimal number, CR LF terminated header lines and an
      empty line: handleHttp returns the number and leaves the stream after the empty line. */
  lemma HandleHttpReads(ws: seq<seq<byte>>, code: nat, hs: seq<seq<byte>>, rest: seq<byte>, cap: nat)
    requires 2 <= |ws| && (forall i :: 0 <= i < |ws| ==> Word(ws[i])) && ws[1] == Decimal(code)
    requires code <= MaxInt64 && |Join(ws)| + 2 < cap
    requires forall i :: 0 <= i < |hs| ==> HeaderLine(hs[i], cap)
    ensures HandleHttp(Cursor(Join(ws) + [CR, LF] + Lines(hs) + [CR, LF] + rest, 0, cap))
         == Ok((code, Cursor(rest, 0, cap)))
  {
    var tail := Lines(hs) + [CR, LF] + rest;
    var d := Join(ws) + [CR, LF] + Lines(hs) + [CR, LF] + rest;
    assert d == Join(ws) + [CR, LF] + tail;
    JoinNoEol(ws);
    ReadLineCrLf(Join(ws), tail, cap);
    FieldsJoin(ws);
    AtoiDecimal(code);
    SkipHeadersReads(hs, rest, cap);
    HandleHttpOf(Cursor(d, 0, cap), Join(ws), Cursor(tail, 0, cap), code, Cursor(rest, 0, cap));
  }

  /** handleHttp put together from its three reads. */
  lemma HandleHttpOf(c: Cursor, line: seq<byte>, c1: Cursor, code: int, c2: Cursor)
    requires Valid(c) && ReadLine(c) == Ok((line, c1))
    requires |Fields(line)| >= 2 && Atoi(Fields(line)[1]) == Ok(code)
    requires Valid(c1) && SkipHeaders(c1) == Ok(c2)
    ensures HandleHttp(c) == Ok((code, c2))
  {
  }

  /** A status line with a single word is a read error. */
  lemma HandleHttpShortStatus(w: seq<byte>, rest: seq<byte>, cap: nat)
    requires Word(w) && |w| + 2 < cap
    ensures HandleHttp(Cursor(w + [CR, LF] + rest, 0, cap)) == Err(ReadError)
  {
    JoinNoEol([w]);
    ReadLineCrLf(w, rest, cap);
    FieldsJoin([w]);
  }

  // ---------------------------------------------------------------------------------------
  // Commands and the listener table

  /** A 32-bit unsigned integer. */
  type u32 = x: int | 0 <= x < 0x1_0000_0000

  /** The command counter and the listeners waiting for replies, by command id. `L` is the
      listener callback. */
  datatype ClientState<L> = ClientState(packetId: u32, events: map<u32, L>)

  /** writeCmd: the marshalled command, LF and NUL. */
  function WriteCmd(cmd: seq<byte>): (r: seq<byte>)
    ensures |r| == |cmd| + 2 && r[..|cmd|] == cmd
    ensures r[|cmd|] == LF && r[|cmd| + 1] == 0
  {
    cmd + [LF, 0]
  }

  /** The command object SendCmd marshals; `params` is left out when nil. */
  function Command(id: u32, name: string, params: Option<Json>): Json {
    Obj(map["id" := Num(id), "method" := Str(name)]
      + (if params.Some? then map["params" := params.value] else map[]))
  }

  /** The id the next command gets: atomic.AddUint32 wraps round at 2^32. */
  function NextId(id: u32): (r: u32)
    ensures id < 0xFFFF_FFFF ==> r == id + 1
    ensures id == 0xFFFF_FFFF ==> r == 0
  {
    (id + 1) % 0x1_0000_0000
  }

  /** SendCmd: the command gets the next id, its listener (if any) is stored under that id, and
      the marshalled command goes out with writeCmd's terminator. `marshal` is json.Marshal. */
  function SendCmd<L>(st: ClientState<L>, name: string, params: Option<Json>, listener: Option<L>,
                      marshal: Json -> seq<byte>): (r: (ClientState<L>, seq<byte>))
    ensures r.0.packetId == NextId(st.packetId)
    ensures listener.Some? ==> r.0.events == st.events[r.0.packetId := listener.value]
    ensures listener.None? ==> r.0.events == st.events
    ensures r.1 == WriteCmd(marshal(Command(r.0.packetId, name, params)))
  {
    var id := NextId(st.packetId);
    var events := if listener.Some? then st.events[id := listener.value] else st.events;
    (ClientState(id, events), WriteCmd(marshal(Command(id, name, params))))
  }

  /** The command object carries its id and method, and its params exactly when given. */
  lemma CommandFields(id: u32, name: string, params: Option<Json>)
    ensures MapGet(Command(id, name, params), "id") == Num(id)
    ensures AsString(MapGet(Command(id, name, params), "method")) == name
    ensures params.Some? ==> MapGet(Command(id, name, params), "params") == params.value
    ensures params.None? ==> IsNil(MapGet(Command(id, name, params), "params"))
  {
  }

  /** The reply id of an event: a number, converted to uint32 (keeping its low 32 bits, as
      the conversion does on amd64); none when the event has no numeric id. */
  function EventId(evt: Json): (r: Option<u32>)
    ensures r.Some? <==> MapGet(evt, "id").Num?
    ensures r.Some? ==> (MapGet(evt, "id").n - r.value as int) % 0x1_0000_0000 == 0
    ensures r.Some? && 0 <= MapGet(evt, "id").n < 0x1_0000_0000 ==> r.value as int == MapGet(evt, "id").n
  {
    match MapGet(evt, "id")
    case Num(n) => Some(n % 0x1_0000_0000)
    case _ => None
  }

  /** OnEvent: an event whose id has a waiting listener goes to that listener, which is dropped
      once it answers true; every other event is answered true and changes nothing. `call`
      invokes a listener on an event. */
  function OnEvent<L>(st: ClientState<L>, evt: Json, call: (L, Json) -> bool): (r: (bool, ClientState<L>))
    ensures r.1.packetId == st.packetId && r.1.events.Keys <= st.events.Keys
    ensures !r.0 ==> r.1 == st
    ensures EventId(evt).None? ==> r == (true, st)
    ensures EventId(evt).Some? && EventId(evt).value in st.events ==>
              r.0 == call(st.events[EventId(evt).value], evt) &&
              r.1.events == (if r.0 then st.events - {EventId(evt).value} else st.events)
    ensures EventId(evt).Some? && EventId(evt).value !in st.events ==> r == (true, st)
    ensures forall id :: id in st.events && Some(id) != EventId(evt) ==> id in r.1.events && r.1.events[id] == st.events[id]
  {
    match EventId(evt)
    case None => (true, st)
    case Some(id) =>
      if id !in st.events then (true, st)
      else
        var answer := call(st.events[id], evt);
        (answer, if answer then st.(events := st.events - {id}) else st)
  }

  /** A reply with the id of a command sent with a listener reaches that listener. The
      listener stays while it answers false; once it answers true it is dropped, so a later
      event with the same id is no longer given to it. */
  lemma ReplyReachesListener<L>(st: ClientState<L>, name: string, params: Option<Json>, l: L,
                                marshal: Json -> seq<byte>, reply: Json, call: (L, Json) -> bool)
    requires EventId(reply) == Some(NextId(st.packetId))
    ensures OnEvent(SendCmd(st, name, params, Some(l), marshal).0, reply, call).0 == call(l, reply)
    ensures !call(l, reply) ==> OnEvent(SendCmd(st, name, params, Some(l), marshal).0, reply, call).1
                                == SendCmd(st, name, params, Some(l), marshal).0
    ensures call(l, reply) ==> NextId(st.packetId) !in OnEvent(SendCmd(st, name, params, Some(l), marshal).0, reply, call).1.events
  {
  }

  /** Sends each (method, params, listener) in turn; the ids the commands got, in order. */
  function SendAll<L>(st: ClientState<L>, cmds: seq<(string, Option<Json>, Option<L>)>,
                      marshal: Json -> seq<byte>): (ClientState<L>, seq<u32>)
    decreases |cmds|
  {
    if cmds == [] then (st, [])
    else
      var s1 := SendCmd(st, cmds[0].0, cmds[0].1, cmds[0].2, marshal).0;
      var rest := SendAll(s1, cmds[1..], marshal);
      (rest.0, [s1.packetId] + rest.1)
  }

  /** Until the counter wraps, consecutive commands get consecutive ids. */
  lemma {:induction false} SendAllIds<L>(st: ClientState<L>, cmds: seq<(string, Option<Json>, Option<L>)>,
                                         marshal: Json -> seq<byte>)
    requires st.packetId + |cmds| < 0x1_0000_0000
    ensures SendAll(st, cmds, marshal).0.packetId == st.packetId + |cmds|
    ensures |SendAll(st, cmds, marshal).1| == |cmds|
    ensures forall i :: 0 <= i < |cmds| ==> SendAll(st, cmds, marshal).1[i] == st.packetId + 1 + i
    decreases |cmds|
  {
    if cmds != [] {
      var s1 := SendCmd(st, cmds[0].0, cmds[0].1, cmds[0].2, marshal).0;
      SendAllIds(s1, cmds[1..], marshal);
    }
  }

  /** The reset after a successful handshake: ids restart so that the first command is 11, and
      every listener of the previous connection is forgotten. */
  function Reset<L>(st: ClientState<L>): (r: ClientState<L>)
    ensures NextId(r.packetId) == 11 && |r.events| == 0
  {
    ClientState(10, map[])
  }

  /** After a reset the commands are numbered 11, 12, ... and no event reaches a listener of the
      previous connection. */
  lemma ResetRenumbers<L>(st: ClientState<L>, cmds: seq<(string, Option<Json>, Option<L>)>,
                          marshal: Json -> seq<byte>, evt: Json, call: (L, Json) -> bool)
    requires |cmds| < 0x1_0000_0000 - 10
    ensures |SendAll(Reset(st), cmds, marshal).1| == |cmds|
    ensures forall i :: 0 <= i < |cmds| ==> SendAll(Reset(st), cmds, marshal).1[i] == 11 + i
    ensures OnEvent(Reset(st), evt, call) == (true, Reset(st))
  {
    SendAllIds(Reset(st), cmds, marshal);
  }

  /** The handshake of runOnce: handleHttp, then a status other than 200 is refused, and a
      200 resets the command table. */
  function Handshake<L>(st: ClientState<L>, c: Cursor): (r: Result<(ClientState<L>, Cursor)>)
    requires Valid(c)
    ensures r.Ok? ==> r.value.0 == Reset(st) && HandleHttp(c) == Ok((200, r.value.1))
    ensures HandleHttp(c).Err? ==> r == Err(HandleHttp(c).error)
    ensures HandleHttp(c).Ok? && HandleHttp(c).value.0 != 200 ==> r == Err(BadStatus)
  {
    match HandleHttp(c)
    case Err(e) => Err(e)
    case Ok(sc) => if sc.0 != 200 then Err(BadStatus) else Ok((Reset(st), sc.1))
  }
}

=== FILE: connection.dfy ===
/** One app connection to the proxy (mobell/connection.go).

    An app connects with an HTTP request. The proxy reads the request's lines up to the empty
    line; a GET or POST of /bell or /nobell is a command (ring or stop ringing on every app) and
    is answered at once, closing the connection. Any other request is answered 200 OK, and from
    then on the connection carries events both ways:
      - from the app: text commands (JSON, then LF and NUL), or binary APP11 audio segments,
        where a 22-byte segment of type 'S' starts (flag 0x81) or stops the app's talk-back;
      - to the app: APP12 segments holding JSON replies and bell notifications. */
module Connection {
  import opened Bytes
  import opened StreamCursor
  import opened JsonValue
  import MxpegClient
  import PacketReader
  import PacketFormat

  // ---------------------------------------------------------------------------------------
  // Events to the app

  /** sendEvent's framing of a marshalled event: 0xFF, APP12, the length `l` = payload + 2 as
      `byte(l >> 8)`, `byte(l)`, then the payload. */
  function EventFrame(b: seq<byte>): (r: seq<byte>)
    ensures |r| == |b| + 4 && r[0] == 0xFF && r[1] == APP12 && r[4..] == b
    ensures BigEndian16(r[2], r[3]) == (|b| + 2) % 0x1_0000
  {
    Truncates16(|b| + 2);
    [0xFF, APP12, ((|b| + 2) / 256) % 256, (|b| + 2) % 256] + b
  }

  /** The two shifted bytes of a length keep its low 16 bits, also past 0xFFFF. */
  lemma Truncates16(n: nat)
    ensures ((n / 256) % 256) * 256 + n % 256 == n % 0x1_0000
  {
    var q, m := n / 0x1_0000, n % 0x1_0000;
    assert n == q * 0x1_0000 + m;
    assert n / 256 == q * 256 + m / 256;
    assert (n / 256) % 256 == m / 256;
    assert n % 256 == m % 256;
  }

  /** The framing is the camera's own event segment, so the proxy's packet reader reads the
      payload back (without a trailing NUL, which the reader drops). */
  lemma EventFrameReads(b: seq<byte>, rest: seq<byte>, cap: nat)
    requires |b| + 2 < 0x1_0000 && |b| + 4 < cap
    ensures EventFrame(b) == PacketFormat.EncodeEvent(b)
    ensures PacketReader.ReadPacket(Cursor(EventFrame(b) + rest, 0, cap))
         == Ok((PacketReader.Event(PacketReader.TrimNul(b)), Cursor(rest, 0, cap)))
  {
    var n := |b| + 2;
    ShiftSplits(n);
    assert EventFrame(b) == [0xFF, APP12] + PacketFormat.Length16(n) + b;
    assert EventFrame(b) == [] + PacketFormat.EncodeEvent(b);
    PacketFormat.ReadPacketEvent([], b, rest, cap);
  }

  /** `byte(l >> 8)`, `byte(l)` is the big-endian split of a 16-bit length. */
  lemma ShiftSplits(n: nat)
    requires n < 0x1_0000
    ensures Split16(n) == ((n / 256) % 256, n % 256)
  {
    assert n % 0x1_0000 == n;
    assert n / 256 < 256;
  }

  /** A reply to an app command: the result, a nil error and the command's id. */
  function Reply(id: int, result: Json): Json {
    Obj(map["result" := result, "error" := Null, "id" := Num(id)])
  }

  /** The addressee list the proxy answers `list_addressees` with. */
  const Addressees: Json := Arr([Arr([Num(1), Str("MainBell"), Str("")])])

  /** sendBell: a continuation of the app's registered bell event saying whether the bell rings;
      nothing is sent before the app registered (bellEvtId > 0). */
  function BellEvent(bellEvtId: int, isRing: bool): (r: Option<Json>)
    ensures r.Some? <==> bellEvtId > 0
  {
    if bellEvtId > 0 then
      Some(Obj(map[
        "result" := Arr([Str("bell"), Bool(isRing), Bool(!isRing), Arr([Num(1), Str("Main Bell"), Str("")])]),
        "type" := Str("cont"),
        "error" := Null,
        "id" := Num(bellEvtId)]))
    else None
  }

  /** sendSuppress: the same continuation saying that the bell was dealt with elsewhere. */
  function SuppressEvent(bellEvtId: int): (r: Option<Json>)
    ensures r.Some? <==> bellEvtId > 0
  {
    if bellEvtId > 0 then
      Some(Obj(map["result" := Arr([Str("suppress")]), "type" := Str("cont"), "error" := Null, "id" := Num(bellEvtId)]))
    else None
  }

  /** What the app reads from a bell event with the accessors: the kind "bell", the ringing
      flag in the second place, and its registered event id. */
  lemma BellEventReads(bellEvtId: int, isRing: bool)
    requires bellEvtId > 0
    ensures AsString(ArrGet(MapGet(BellEvent(bellEvtId, isRing).value, "result"), 0)) == "bell"
    ensures AsBool(ArrGet(MapGet(BellEvent(bellEvtId, isRing).value, "result"), 1)) == isRing
    ensures AsInt(MapGet(BellEvent(bellEvtId, isRing).value, "id")) == bellEvtId
    ensures AsString(ArrGet(MapGet(SuppressEvent(bellEvtId).value, "result"), 0)) == "suppress"
  {
  }

  // ---------------------------------------------------------------------------------------
  // Reading events from the app

  /** No LF in `d` from `from` up to (not including) `to`. */
  predicate NoLF(d: seq<byte>, from: nat, to: int) {
    forall i :: from <= i < to && i < |d| ==> d[i] != LF
  }

  /** `for { if rb.Next() == 0x0a { break } }`: reads up to and including the first LF. */
  function SkipPastLF(c: Cursor): (r: Result<Cursor>)
    requires Valid(c)
    ensures r.Ok? ==> Valid(r.value) && r.value.data == c.data && r.value.cap == c.cap
    ensures r.Ok? ==> c.pos < r.value.pos <= |c.data| && c.data[r.value.pos - 1] == LF
    ensures r.Ok? ==> NoLF(c.data, c.pos, r.value.pos - 1)
    ensures r.Err? && c.pos <= |c.data| && |c.data| + 1 < c.cap ==> r.error == ReadError
    decreases c.cap - c.pos
  {
    match Next(c)
    case Err(e) => Err(e)
    case Ok(n) => if n.0 == LF then Ok(n.1) else SkipPastLF(n.1)
  }

  lemma {:induction false} SkipPastLFFinds(c: Cursor, k: nat)
    requires Valid(c) && c.pos <= k < |c.data| && k + 1 < c.cap
    requires c.data[k] == LF && NoLF(c.data, c.pos, k)
    ensures SkipPastLF(c) == Ok(c.(pos := k + 1))
    decreases k - c.pos
  {
    if c.pos < k {
      assert c.data[c.pos] != LF && Next(c) == Ok((c.data[c.pos], c.(pos := c.pos + 1)));
      SkipPastLFFinds(c.(pos := c.pos + 1), k);
    }
  }

  /** A text event read from `from` ends at `k`: the first LF at or after `from`, then NUL. */
  predicate TextEndsAt(d: seq<byte>, from: nat, k: nat) {
    from <= k && k + 1 < |d| && d[k] == LF && d[k + 1] == 0 && NoLF(d, from, k)
  }

  /** readEvt, text branch: the bytes up to the first LF, which must be followed by NUL; the
      stream is cut after the NUL. */
  function TextEvt(c: Cursor): (r: Result<(seq<byte>, Cursor)>)
    requires Valid(c)
    ensures r.Ok? ==> TextEndsAt(c.data, c.pos, |r.value.0|) && r.value.0 == c.data[..|r.value.0|]
    ensures r.Ok? ==> r.value.1 == Cursor(c.data[|r.value.0| + 2..], 0, c.cap)
    ensures r.Ok? ==> |r.value.0| + 2 < c.cap
  {
    match SkipPastLF(c)
    case Err(e) => Err(e)
    case Ok(c1) =>
      match Next(c1)
      case Err(e) => Err(e)
      case Ok(n) =>
        if n.0 != 0 then Err(ParseError)
        else
          var c2 := Move(n.1, -2).value;
          match GetAndCut(c2)
          case Err(e) => Err(e)
          case Ok(dc) =>
            match Move(dc.1, 2)
            case Err(e) => Err(e)
            case Ok(c3) =>
              match Cut(c3)
              case Err(e) => Err(e)
              case Ok(c4) => Ok((dc.0, c4))
  }

  /** readEvt, binary branch: 0xFF, APP11 and a 16-bit length `l`; the event is the segment,
      the 2 + `l` bytes from the 0xFF. */
  function BinaryEvt(c: Cursor): (r: Result<(seq<byte>, Cursor)>)
    requires Valid(c)
    ensures r.Ok? ==> c.pos + 3 < |c.data| && c.data[c.pos + 1] == APP11
    ensures r.Ok? ==>
              && c.pos + 3 < |c.data|
              && |r.value.0| == c.pos + 2 + BigEndian16(c.data[c.pos + 2], c.data[c.pos + 3])
              && |r.value.0| <= |c.data| && r.value.0 == c.data[..|r.value.0|]
              && r.value.1 == Cursor(c.data[|r.value.0|..], 0, c.cap)
    ensures c.pos + 2 < c.cap && c.pos + 1 < |c.data| && c.data[c.pos + 1] != APP11 ==> r == Err(ParseError)
  {
    match Move(c, 1)
    case Err(e) => Err(e)
    case Ok(c1) =>
      match Next(c1)
      case Err(e) => Err(e)
      case Ok(m) =>
        if m.0 != APP11 then Err(ParseError)
        else
          match Next(m.1)
          case Err(e) => Err(e)
          case Ok(hi) =>
            match Next(hi.1)
            case Err(e) => Err(e)
            case Ok(lo) =>
              match Move(lo.1, BigEndian16(hi.0, lo.0) - 2)
              case Err(e) => Err(e)
              case Ok(c2) => GetAndCut(c2)
  }

  /** readEvt: an event starting with 0xFF is binary, any other a text event. */
  function ReadEvt(c: Cursor): (r: Result<(seq<byte>, Cursor)>)
    requires Valid(c)
    ensures r.Ok? ==> c.pos < |c.data|
    ensures r.Ok? && c.pos < |c.data| && c.data[c.pos] == 0xFF ==> r == BinaryEvt(c)
    ensures r.Ok? && c.pos < |c.data| && c.data[c.pos] != 0xFF ==> r == TextEvt(c)
  {
    match Get(c)
    case Err(e) => Err(e)
    case Ok(b) => if b == 0xFF then BinaryEvt(c) else TextEvt(c)
  }

  /** Read from a cut point, a binary event is a segment starting with 0xFF and a text event
      never starts with 0xFF: the first byte tells the two apart, as run does. */
  lemma ReadEvtKind(c: Cursor)
    requires Valid(c) && c.pos == 0 && ReadEvt(c).Ok?
    ensures c.data[0] == 0xFF ==> 2 <= |ReadEvt(c).value.0| && ReadEvt(c).value.0[0] == 0xFF
    ensures c.data[0] != 0xFF ==> ReadEvt(c).value.0 == [] || ReadEvt(c).value.0[0] != 0xFF
  {
  }

  /** A command as the client's writeCmd frames it (JSON, LF, NUL) reads back as itself. */
  lemma ReadEvtText(cmd: seq<byte>, rest: seq<byte>, cap: nat)
    requires NoLF(cmd, 0, |cmd|) && (cmd == [] || cmd[0] != 0xFF) && |cmd| + 2 < cap
    ensures ReadEvt(Cursor(MxpegClient.WriteCmd(cmd) + rest, 0, cap)) == Ok((cmd, Cursor(rest, 0, cap)))
  {
    var d := MxpegClient.WriteCmd(cmd) + rest;
    assert d == cmd + [LF, 0] + rest;
    assert d[|cmd|] == LF && d[|cmd| + 1] == 0;
    assert NoLF(d, 0, |cmd|) by {
      forall i | 0 <= i < |cmd| ensures d[i] == cmd[i] { }
    }
    assert d[..|cmd|] == cmd;
    assert d[|cmd| + 2..] == rest;
    TextEvtAt(d, cap, |cmd|);
    assert Get(Cursor(d, 0, cap)) == Ok(d[0]) && d[0] != 0xFF;
  }

  /** TextEvt, one step at a time, on a cursor at a cut point whose first LF is at `k` and is
      followed by NUL. */
  lemma TextEvtAt(d: seq<byte>, cap: nat, k: nat)
    requires k + 1 < |d| && k + 2 < cap && d[k] == LF && d[k + 1] == 0 && NoLF(d, 0, k)
    ensures TextEvt(Cursor(d, 0, cap)) == Ok((d[..k], Cursor(d[k + 2..], 0, cap)))
  {
    SkipPastLFFinds(Cursor(d, 0, cap), k);
    assert Next(Cursor(d, k + 1, cap)) == Ok((0, Cursor(d, k + 2, cap)));
    assert Move(Cursor(d, k + 2, cap), -2) == Ok(Cursor(d, k, cap));
    assert GetAndCut(Cursor(d, k, cap)) == Ok((d[..k], Cursor(d[k..], 0, cap)));
    assert Move(Cursor(d[k..], 0, cap), 2) == Ok(Cursor(d[k..], 2, cap));
    assert d[k..][2..] == d[k + 2..];
  }

  /** An APP11 segment: 0xFF, APP11, the length and the body. */
  function AudioFrame(b: seq<byte>): seq<byte> {
    [0xFF, APP11] + PacketFormat.Length16(|b| + 2) + b
  }

  /** An APP11 segment reads back whole. */
  lemma ReadEvtBinary(b: seq<byte>, rest: seq<byte>, cap: nat)
    requires |b| + 2 < 0x1_0000 && |b| + 4 < cap
    ensures ReadEvt(Cursor(AudioFrame(b) + rest, 0, cap)) == Ok((AudioFrame(b), Cursor(rest, 0, cap)))
  {
    var f := AudioFrame(b);
    var d := f + rest;
    assert d[0] == 0xFF && d[1] == APP11 && d[2] == f[2] && d[3] == f[3];
    assert BigEndian16(d[2], d[3]) == |b| + 2;
    BinaryEvtAt(d, cap, |f|);
    assert d[..|f|] == f && d[|f|..] == rest;
  }

  /** BinaryEvt, one step at a time, on a cursor at a cut point whose header announces a
      segment of `n` bytes. */
  lemma BinaryEvtAt(d: seq<byte>, cap: nat, n: nat)
    requires 4 <= n <= |d| && n < cap
    requires d[0] == 0xFF && d[1] == APP11 && BigEndian16(d[2], d[3]) == n - 2
    ensures BinaryEvt(Cursor(d, 0, cap)) == Ok((d[..n], Cursor(d[n..], 0, cap)))
  {
    var c := Cursor(d, 0, cap);
    var c1 := Move(c, 1).value;
    assert c1 == Cursor(d, 1, cap);
    assert Next(c1) == Ok((APP11, Cursor(d, 2, cap)));
    assert Next(Cursor(d, 2, cap)) == Ok((d[2], Cursor(d, 3, cap)));
    assert Next(Cursor(d, 3, cap)) == Ok((d[3], Cursor(d, 4, cap)));
    assert Move(Cursor(d, 4, cap), n - 4) == Ok(Cursor(d, n, cap));
  }

  // ---------------------------------------------------------------------------------------
  // Dispatching an event

  /** What run does with one event from the app. */
  datatype Action =
    | AudioStart(data: seq<byte>)               // the app asks to talk
    | AudioStop(data: seq<byte>)                // the app stops talking
    | AudioData(data: seq<byte>)                // talk-back audio
    | Handle(id: int, name: string, params: Json)  // a JSON command for handleEvt
    | Close                                     // json.Unmarshal failed: the connection ends

  /** An audio control segment: 22 bytes whose type byte (after 'M', 'X') is 'S'. */
  predicate AudioControl(data: seq<byte>) {
    |data| == 22 && data[6] == 0x53
  }

  /** The binary branch of run: a control segment with flag 0x81 starts talk-back, any other
      control segment stops it, and every other segment is audio. */
  function AudioAction(data: seq<byte>): (r: Action)
    ensures r.AudioStart? <==> AudioControl(data) && data[9] == 0x81
    ensures r.AudioStop? <==> AudioControl(data) && data[9] != 0x81
    ensures r.AudioData? <==> !AudioControl(data)
    ensures (r.AudioStart? || r.AudioStop? || r.AudioData?) && r.data == data
  {
    if AudioControl(data) then (if data[9] == 0x81 then AudioStart(data) else AudioStop(data))
    else AudioData(data)
  }

  /** The text branch of run: json.Unmarshal into a map (`decode` stands for the decoder; an
      error, or a JSON value that is neither an object nor null, ends the connection), then the
      id, method and params through the tolerant accessors. */
  function TextEvent(data: seq<byte>, decode: seq<byte> -> Option<Json>): (r: Action)
    ensures r == Close <==> decode(data).None? || !(decode(data).value.Obj? || decode(data).value.Null?)
    ensures r != Close ==> r.Handle?
    ensures decode(data) == Some(Null) ==> r == Handle(0, "", Null)
    ensures decode(data).Some? && decode(data).value.Obj? ==>
              var m := decode(data).value.fields;
              && ("id" in m && m["id"].Num? ==> r.id == m["id"].n)
              && ("method" in m && m["method"].Str? ==> r.name == m["method"].s)
              && ("params" in m ==> r.params == m["params"])
              && ("params" !in m ==> r.params == Null)
              && (("id" !in m || !m["id"].Num?) ==> r.id == 0)
              && (("method" !in m || !m["method"].Str?) ==> r.name == "")
  {
    match decode(data)
    case None => Close
    case Some(evt) =>
      if !(evt.Obj? || evt.Null?) then Close
      else Handle(AsInt(MapGet(evt, "id")), AsString(MapGet(evt, "method")), MapGet(evt, "params"))
  }

  /** run as written: `data[0] == 0xff` on an empty event is an index panic in a goroutine
      without recover, which ends the process. */
  function ClassifyAsWritten(data: seq<byte>, decode: seq<byte> -> Option<Json>): (r: Result<Action>)
    ensures r.Err? <==> data == []
    ensures r.Err? ==> r.error == Panic
  {
    if |data| == 0 then Err(Panic)
    else if data[0] == 0xFF then Ok(AudioAction(data))
    else Ok(TextEvent(data, decode))
  }

  /** The corrected dispatch: an empty event is a (malformed) text event for the decoder. */
  function Classify(data: seq<byte>, decode: seq<byte> -> Option<Json>): (r: Action)
    ensures (data == [] || data[0] != 0xFF) ==> r == TextEvent(data, decode)
    ensures r.AudioStart? || r.AudioStop? || r.AudioData? ==> data != [] && data[0] == 0xFF && r.data == data
    ensures r.AudioStart? <==> data != [] && data[0] == 0xFF && AudioControl(data) && data[9] == 0x81
    ensures r.AudioStop? <==> data != [] && data[0] == 0xFF && AudioControl(data) && data[9] != 0x81
  {
    if data != [] && data[0] == 0xFF then AudioAction(data) else TextEvent(data, decode)
  }

  /** The correction changes nothing but the empty event. */
  lemma ClassifyAgrees(data: seq<byte>, decode: seq<byte> -> Option<Json>)
    requires data != []
    ensures ClassifyAsWritten(data, decode) == Ok(Classify(data, decode))
  {
  }

  /** The empty text event "\n\0" is read as an empty event, on which run as written panics;
      the corrected dispatch hands it to the decoder, which (rejecting empty input) closes only
      this connection. */
  lemma EmptyTextEventPanics(rest: seq<byte>, cap: nat, decode: seq<byte> -> Option<Json>)
    requires 2 < cap
    ensures ReadEvt(Cursor([LF, 0] + rest, 0, cap)) == Ok(([], Cursor(rest, 0, cap)))
    ensures ClassifyAsWritten([], decode) == Err(Panic)
    ensures decode([]).None? ==> Classify([], decode) == Close
  {
    ReadEvtText([], rest, cap);
    assert MxpegClient.WriteCmd([]) == [LF, 0];
  }

  /** A command framed by writeCmd reaches handleEvt with the id, method and params the JSON
      object carries. */
  lemma CommandDispatched(cmd: seq<byte>, rest: seq<byte>, cap: nat, decode: seq<byte> -> Option<Json>,
                          evt: map<string, Json>)
    requires NoLF(cmd, 0, |cmd|) && cmd != [] && cmd[0] != 0xFF && |cmd| + 2 < cap
    requires decode(cmd) == Some(Obj(evt))
    ensures ReadEvt(Cursor(MxpegClient.WriteCmd(cmd) + rest, 0, cap)).Ok?
    ensures Classify(ReadEvt(Cursor(MxpegClient.WriteCmd(cmd) + rest, 0, cap)).value.0, decode)
         == Handle(AsInt(MapGet(Obj(evt), "id")), AsString(MapGet(Obj(evt), "method")), MapGet(Obj(evt), "params"))
  {
    ReadEvtText(cmd, rest, cap);
  }

  /** The talk-back segments of the app: a 22-byte 'S' segment starts talk-back when its flag
      (the third sample byte) is 0x81 and stops it otherwise; every other segment is audio. */
  lemma AudioSegmentsClassified(t: byte, samples: seq<byte>, decode: seq<byte> -> Option<Json>)
    ensures t == 0x53 && |samples| == 15 && samples[2] == 0x81 ==>
              Classify(PacketFormat.EncodeAudio(t, samples), decode) == AudioStart(PacketFormat.EncodeAudio(t, samples))
    ensures t == 0x53 && |samples| == 15 && samples[2] != 0x81 ==>
              Classify(PacketFormat.EncodeAudio(t, samples), decode) == AudioStop(PacketFormat.EncodeAudio(t, samples))
    ensures t != 0x53 || |samples| != 15 ==>
              Classify(PacketFormat.EncodeAudio(t, samples), decode) == AudioData(PacketFormat.EncodeAudio(t, samples))
  {
    var a := PacketFormat.EncodeAudio(t, samples);
    assert a[0] == 0xFF && a[6] == t && |a| == |samples| + 7;
    if |samples| == 15 {
      assert a[9] == samples[2];
    }
  }

  // ---------------------------------------------------------------------------------------
  // Handling a command

  /** What handleEvt asks of the server. */
  datatype Request =
    | NoRequest
    | EnableVideo               // "live"
    | OpenDoor                  // "trigger"
    | BellAck                   // "bell_ack" with a true first parameter
    | BellReject                // "bell_ack" with anything else
    | BellSuppress              // "suppress"
    | RegisterBell(evtId: int)  // "register_device": bell events go out under this id

  /** handleEvt: the server request the method makes, and the reply (none for "pong"). */
  function HandleEvt(id: int, name: string, params: Json): (r: (Option<Json>, Request))
    ensures r.0.None? <==> name == "pong"
    ensures r.0.Some? ==> AsInt(MapGet(r.0.value, "id")) == id && IsNil(MapGet(r.0.value, "error"))
    ensures r.0.Some? && name == "list_addressees" ==> MapGet(r.0.value, "result") == Addressees
    ensures r.0.Some? && name != "list_addressees" ==> AsInt(MapGet(r.0.value, "result")) == 0
    ensures r.1 == BellAck <==> name == "bell_ack" && AsBool(ArrGet(params, 0))
    ensures r.1 == BellReject <==> name == "bell_ack" && !AsBool(ArrGet(params, 0))
    ensures r.1.RegisterBell? <==> name == "register_device"
    ensures r.1.RegisterBell? ==> r.1.evtId == id
    ensures r.1 == NoRequest <==> name !in {"live", "trigger", "bell_ack", "suppress", "register_device"}
    ensures name == "live" ==> r.1 == EnableVideo
    ensures name == "trigger" ==> r.1 == OpenDoor
    ensures name == "suppress" ==> r.1 == BellSuppress
  {
    var req :=
      if name == "live" then EnableVideo
      else if name == "trigger" then OpenDoor
      else if name == "bell_ack" then (if AsBool(ArrGet(params, 0)) then BellAck else BellReject)
      else if name == "suppress" then BellSuppress
      else if name == "register_device" then RegisterBell(id)
      else NoRequest;
    if name == "pong" then (None, req)
    else (Some(Reply(id, if name == "list_addressees" then Addressees else Num(0))), req)
  }

  // ---------------------------------------------------------------------------------------
  // The app's HTTP request

  predicate HasPrefix(s: seq<byte>, p: seq<byte>) {
    |p| <= |s| && s[..|p|] == p
  }

  const Get_: seq<byte> := [0x47, 0x45, 0x54, 0x20]             // "GET "
  const Post_: seq<byte> := [0x50, 0x4F, 0x53, 0x54, 0x20]      // "POST "
  const BellPath: seq<byte> := [0x2F, 0x62, 0x65, 0x6C, 0x6C]   // "/bell"
  const NoBellPath: seq<byte> := [0x2F, 0x6E, 0x6F, 0x62, 0x65, 0x6C, 0x6C]   // "/nobell"
  const GetWord: seq<byte> := [0x47, 0x45, 0x54]                 // "GET"
  const PostWord: seq<byte> := [0x50, 0x4F, 0x53, 0x54]          // "POST"

  /** The bell command a request line carries: a GET or POST of /bell rings (true), of /nobell
      stops ringing (false). */
  function BellCommand(line: seq<byte>): (r: Option<bool>)
    ensures r.Some? ==> HasPrefix(line, Get_) || HasPrefix(line, Post_)
    ensures r.Some? ==> |MxpegClient.Fields(line)| > 1
    ensures r == Some(true) <==> (HasPrefix(line, Get_) || HasPrefix(line, Post_))
                                 && |MxpegClient.Fields(line)| > 1 && MxpegClient.Fields(line)[1] == BellPath
    ensures r == Some(false) <==> (HasPrefix(line, Get_) || HasPrefix(line, Post_))
                                  && |MxpegClient.Fields(line)| > 1 && MxpegClient.Fields(line)[1] == NoBellPath
  {
    assert BellPath != NoBellPath by { assert |BellPath| != |NoBellPath|; }
    if HasPrefix(line, Get_) || HasPrefix(line, Post_) then
      var verbs := MxpegClient.Fields(line);
      if |verbs| > 1 && verbs[1] == BellPath then Some(true)
      else if |verbs| > 1 && verbs[1] == NoBellPath then Some(false)
      else None
    else None
  }

  /** The bell ringing a request line asks for: none, or one. */
  function LineBells(line: seq<byte>): seq<bool> {
    match BellCommand(line)
    case Some(b) => [b]
    case None => []
  }

  /** The lines of the request up to the empty line: the bell commands met, in order, and the
      stream after the empty line (or the read error that stopped the reading). */
  function ScanRequest(c: Cursor): (r: (seq<bool>, Result<Cursor>))
    requires Valid(c)
    ensures r.1.Ok? ==> Valid(r.1.value) && r.1.value.pos == 0 && r.1.value.cap == c.cap
    ensures r.1.Ok? ==> |r.1.value.data| < |c.data|
    decreases |c.data|
  {
    match MxpegClient.ReadLine(c)
    case Err(e) => ([], Err(e))
    case Ok(lc) =>
      if lc.0 == [] then ([], Ok(lc.1))
      else
        var rest := ScanRequest(lc.1);
        (LineBells(lc.0) + rest.0, rest.1)
  }

  /** The bell commands of request lines, in order. */
  function Bells(hs: seq<seq<byte>>): seq<bool>
    decreases |hs|
  {
    if hs == [] then []
    else LineBells(hs[0]) + Bells(hs[1..])
  }

  lemma {:induction false} ScanRequestReads(hs: seq<seq<byte>>, rest: seq<byte>, cap: nat)
    requires 2 < cap && forall i :: 0 <= i < |hs| ==> MxpegClient.HeaderLine(hs[i], cap)
    ensures ScanRequest(Cursor(MxpegClient.Lines(hs) + [CR, LF] + rest, 0, cap)) == (Bells(hs), Ok(Cursor(rest, 0, cap)))
    decreases |hs|
  {
    if hs == [] {
      MxpegClient.ReadLineCrLf([], rest, cap);
      assert [] + [CR, LF] + rest == MxpegClient.Lines(hs) + [CR, LF] + rest;
    } else {
      var tail := MxpegClient.Lines(hs[1..]) + [CR, LF] + rest;
      assert MxpegClient.Lines(hs) + [CR, LF] + rest == hs[0] + [CR, LF] + tail;
      MxpegClient.ReadLineCrLf(hs[0], tail, cap);
      ScanRequestReads(hs[1..], rest, cap);
    }
  }

  /** "HTTP/1.1 200 OK", CR LF, CR LF */
  const OkResponse: seq<byte> :=
    [0x48, 0x54, 0x54, 0x50, 0x2F, 0x31, 0x2E, 0x31, 0x20, 0x32, 0x30, 0x30, 0x20, 0x4F, 0x4B, 0x0D, 0x0A, 0x0D, 0x0A]
  /** The same, then "Command applied", CR LF */
  const AppliedResponse: seq<byte> := OkResponse +
    [0x43, 0x6F, 0x6D, 0x6D, 0x61, 0x6E, 0x64, 0x20, 0x61, 0x70, 0x70, 0x6C, 0x69, 0x65, 0x64, 0x0D, 0x0A]

  /** The outcome of the app's request: the bells rung on every app (server.sendBell), the
      answer sent, and the stream for the event loop, or the error that ends the connection. */
  datatype HttpOutcome = HttpOutcome(bells: seq<bool>, sent: seq<byte>, result: Result<Cursor>)

  /** handleHttp, and the 200 OK run sends after it: a request with a bell command is answered
      "Command applied" and ends the connection; a read error ends it unanswered. */
  function HandleRequest(c: Cursor): (r: HttpOutcome)
    requires Valid(c)
    ensures r.bells == ScanRequest(c).0
    ensures r.result.Ok? <==> ScanRequest(c).1.Ok? && ScanRequest(c).0 == []
    ensures r.result.Ok? ==> r.sent == OkResponse && r.result == ScanRequest(c).1
    ensures ScanRequest(c).1.Ok? && ScanRequest(c).0 != [] ==> r.result == Err(CommandApplied) && r.sent == AppliedResponse
    ensures ScanRequest(c).1.Err? ==> r.result == ScanRequest(c).1 && r.sent == []
  {
    var s := ScanRequest(c);
    match s.1
    case Err(e) => HttpOutcome(s.0, [], Err(e))
    case Ok(c1) =>
      if s.0 != [] then HttpOutcome(s.0, AppliedResponse, Err(CommandApplied))
      else HttpOutcome([], OkResponse, Ok(c1))
  }

  /** A request of CR LF terminated lines: the connection goes on to the event loop exactly when
      no line is a bell command, and the bells are rung in the order of the lines. */
  lemma HandleRequestReads(hs: seq<seq<byte>>, rest: seq<byte>, cap: nat)
    requires 2 < cap && forall i :: 0 <= i < |hs| ==> MxpegClient.HeaderLine(hs[i], cap)
    ensures HandleRequest(Cursor(MxpegClient.Lines(hs) + [CR, LF] + rest, 0, cap)).bells == Bells(hs)
    ensures Bells(hs) == [] ==> HandleRequest(Cursor(MxpegClient.Lines(hs) + [CR, LF] + rest, 0, cap))
                                == HttpOutcome([], OkResponse, Ok(Cursor(rest, 0, cap)))
    ensures Bells(hs) != [] ==> HandleRequest(Cursor(MxpegClient.Lines(hs) + [CR, LF] + rest, 0, cap))
                                == HttpOutcome(Bells(hs), AppliedResponse, Err(CommandApplied))
  {
    ScanRequestReads(hs, rest, cap);
  }

  /** `GET /bell HTTP/1.1` rings and `POST /nobell HTTP/1.1` stops ringing. */
  lemma BellRequestLines(version: seq<byte>)
    requires MxpegClient.Word(version)
    ensures BellCommand(MxpegClient.Join([GetWord, BellPath, version])) == Some(true)
    ensures BellCommand(MxpegClient.Join([PostWord, NoBellPath, version])) == Some(false)
  {
    var g := [GetWord, BellPath, version];
    var p := [PostWord, NoBellPath, version];
    MxpegClient.FieldsJoin(g);
    MxpegClient.FieldsJoin(p);
    assert MxpegClient.Join(g)[..4] == Get_;
    assert MxpegClient.Join(p)[..5] == Post_;
    assert BellPath != NoBellPath by { assert |BellPath| != |NoBellPath|; }
  }
}

=== FILE: cursor.dfy ===
/** The logical view of a ring buffer that every stream parser of the proxy reads through: the
    bytes of the stream from the current cut point on, a read position relative to that cut
    point, and the capacity of the buffer, which bounds how far ahead of the cut the position may
    go. The ring buffer (module RingBuffer) is shown to implement each operation here. */
module StreamCursor {
  import opened Bytes
  import opened Modular

  /** `data` holds every byte of the stream from the cut point on (those already buffered and
      those the source will still deliver); `pos` counts bytes from the cut point. */
  datatype Cursor = Cursor(data: seq<byte>, pos: nat, cap: nat)

  predicate Valid(c: Cursor) {
    c.pos < c.cap
  }

  /** Move: a step that would reach the capacity overflows; otherwise the position moves by
      `step`, wrapping round the capacity when the step is negative and passes the cut point. */
  function Move(c: Cursor, step: int): (r: Result<Cursor>)
    requires Valid(c)
    ensures r.Ok? <==> c.pos + step < c.cap
    ensures r.Ok? ==> Valid(r.value) && r.value.data == c.data && r.value.cap == c.cap
    ensures r.Ok? && 0 <= c.pos + step ==> r.value.pos == c.pos + step
  {
    if c.pos + step >= c.cap then Err(Overflow)
    else Ok(c.(pos := Mod(c.pos + step, c.cap)))
  }

  /** Get: the byte at the position, which must lie before the last slot of the capacity and
      within the stream. */
  function Get(c: Cursor): (r: Result<byte>)
    requires Valid(c)
    ensures r.Ok? <==> c.pos + 1 < c.cap && c.pos < |c.data|
    ensures r.Ok? ==> r.value == c.data[c.pos]
    ensures r.Err? && c.pos + 1 < c.cap ==> r.error == ReadError
  {
    if c.pos + 1 >= c.cap then Err(Overflow)
    else if c.pos >= |c.data| then Err(ReadError)
    else Ok(c.data[c.pos])
  }

  /** Next: the byte at the position, and the position one further. */
  function Next(c: Cursor): (r: Result<(byte, Cursor)>)
    requires Valid(c)
    ensures r.Ok? <==> c.pos + 1 < c.cap && c.pos < |c.data|
    ensures r.Ok? ==> r.value.0 == c.data[c.pos] && r.value.1 == c.(pos := c.pos + 1)
    ensures r.Ok? ==> r.value.1.data == c.data && r.value.1.pos == c.pos + 1 && r.value.1.cap == c.cap
    ensures r.Err? && c.pos + 1 < c.cap ==> r.error == ReadError
  {
    var b :- Get(c);
    Ok((b, Move(c, 1).value))
  }

  /** Drops the stream before offset `q` (counted from the old cut point), which must already be
      available; the position keeps pointing at the same byte of the stream. */
  function CutAt(c: Cursor, q: nat): (r: Result<Cursor>)
    requires Valid(c) && q < c.cap
    ensures r.Ok? <==> q <= |c.data|
    ensures r.Err? ==> r.error == ReadError
    ensures r.Ok? ==> Valid(r.value) && r.value.cap == c.cap && r.value.data == c.data[q..]
    ensures r.Ok? && q <= c.pos ==> r.value.pos == c.pos - q
  {
    if q > |c.data| then Err(ReadError)
    else Ok(Cursor(c.data[q..], Mod(c.pos - q, c.cap), c.cap))
  }

  /** Cut: the cut point moves to the position. */
  function Cut(c: Cursor): (r: Result<Cursor>)
    requires Valid(c)
    ensures r.Ok? <==> c.pos <= |c.data|
    ensures r.Ok? ==> r.value == Cursor(c.data[c.pos..], 0, c.cap)
  {
    CutAt(c, c.pos)
  }

  /** CutWithStep: the cut point moves `step` bytes from the position. */
  function CutWithStep(c: Cursor, step: int): (r: Result<Cursor>)
    requires Valid(c)
    ensures 0 <= c.pos + step < c.cap ==> (r.Ok? <==> c.pos + step <= |c.data|)
    ensures r.Ok? && 0 <= c.pos + step < c.cap ==> r.value == Cursor(c.data[c.pos + step ..], Mod(-step, c.cap), c.cap)
  {
    CutAt(c, Mod(c.pos + step, c.cap))
  }

  /** GetAndCut: the bytes from the cut point up to the position, then a cut at the position. */
  function GetAndCut(c: Cursor): (r: Result<(seq<byte>, Cursor)>)
    requires Valid(c)
    ensures r.Ok? <==> c.pos <= |c.data|
    ensures r.Err? ==> r.error == ReadError
    ensures r.Ok? ==> r.value.0 == c.data[..c.pos] && r.value.1.data == c.data[c.pos..]
    ensures r.Ok? ==> r.value.1.pos == 0 && r.value.1.cap == c.cap
  {
    if c.pos > |c.data| then Err(ReadError)
    else Ok((c.data[..c.pos], Cursor(c.data[c.pos..], 0, c.cap)))
  }
}

=== FILE: jpeg_tables.dfy ===
/** Saving and re-inserting the quantisation (DQT) and Huffman (DHT) tables of a JPEG frame.

    Both operations walk the marker segments that follow the SOI marker (ITU-T T.81, section
    B.1.1.4): a 0xFF byte, the marker code, a 16-bit big-endian length counting itself but not the
    marker, then the segment body. MxPEG motion frames omit the tables, so the proxy saves them
    from key frames and patches them into the first frame a newly watching client receives. */
module JpegTables {
  import opened Bytes

  /** A marker segment of a frame: its marker code, the offset of its 0xFF byte and its size
      including the marker and the length field. */
  datatype Segment = Segment(marker: byte, at: nat, size: nat)

  /** Where the segment walk stopped: on the SOS marker of the scan, or anywhere else (EOI, a byte
      that is not 0xFF, a segment running past the frame, or fewer than five bytes left). */
  datatype Stop = AtScan(at: nat) | Halted(at: nat)

  // ---------------------------------------------------------------------------------------
  // The segment walk

  /** `s` is a segment of `f` as both loops accept it: more than four bytes are left at its start,
      it starts with 0xFF and a marker other than EOI and SOS, and its length field keeps it
      inside the frame. */
  predicate IsSegmentAt(f: seq<byte>, s: Segment) {
    && s.at + 4 < |f|
    && f[s.at] == 0xFF
    && f[s.at + 1] == s.marker
    && s.marker != EOI && s.marker != SOS
    && s.size == BigEndian16(f[s.at + 2], f[s.at + 3]) + 2
    && s.at + s.size <= |f|
  }

  /** The header checks both loops make at offset `p`: the segment starting there, or None where
      the loop stops. */
  function SegmentAt(f: seq<byte>, p: nat): (r: Option<Segment>)
    ensures r.Some? ==> r.value.at == p && IsSegmentAt(f, r.value)
  {
    if p + 4 >= |f| || f[p] != 0xFF || f[p + 1] == EOI || f[p + 1] == SOS then None
    else
      var s := BigEndian16(f[p + 2], f[p + 3]) + 2;
      if p + s > |f| then None else Some(Segment(f[p + 1], p, s))
  }

  /** The header checks accept every segment, and read it as it is. */
  lemma SegmentAtIs(f: seq<byte>, s: Segment)
    requires IsSegmentAt(f, s)
    ensures SegmentAt(f, s.at) == Some(s)
  {
  }

  /** The loop stands on the SOS marker that starts the scan. */
  predicate ScanAt(f: seq<byte>, p: nat) {
    p + 4 < |f| && f[p] == 0xFF && f[p + 1] == SOS
  }

  /** The segment structure of `f` from offset `p`, read the way both table operations read it. */
  function Walk(f: seq<byte>, p: nat): (w: (seq<Segment>, Stop))
    ensures p <= w.1.at && (p <= |f| ==> w.1.at <= |f|)
    ensures SegmentAt(f, w.1.at).None?
    ensures w.1.AtScan? <==> ScanAt(f, w.1.at)
    decreases |f| - p
  {
    match SegmentAt(f, p)
    case Some(s) =>
      var rest := Walk(f, p + s.size);
      ([s] + rest.0, rest.1)
    case None => ([], if ScanAt(f, p) then AtScan(p) else Halted(p))
  }

  /** The walk from a segment is that segment followed by the walk from its end. */
  lemma WalkStep(f: seq<byte>, s: Segment)
    requires IsSegmentAt(f, s)
    ensures Walk(f, s.at).0 == [s] + Walk(f, s.at + s.size).0
    ensures Walk(f, s.at).1 == Walk(f, s.at + s.size).1
  {
    SegmentAtIs(f, s);
  }

  /** `segs` are segments of `f` lying back to back from offset `from` to offset `to`. */
  predicate Tiles(f: seq<byte>, segs: seq<Segment>, from: nat, to: nat)
    decreases |segs|
  {
    if |segs| == 0 then from == to
    else
      && segs[0].at == from
      && IsSegmentAt(f, segs[0])
      && Tiles(f, segs[1..], from + segs[0].size, to)
  }

  /** The segments the walk returns lie back to back from where it started to where it stopped. */
  lemma {:induction false} WalkTiles(f: seq<byte>, p: nat)
    ensures Tiles(f, Walk(f, p).0, p, Walk(f, p).1.at)
    decreases |f| - p
  {
    match SegmentAt(f, p)
    case None =>
    case Some(s) =>
      WalkTiles(f, p + s.size);
      assert Walk(f, p).0[1..] == Walk(f, p + s.size).0;
  }

  /** Every segment of `segs` lies inside `f`. */
  predicate InFrame(f: seq<byte>, segs: seq<Segment>) {
    forall i :: 0 <= i < |segs| ==> segs[i].at + segs[i].size <= |f|
  }

  lemma {:induction false} TilesInFrame(f: seq<byte>, segs: seq<Segment>, from: nat, to: nat)
    requires Tiles(f, segs, from, to)
    ensures InFrame(f, segs)
    ensures from <= to
    decreases |segs|
  {
    if |segs| > 0 {
      TilesInFrame(f, segs[1..], from + segs[0].size, to);
      forall i | 0 <= i < |segs| ensures segs[i].at + segs[i].size <= |f| {
        if i > 0 {
          assert segs[i] == segs[1..][i - 1];
        }
      }
    }
  }

  /** The segments of a walk lie inside the frame. */
  lemma WalkInFrame(f: seq<byte>, p: nat)
    ensures InFrame(f, Walk(f, p).0)
  {
    WalkTiles(f, p);
    TilesInFrame(f, Walk(f, p).0, p, Walk(f, p).1.at);
  }

  // ---------------------------------------------------------------------------------------
  // The tables of a walk

  /** The segment `chunk`, whose marker is `marker`, when it is of kind `kind`; nothing otherwise. */
  function Taken(chunk: seq<byte>, marker: byte, kind: byte): seq<byte>
  {
    if marker == kind then chunk else []
  }

  /** `acc` with the segment `chunk` appended when its marker `marker` is of kind `kind`. */
  function Gather(acc: seq<byte>, chunk: seq<byte>, marker: byte, kind: byte): seq<byte>
  {
    if marker == kind then acc + chunk else acc
  }

  /** The in-order concatenation of the whole segments of kind `kind` among `segs`. */
  function Tables(f: seq<byte>, segs: seq<Segment>, kind: byte): seq<byte>
    requires InFrame(f, segs)
  {
    if |segs| == 0 then []
    else
      Taken(f[segs[0].at .. segs[0].at + segs[0].size], segs[0].marker, kind)
      + Tables(f, segs[1..], kind)
  }

  lemma TablesCons(f: seq<byte>, s: Segment, segs: seq<Segment>, kind: byte)
    requires InFrame(f, segs)
    requires s.at + s.size <= |f|
    ensures InFrame(f, [s] + segs)
    ensures Tables(f, [s] + segs, kind)
         == Taken(f[s.at .. s.at + s.size], s.marker, kind) + Tables(f, segs, kind)
  {
    assert ([s] + segs)[1..] == segs;
    forall i | 0 <= i < |[s] + segs| ensures ([s] + segs)[i].at + ([s] + segs)[i].size <= |f| {
      if i > 0 {
        assert ([s] + segs)[i] == segs[i - 1];
      }
    }
  }

  lemma AppendTable(acc: seq<byte>, chunk: seq<byte>, rest: seq<byte>, marker: byte, kind: byte)
    ensures Gather(acc, chunk, marker, kind) + rest == acc + (Taken(chunk, marker, kind) + rest)
  {
    if marker == kind {
      assert (acc + chunk) + rest == acc + (chunk + rest);
    } else {
      assert [] + rest == rest;
    }
  }

  /** The tables of one kind found in tiling segments take no more room than the tiled range. */
  lemma {:induction false} TablesFitTiles(f: seq<byte>, segs: seq<Segment>, from: nat, to: nat)
    requires Tiles(f, segs, from, to)
    ensures InFrame(f, segs)
    ensures |Tables(f, segs, DQT)| + |Tables(f, segs, DHT)| <= to - from
    decreases |segs|
  {
    TilesInFrame(f, segs, from, to);
    if |segs| > 0 {
      TablesFitTiles(f, segs[1..], from + segs[0].size, to);
    }
  }

  /** A segment of the tiling exists whose marker is `kind` exactly when its tables are non-empty. */
  lemma {:induction false} TablesEmptyIffAbsent(f: seq<byte>, segs: seq<Segment>, from: nat, to: nat, kind: byte)
    requires Tiles(f, segs, from, to)
    ensures InFrame(f, segs)
    ensures Tables(f, segs, kind) == [] <==> forall i :: 0 <= i < |segs| ==> segs[i].marker != kind
    decreases |segs|
  {
    TilesInFrame(f, segs, from, to);
    if |segs| > 0 {
      TablesEmptyIffAbsent(f, segs[1..], from + segs[0].size, to, kind);
      if forall i :: 0 <= i < |segs[1..]| ==> segs[1..][i].marker != kind {
        forall i | 0 <= i < |segs| ensures segs[i].marker != kind || segs[0].marker == kind {
          if i > 0 {
            assert segs[i] == segs[1..][i - 1];
          }
        }
      } else {
        var i :| 0 <= i < |segs[1..]| && segs[1..][i].marker == kind;
        assert segs[i + 1].marker == kind;
      }
    }
  }

  // ---------------------------------------------------------------------------------------
  // ExtractDqtDht

  /** The loop of ExtractDqtDht from offset `p`, with the tables gathered so far. */
  function ExtractLoop(f: seq<byte>, p: nat, dqt: seq<byte>, dht: seq<byte>): (seq<byte>, seq<byte>)
    decreases |f| - p
  {
    match SegmentAt(f, p)
    case None => (dqt, dht)
    case Some(s) =>
      var chunk := f[p .. p + s.size];
      ExtractLoop(f, p + s.size, Gather(dqt, chunk, s.marker, DQT), Gather(dht, chunk, s.marker, DHT))
  }

  /** One round of the extraction loop, over the segment `s`. */
  lemma ExtractStep(f: seq<byte>, s: Segment, dqt: seq<byte>, dht: seq<byte>)
    requires IsSegmentAt(f, s)
    ensures ExtractLoop(f, s.at, dqt, dht)
         == ExtractLoop(f, s.at + s.size, Gather(dqt, f[s.at .. s.at + s.size], s.marker, DQT),
                                          Gather(dht, f[s.at .. s.at + s.size], s.marker, DHT))
  {
    SegmentAtIs(f, s);
  }

  /** The extraction loop gathers the tables of the segments the walk meets. */
  lemma ExtractLoopFollowsWalk(f: seq<byte>, p: nat, dqt: seq<byte>, dht: seq<byte>)
    ensures InFrame(f, Walk(f, p).0)
    ensures ExtractLoop(f, p, dqt, dht)
         == (dqt + Tables(f, Walk(f, p).0, DQT), dht + Tables(f, Walk(f, p).0, DHT))
  {
    WalkTiles(f, p);
    ExtractLoopOverOwnTiles(f, Walk(f, p).0, p, Walk(f, p).1.at, dqt, dht);
  }

  /** The extraction loop run over tiling segments of `f` gathers their tables. */
  lemma {:induction false} ExtractLoopOverOwnTiles(f: seq<byte>, segs: seq<Segment>, from: nat, to: nat,
                                                   dqt: seq<byte>, dht: seq<byte>)
    requires Tiles(f, segs, from, to)
    ensures InFrame(f, segs)
    ensures ExtractLoop(f, from, dqt, dht)
         == ExtractLoop(f, to, dqt + Tables(f, segs, DQT), dht + Tables(f, segs, DHT))
    decreases |segs|, 1
  {
    TilesInFrame(f, segs, from, to);
    if |segs| == 0 {
      assert dqt + [] == dqt && dht + [] == dht;
    } else {
      OwnTilesStep(f, segs, to, dqt, dht);
    }
  }

  /** ExtractLoopOverOwnTiles for a non-empty tiling, from its first segment. */
  lemma {:induction false} OwnTilesStep(f: seq<byte>, segs: seq<Segment>, to: nat, dqt: seq<byte>, dht: seq<byte>)
    requires |segs| > 0 && IsSegmentAt(f, segs[0]) && InFrame(f, segs)
    requires Tiles(f, segs[1..], segs[0].at + segs[0].size, to)
    ensures ExtractLoop(f, segs[0].at, dqt, dht)
         == ExtractLoop(f, to, dqt + Tables(f, segs, DQT), dht + Tables(f, segs, DHT))
    decreases |segs|, 0
  {
    TilesInFrame(f, segs[1..], segs[0].at + segs[0].size, to);
    ExtractLoopOverOwnTiles(f, segs[1..], segs[0].at + segs[0].size, to,
                            Gather(dqt, f[segs[0].at .. segs[0].at + segs[0].size], segs[0].marker, DQT),
                            Gather(dht, f[segs[0].at .. segs[0].at + segs[0].size], segs[0].marker, DHT));
    OverTilesStep(f, f, segs, to, dqt, dht);
  }

  /** ExtractDqtDht: the DQT and the DHT segments met before the scan, each kind concatenated in
      frame order with its marker and length field; empty when there is none. */
  function ExtractDqtDht(f: seq<byte>): (r: (seq<byte>, seq<byte>))
    ensures InFrame(f, Walk(f, 2).0)
    ensures r == (Tables(f, Walk(f, 2).0, DQT), Tables(f, Walk(f, 2).0, DHT))
  {
    ExtractLoopFollowsWalk(f, 2, [], []);
    var w := Walk(f, 2);
    assert [] + Tables(f, w.0, DQT) == Tables(f, w.0, DQT);
    assert [] + Tables(f, w.0, DHT) == Tables(f, w.0, DHT);
    ExtractLoop(f, 2, [], [])
  }

  /** The saved tables never take more room than the frame they come from, less its SOI marker. */
  lemma ExtractedFitsFrame(f: seq<byte>)
    ensures |ExtractDqtDht(f).0| + |ExtractDqtDht(f).1| <= if |f| < 2 then 0 else |f| - 2
  {
    WalkTiles(f, 2);
    TablesFitTiles(f, Walk(f, 2).0, 2, Walk(f, 2).1.at);
  }

  /** A kind of table is saved exactly when the walk meets a segment of that kind. */
  lemma ExtractedIffPresent(f: seq<byte>)
    ensures ExtractDqtDht(f).0 != [] <==> exists i :: 0 <= i < |Walk(f, 2).0| && Walk(f, 2).0[i].marker == DQT
    ensures ExtractDqtDht(f).1 != [] <==> exists i :: 0 <= i < |Walk(f, 2).0| && Walk(f, 2).0[i].marker == DHT
  {
    WalkHasKind(f, DQT);
    WalkHasKind(f, DHT);
  }

  lemma WalkHasKind(f: seq<byte>, kind: byte)
    ensures InFrame(f, Walk(f, 2).0)
    ensures Tables(f, Walk(f, 2).0, kind) != [] <==> exists i :: 0 <= i < |Walk(f, 2).0| && Walk(f, 2).0[i].marker == kind
  {
    var w := Walk(f, 2);
    WalkTiles(f, 2);
    TablesEmptyIffAbsent(f, w.0, 2, w.1.at, kind);
    if Tables(f, w.0, kind) != [] {
      assert !forall i :: 0 <= i < |w.0| ==> w.0[i].marker != kind;
      var i :| 0 <= i < |w.0| && w.0[i].marker == kind;
    }
  }

  // ---------------------------------------------------------------------------------------
  // PatchDqtDht

  /** A saved table after the loop passes a segment: dropped once the frame shows its own. */
  function Pending(saved: seq<byte>, marker: byte, kind: byte): seq<byte>
  {
    if marker == kind then [] else saved
  }

  /** The loop of PatchDqtDht from offset `p`: `out` is the output built so far, `dqt` and
      `dht` the saved tables still to be inserted. */
  function PatchLoop(f: seq<byte>, p: nat, dqt: seq<byte>, dht: seq<byte>, out: seq<byte>): seq<byte>
    requires p <= |f|
    decreases |f| - p
  {
    match SegmentAt(f, p)
    case Some(s) =>
      PatchLoop(f, p + s.size, Pending(dqt, s.marker, DQT), Pending(dht, s.marker, DHT),
                out + f[p .. p + s.size])
    case None =>
      Finish(f, p, if ScanAt(f, p) then out + dqt + dht else out)
  }

  /** The tail copy after the loop of PatchDqtDht. */
  function Finish(f: seq<byte>, p: nat, out: seq<byte>): seq<byte>
    requires p <= |f|
  {
    if p < |f| then out + f[p..] else out
  }

  /** A saved table kind goes into the frame only when the frame has none of its own. */
  function Inserted(own: seq<byte>, saved: seq<byte>): seq<byte>
  {
    if own == [] then saved else []
  }

  /** One round of the patch loop, over the segment `s`. */
  lemma PatchLoopStep(f: seq<byte>, s: Segment, dqt: seq<byte>, dht: seq<byte>, out: seq<byte>)
    requires IsSegmentAt(f, s)
    ensures PatchLoop(f, s.at, dqt, dht, out)
         == PatchLoop(f, s.at + s.size, Pending(dqt, s.marker, DQT), Pending(dht, s.marker, DHT),
                      out + f[s.at .. s.at + s.size])
  {
    SegmentAtIs(f, s);
  }

  /** The patch loop over segments tiling the frame up to its SOS marker copies them, inserts each
      saved table kind they lack, and copies the rest of the frame. */
  lemma {:induction false} PatchLoopToScan(f: seq<byte>, segs: seq<Segment>, p: nat, q: nat,
                                           dqt: seq<byte>, dht: seq<byte>, out: seq<byte>)
    requires Tiles(f, segs, p, q) && ScanAt(f, q)
    ensures InFrame(f, segs) && p <= q
    ensures PatchLoop(f, p, dqt, dht, out)
         == out + f[p..q] + Inserted(Tables(f, segs, DQT), dqt) + Inserted(Tables(f, segs, DHT), dht) + f[q..]
    decreases |segs|, 2
  {
    TilesInFrame(f, segs, p, q);
    if |segs| == 0 {
      PatchLoopAtScan(f, segs, q, dqt, dht, out);
    } else {
      ScanStep(f, segs, q, dqt, dht, out);
    }
  }

  /** The patch loop standing on the SOS marker inserts both saved tables. */
  lemma PatchLoopAtScan(f: seq<byte>, segs: seq<Segment>, q: nat, dqt: seq<byte>, dht: seq<byte>, out: seq<byte>)
    requires ScanAt(f, q) && |segs| == 0
    ensures InFrame(f, segs)
    ensures PatchLoop(f, q, dqt, dht, out)
         == out + f[q..q] + Inserted(Tables(f, segs, DQT), dqt) + Inserted(Tables(f, segs, DHT), dht) + f[q..]
  {
    assert f[q..q] == [];
    assert out + [] == out;
  }

  /** The step of PatchLoopToScan over the first segment of the tiling. */
  lemma {:induction false} ScanStep(f: seq<byte>, segs: seq<Segment>, q: nat, dqt: seq<byte>, dht: seq<byte>, out: seq<byte>)
    requires |segs| > 0 && Tiles(f, segs, segs[0].at, q) && ScanAt(f, q)
    ensures InFrame(f, segs) && segs[0].at <= q
    ensures PatchLoop(f, segs[0].at, dqt, dht, out)
         == out + f[segs[0].at .. q] + Inserted(Tables(f, segs, DQT), dqt) + Inserted(Tables(f, segs, DHT), dht) + f[q..]
    decreases |segs|, 1
  {
    var s := segs[0];
    ScanHead(f, segs, q, dqt, dht, out);
    InsertedStep(f, segs, DQT, dqt);
    InsertedStep(f, segs, DHT, dht);
    SpliceStep(f, segs, q, dqt, dht, out);
    Chain(PatchLoop(f, s.at, dqt, dht, out),
          (out + f[s.at .. s.at + s.size]) + f[s.at + s.size .. q]
             + Inserted(Tables(f, segs[1..], DQT), Pending(dqt, s.marker, DQT))
             + Inserted(Tables(f, segs[1..], DHT), Pending(dht, s.marker, DHT)) + f[q..],
          out + f[s.at .. q] + Inserted(Tables(f, segs, DQT), dqt) + Inserted(Tables(f, segs, DHT), dht) + f[q..],
          out + f[s.at .. q] + Inserted(Tables(f, segs, DQT), dqt) + Inserted(Tables(f, segs, DHT), dht) + f[q..]);
  }

  /** The patch loop copies the first segment of the tiling, then carries on over the rest. */
  lemma {:induction false} ScanHead(f: seq<byte>, segs: seq<Segment>, q: nat, dqt: seq<byte>, dht: seq<byte>, out: seq<byte>)
    requires |segs| > 0 && Tiles(f, segs, segs[0].at, q) && ScanAt(f, q)
    ensures IsSegmentAt(f, segs[0]) && InFrame(f, segs) && InFrame(f, segs[1..])
    ensures segs[0].at + segs[0].size <= q <= |f|
    ensures PatchLoop(f, segs[0].at, dqt, dht, out)
         == (out + f[segs[0].at .. segs[0].at + segs[0].size]) + f[segs[0].at + segs[0].size .. q]
            + Inserted(Tables(f, segs[1..], DQT), Pending(dqt, segs[0].marker, DQT))
            + Inserted(Tables(f, segs[1..], DHT), Pending(dht, segs[0].marker, DHT)) + f[q..]
    decreases |segs|, 0
  {
    var s := segs[0];
    TilesInFrame(f, segs, s.at, q);
    TilesInFrame(f, segs[1..], s.at + s.size, q);
    PatchLoopToScan(f, segs[1..], s.at + s.size, q,
                    Pending(dqt, s.marker, DQT), Pending(dht, s.marker, DHT),
                    out + f[s.at .. s.at + s.size]);
    PatchLoopStep(f, s, dqt, dht, out);
  }

  /** Equality is transitive; stated over boxed values so that no sequence reasoning is needed.
      Proof plumbing only: it hands the caller one equation in a fixed shape to keep its proof small. */
  lemma Chain<T>(a: T, b: T, c: T, d: T)
    requires a == b && b == c && c == d
    ensures a == d
  {
  }

  /** A saved table is inserted before the first segment exactly when it is still pending after it. */
  lemma InsertedStep(f: seq<byte>, segs: seq<Segment>, kind: byte, saved: seq<byte>)
    requires |segs| > 0 && IsSegmentAt(f, segs[0]) && InFrame(f, segs) && InFrame(f, segs[1..])
    ensures Inserted(Tables(f, segs, kind), saved)
         == Inserted(Tables(f, segs[1..], kind), Pending(saved, segs[0].marker, kind))
  {
    var s := segs[0];
    SameInsertion(Tables(f, segs, kind), Tables(f, segs[1..], kind), f[s.at .. s.at + s.size], s.marker, kind, saved);
  }

  /** The output the patch produces after one more segment is copied and its kind's saved table
      dropped is the output it produces before. */
  lemma SpliceStep(f: seq<byte>, segs: seq<Segment>, q: nat, dqt: seq<byte>, dht: seq<byte>, out: seq<byte>)
    requires |segs| > 0 && InFrame(f, segs) && InFrame(f, segs[1..])
    requires segs[0].at + segs[0].size <= q <= |f|
    requires Inserted(Tables(f, segs, DQT), dqt)
          == Inserted(Tables(f, segs[1..], DQT), Pending(dqt, segs[0].marker, DQT))
    requires Inserted(Tables(f, segs, DHT), dht)
          == Inserted(Tables(f, segs[1..], DHT), Pending(dht, segs[0].marker, DHT))
    ensures (out + f[segs[0].at .. segs[0].at + segs[0].size]) + f[segs[0].at + segs[0].size .. q]
            + Inserted(Tables(f, segs[1..], DQT), Pending(dqt, segs[0].marker, DQT))
            + Inserted(Tables(f, segs[1..], DHT), Pending(dht, segs[0].marker, DHT)) + f[q..]
         == out + f[segs[0].at .. q] + Inserted(Tables(f, segs, DQT), dqt) + Inserted(Tables(f, segs, DHT), dht) + f[q..]
  {
    ScanRegroup(out, f, segs[0].at, segs[0].size, q,
                Inserted(Tables(f, segs, DQT), dqt), Inserted(Tables(f, segs, DHT), dht),
                Inserted(Tables(f, segs[1..], DQT), Pending(dqt, segs[0].marker, DQT)),
                Inserted(Tables(f, segs[1..], DHT), Pending(dht, segs[0].marker, DHT)));
  }

  /** The patch loop over segments tiling the frame up to a place where it stops short of the
      scan copies the frame unchanged. */
  lemma {:induction false} PatchLoopHalts(f: seq<byte>, segs: seq<Segment>, p: nat, r: nat,
                                          dqt: seq<byte>, dht: seq<byte>, out: seq<byte>)
    requires Tiles(f, segs, p, r) && r <= |f| && SegmentAt(f, r).None? && !ScanAt(f, r)
    ensures p <= r
    ensures PatchLoop(f, p, dqt, dht, out) == out + f[p..]
    decreases |segs|, 1
  {
    TilesInFrame(f, segs, p, r);
    if |segs| == 0 {
      PatchLoopStopsShort(f, r, dqt, dht, out);
    } else {
      HaltsAfterFirst(f, segs, r, dqt, dht, out);
    }
  }

  /** PatchLoopHalts for a non-empty tiling, from its first segment. */
  lemma {:induction false} HaltsAfterFirst(f: seq<byte>, segs: seq<Segment>, r: nat,
                                           dqt: seq<byte>, dht: seq<byte>, out: seq<byte>)
    requires |segs| > 0 && Tiles(f, segs, segs[0].at, r) && r <= |f| && SegmentAt(f, r).None? && !ScanAt(f, r)
    ensures segs[0].at <= r
    ensures PatchLoop(f, segs[0].at, dqt, dht, out) == out + f[segs[0].at..]
    decreases |segs|, 0
  {
    TilesInFrame(f, segs, segs[0].at, r);
    TilesInFrame(f, segs[1..], segs[0].at + segs[0].size, r);
    PatchLoopHalts(f, segs[1..], segs[0].at + segs[0].size, r,
                   Pending(dqt, segs[0].marker, DQT), Pending(dht, segs[0].marker, DHT),
                   out + f[segs[0].at .. segs[0].at + segs[0].size]);
    HaltStep(f, segs[0], dqt, dht, out);
  }

  lemma PatchLoopStopsShort(f: seq<byte>, r: nat, dqt: seq<byte>, dht: seq<byte>, out: seq<byte>)
    requires r <= |f| && SegmentAt(f, r).None? && !ScanAt(f, r)
    ensures PatchLoop(f, r, dqt, dht, out) == out + f[r..]
  {
    if r == |f| {
      assert f[r..] == [];
    }
  }

  /** The step of PatchLoopHalts over one segment. */
  lemma HaltStep(f: seq<byte>, s: Segment, dqt: seq<byte>, dht: seq<byte>, out: seq<byte>)
    requires IsSegmentAt(f, s)
    requires PatchLoop(f, s.at + s.size, Pending(dqt, s.marker, DQT), Pending(dht, s.marker, DHT),
                       out + f[s.at .. s.at + s.size])
          == (out + f[s.at .. s.at + s.size]) + f[s.at + s.size ..]
    ensures PatchLoop(f, s.at, dqt, dht, out) == out + f[s.at..]
  {
    PatchLoopStep(f, s, dqt, dht, out);
    HaltedRegroup(out, f, s.at, s.size);
    Chain(PatchLoop(f, s.at, dqt, dht, out),
          PatchLoop(f, s.at + s.size, Pending(dqt, s.marker, DQT), Pending(dht, s.marker, DHT),
                    out + f[s.at .. s.at + s.size]),
          (out + f[s.at .. s.at + s.size]) + f[s.at + s.size ..],
          out + f[s.at..]);
  }

  lemma HaltedRegroup(out: seq<byte>, f: seq<byte>, p: nat, s: nat)
    requires p + s <= |f|
    ensures out + f[p..] == (out + f[p .. p + s]) + f[p + s ..]
  {
    assert f[p..] == f[p .. p + s] + f[p + s ..];
  }

  lemma ScanRegroup(out: seq<byte>, f: seq<byte>, p: nat, s: nat, q: nat,
                     a: seq<byte>, b: seq<byte>, a': seq<byte>, b': seq<byte>)
    requires p + s <= q <= |f| && a == a' && b == b'
    ensures (out + f[p .. p + s]) + f[p + s .. q] + a' + b' + f[q..] == out + f[p..q] + a + b + f[q..]
  {
    assert f[p..q] == f[p .. p + s] + f[p + s .. q];
  }

  /** A saved table is inserted by the step before a segment exactly when it is inserted after it. */
  lemma SameInsertion(tables: seq<byte>, rest: seq<byte>, chunk: seq<byte>, marker: byte, kind: byte, saved: seq<byte>)
    requires tables == Taken(chunk, marker, kind) + rest
    requires |chunk| > 0
    ensures Inserted(tables, saved) == Inserted(rest, Pending(saved, marker, kind))
  {
    if marker == kind {
      assert |tables| > 0;
    } else {
      assert tables == rest;
    }
  }

  /** What PatchDqtDht is meant to produce, stated on the segment walk: the frame itself unless
      the walk reaches the scan, and otherwise the frame with each saved table kind the frame
      lacks inserted just before the SOS marker. */
  function Patched(f: seq<byte>, dqt: seq<byte>, dht: seq<byte>): seq<byte>
    requires InFrame(f, Walk(f, 2).0)
  {
    var w := Walk(f, 2);
    match w.1
    case Halted(_) => f
    case AtScan(q) =>
      f[..q] + Inserted(Tables(f, w.0, DQT), dqt) + Inserted(Tables(f, w.0, DHT), dht) + f[q..]
  }

  /** PatchDqtDht: frame bytes 0-1 and every segment before SOS are kept verbatim, the saved DQT
      then DHT are inserted right before the SOS marker unless the frame already has a segment of
      that kind, and the rest of the frame follows unchanged; when the walk does not reach SOS the
      frame is returned as it is. */
  function PatchDqtDht(f: seq<byte>, dqt: seq<byte>, dht: seq<byte>): (r: seq<byte>)
    requires 2 <= |f|
    ensures InFrame(f, Walk(f, 2).0)
    ensures r == Patched(f, dqt, dht)
  {
    PatchLoopIsPatched(f, dqt, dht);
    PatchLoop(f, 2, dqt, dht, f[..2])
  }

  lemma PatchLoopIsPatched(f: seq<byte>, dqt: seq<byte>, dht: seq<byte>)
    requires 2 <= |f|
    ensures InFrame(f, Walk(f, 2).0)
    ensures PatchLoop(f, 2, dqt, dht, f[..2]) == Patched(f, dqt, dht)
  {
    var w := Walk(f, 2);
    WalkTiles(f, 2);
    WalkInFrame(f, 2);
    if w.1.AtScan? {
      PatchLoopToScan(f, w.0, 2, w.1.at, dqt, dht, f[..2]);
      assert f[..2] + f[2..w.1.at] == f[..w.1.at];
    } else {
      PatchLoopHalts(f, w.0, 2, w.1.at, dqt, dht, f[..2]);
      assert f[..2] + f[2..] == f;
    }
  }

  /** Without saved tables the patch changes nothing. */
  lemma PatchWithoutTablesIsIdentity(f: seq<byte>)
    requires 2 <= |f|
    ensures PatchDqtDht(f, [], []) == f
  {
    var w := Walk(f, 2);
    if w.1.AtScan? {
      assert f[..w.1.at] + f[w.1.at..] == f;
    }
  }

  /** A frame that brings both kinds of table is never changed by the patch. */
  lemma PatchKeepsCompleteFrame(f: seq<byte>, dqt: seq<byte>, dht: seq<byte>)
    requires 2 <= |f|
    requires ExtractDqtDht(f).0 != [] && ExtractDqtDht(f).1 != []
    ensures PatchDqtDht(f, dqt, dht) == f
  {
    var w := Walk(f, 2);
    if w.1.AtScan? {
      assert f[..w.1.at] + f[w.1.at..] == f;
    }
  }

  // ---------------------------------------------------------------------------------------
  // Saving the tables of a patched frame

  /** `t` is a run of whole marker segments of kind `kind`, each at least as long as its own
      marker and length field, as ExtractDqtDht returns them. */
  predicate WellFormedTables(t: seq<byte>, kind: byte)
    decreases |t|
  {
    if |t| == 0 then true
    else
      && |t| >= 4 && t[0] == 0xFF && t[1] == kind
      && 4 <= BigEndian16(t[2], t[3]) + 2 <= |t|
      && WellFormedTables(t[BigEndian16(t[2], t[3]) + 2 ..], kind)
  }

  /** Segments tiling the frame up to a 0xFF byte are at least four bytes long: a shorter length
      field would have to be the 0xFF byte that follows. */
  lemma {:induction false} TilesWide(f: seq<byte>, segs: seq<Segment>, from: nat, to: nat)
    requires Tiles(f, segs, from, to)
    requires to < |f| && f[to] == 0xFF
    ensures forall i :: 0 <= i < |segs| ==> segs[i].size >= 4
    decreases |segs|
  {
    if |segs| > 0 {
      var s := segs[0];
      TilesWide(f, segs[1..], from + s.size, to);
      TilesInFrame(f, segs[1..], from + s.size, to);
      if |segs| > 1 {
        assert segs[1..][0].at == from + s.size;
      }
      assert f[from + s.size] == 0xFF;
      forall i | 0 <= i < |segs| ensures segs[i].size >= 4 {
        if i > 0 {
          assert segs[i] == segs[1..][i - 1];
        }
      }
    }
  }

  /** A whole segment followed by well-formed tables of the same kind is well formed. */
  lemma ConsTable(chunk: seq<byte>, rest: seq<byte>, kind: byte)
    requires |chunk| >= 4 && chunk[0] == 0xFF && chunk[1] == kind
    requires BigEndian16(chunk[2], chunk[3]) + 2 == |chunk|
    requires WellFormedTables(rest, kind)
    ensures WellFormedTables(chunk + rest, kind)
  {
    assert (chunk + rest)[|chunk|..] == rest;
  }

  /** The tables gathered from tiling segments followed by a 0xFF byte are well formed. */
  lemma {:induction false} TablesWellFormed(f: seq<byte>, segs: seq<Segment>, from: nat, to: nat, kind: byte)
    requires Tiles(f, segs, from, to)
    requires forall i :: 0 <= i < |segs| ==> segs[i].size >= 4
    ensures InFrame(f, segs)
    ensures WellFormedTables(Tables(f, segs, kind), kind)
    decreases |segs|
  {
    TilesInFrame(f, segs, from, to);
    if |segs| > 0 {
      var s := segs[0];
      forall i | 0 <= i < |segs[1..]| ensures segs[1..][i].size >= 4 {
        assert segs[1..][i] == segs[i + 1];
      }
      TablesWellFormed(f, segs[1..], from + s.size, to, kind);
      if s.marker == kind {
        ConsTable(f[s.at .. s.at + s.size], Tables(f, segs[1..], kind), kind);
      } else {
        assert [] + Tables(f, segs[1..], kind) == Tables(f, segs[1..], kind);
      }
    }
  }

  /** When the frame reaches its scan, the tables saved from it are well formed. */
  lemma ExtractedTablesWellFormed(f: seq<byte>)
    requires Walk(f, 2).1.AtScan?
    ensures WellFormedTables(ExtractDqtDht(f).0, DQT)
    ensures WellFormedTables(ExtractDqtDht(f).1, DHT)
  {
    var w := Walk(f, 2);
    WalkTiles(f, 2);
    TilesWide(f, w.0, 2, w.1.at);
    TablesWellFormed(f, w.0, 2, w.1.at, DQT);
    TablesWellFormed(f, w.0, 2, w.1.at, DHT);
  }

  /** A segment of `f` lying below `to` is a segment, with the same bytes, of every `g` that agrees
      with `f` below `to` and has more than four bytes after it. */
  lemma SegmentCopied(f: seq<byte>, g: seq<byte>, s: Segment, to: nat)
    requires IsSegmentAt(f, s) && s.size >= 4 && s.at + s.size <= to
    requires to <= |f| && to + 4 < |g| && g[..to] == f[..to]
    ensures IsSegmentAt(g, s)
    ensures g[s.at .. s.at + s.size] == f[s.at .. s.at + s.size]
  {
    var p := s.at;
    forall i | p <= i < p + s.size ensures g[i] == f[i] {
      assert g[i] == g[..to][i] && f[i] == f[..to][i];
    }
    assert g[p .. p + s.size] == f[p .. p + s.size];
  }

  /** The extraction loop run over a copy of tiling segments of `f` gathers their tables. */
  lemma {:induction false} ExtractLoopOverTiles(f: seq<byte>, g: seq<byte>, segs: seq<Segment>, from: nat, to: nat,
                                                dqt: seq<byte>, dht: seq<byte>)
    requires Tiles(f, segs, from, to)
    requires forall i :: 0 <= i < |segs| ==> segs[i].size >= 4
    requires to <= |f| && to + 4 < |g| && g[..to] == f[..to]
    ensures InFrame(f, segs)
    ensures ExtractLoop(g, from, dqt, dht)
         == ExtractLoop(g, to, dqt + Tables(f, segs, DQT), dht + Tables(f, segs, DHT))
    decreases |segs|, 2
  {
    TilesInFrame(f, segs, from, to);
    if |segs| == 0 {
      assert dqt + [] == dqt && dht + [] == dht;
    } else {
      OverFirstTile(f, g, segs, to, dqt, dht);
    }
  }

  /** ExtractLoopOverTiles for a non-empty tiling, from its first segment. */
  lemma {:induction false} OverFirstTile(f: seq<byte>, g: seq<byte>, segs: seq<Segment>, to: nat,
                                         dqt: seq<byte>, dht: seq<byte>)
    requires |segs| > 0 && Tiles(f, segs, segs[0].at, to)
    requires forall i :: 0 <= i < |segs| ==> segs[i].size >= 4
    requires to <= |f| && to + 4 < |g| && g[..to] == f[..to]
    ensures InFrame(f, segs)
    ensures ExtractLoop(g, segs[0].at, dqt, dht)
         == ExtractLoop(g, to, dqt + Tables(f, segs, DQT), dht + Tables(f, segs, DHT))
    decreases |segs|, 1
  {
    TilesRest(f, g, segs, segs[0].at, to);
    OverRestTiles(f, g, segs, to, dqt, dht);
  }

  /** OverFirstTile once the first segment is known to be copied into `g`. */
  lemma {:induction false} OverRestTiles(f: seq<byte>, g: seq<byte>, segs: seq<Segment>, to: nat,
                                         dqt: seq<byte>, dht: seq<byte>)
    requires |segs| > 0 && InFrame(f, segs) && InFrame(f, segs[1..])
    requires Tiles(f, segs[1..], segs[0].at + segs[0].size, to)
    requires forall i :: 0 <= i < |segs[1..]| ==> segs[1..][i].size >= 4
    requires IsSegmentAt(g, segs[0])
    requires g[segs[0].at .. segs[0].at + segs[0].size] == f[segs[0].at .. segs[0].at + segs[0].size]
    requires to <= |f| && to + 4 < |g| && g[..to] == f[..to]
    ensures ExtractLoop(g, segs[0].at, dqt, dht)
         == ExtractLoop(g, to, dqt + Tables(f, segs, DQT), dht + Tables(f, segs, DHT))
    decreases |segs|, 0
  {
    ExtractLoopOverTiles(f, g, segs[1..], segs[0].at + segs[0].size, to,
                         Gather(dqt, g[segs[0].at .. segs[0].at + segs[0].size], segs[0].marker, DQT),
                         Gather(dht, g[segs[0].at .. segs[0].at + segs[0].size], segs[0].marker, DHT));
    OverTilesStep(f, g, segs, to, dqt, dht);
  }

  /** What ExtractLoopOverTiles needs to know of the rest of a non-empty tiling. */
  lemma TilesRest(f: seq<byte>, g: seq<byte>, segs: seq<Segment>, from: nat, to: nat)
    requires Tiles(f, segs, from, to) && |segs| > 0
    requires forall i :: 0 <= i < |segs| ==> segs[i].size >= 4
    requires to <= |f| && to + 4 < |g| && g[..to] == f[..to]
    ensures segs[0].at == from && Tiles(f, segs[1..], segs[0].at + segs[0].size, to)
    ensures InFrame(f, segs) && InFrame(f, segs[1..])
    ensures forall i :: 0 <= i < |segs[1..]| ==> segs[1..][i].size >= 4
    ensures IsSegmentAt(g, segs[0])
    ensures g[segs[0].at .. segs[0].at + segs[0].size] == f[segs[0].at .. segs[0].at + segs[0].size]
  {
    TilesInFrame(f, segs, from, to);
    TilesInFrame(f, segs[1..], segs[0].at + segs[0].size, to);
    forall i | 0 <= i < |segs[1..]| ensures segs[1..][i].size >= 4 {
      assert segs[1..][i] == segs[i + 1];
    }
    SegmentCopied(f, g, segs[0], to);
  }

  /** The step of ExtractLoopOverTiles: the first segment, then the rest of the tiling. */
  lemma OverTilesStep(f: seq<byte>, g: seq<byte>, segs: seq<Segment>, to: nat, dqt: seq<byte>, dht: seq<byte>)
    requires |segs| > 0 && IsSegmentAt(g, segs[0]) && InFrame(f, segs) && InFrame(f, segs[1..])
    requires g[segs[0].at .. segs[0].at + segs[0].size] == f[segs[0].at .. segs[0].at + segs[0].size]
    requires ExtractLoop(g, segs[0].at + segs[0].size,
                         Gather(dqt, g[segs[0].at .. segs[0].at + segs[0].size], segs[0].marker, DQT),
                         Gather(dht, g[segs[0].at .. segs[0].at + segs[0].size], segs[0].marker, DHT))
          == ExtractLoop(g, to,
                         Gather(dqt, g[segs[0].at .. segs[0].at + segs[0].size], segs[0].marker, DQT) + Tables(f, segs[1..], DQT),
                         Gather(dht, g[segs[0].at .. segs[0].at + segs[0].size], segs[0].marker, DHT) + Tables(f, segs[1..], DHT))
    ensures ExtractLoop(g, segs[0].at, dqt, dht)
         == ExtractLoop(g, to, dqt + Tables(f, segs, DQT), dht + Tables(f, segs, DHT))
  {
    var s := segs[0];
    var chunk := g[s.at .. s.at + s.size];
    ExtractStep(g, s, dqt, dht);
    GatherTables(f, segs, chunk, dqt, DQT);
    GatherTables(f, segs, chunk, dht, DHT);
    SameArguments(g, to, Gather(dqt, chunk, s.marker, DQT) + Tables(f, segs[1..], DQT), dqt + Tables(f, segs, DQT),
                  Gather(dht, chunk, s.marker, DHT) + Tables(f, segs[1..], DHT), dht + Tables(f, segs, DHT));
    Chain(ExtractLoop(g, s.at, dqt, dht),
          ExtractLoop(g, s.at + s.size, Gather(dqt, chunk, s.marker, DQT), Gather(dht, chunk, s.marker, DHT)),
          ExtractLoop(g, to, Gather(dqt, chunk, s.marker, DQT) + Tables(f, segs[1..], DQT),
                             Gather(dht, chunk, s.marker, DHT) + Tables(f, segs[1..], DHT)),
          ExtractLoop(g, to, dqt + Tables(f, segs, DQT), dht + Tables(f, segs, DHT)));
  }

  /** Gathering the first segment and then the tables of the rest gathers the tables of all. */
  lemma GatherTables(f: seq<byte>, segs: seq<Segment>, chunk: seq<byte>, acc: seq<byte>, kind: byte)
    requires |segs| > 0 && InFrame(f, segs) && InFrame(f, segs[1..])
    requires chunk == f[segs[0].at .. segs[0].at + segs[0].size]
    ensures Gather(acc, chunk, segs[0].marker, kind) + Tables(f, segs[1..], kind) == acc + Tables(f, segs, kind)
  {
    AppendTable(acc, chunk, Tables(f, segs[1..], kind), segs[0].marker, kind);
  }

  /** The extraction loop from one place with equal accumulators gives equal results.
      Proof plumbing only: it states the congruence in one step so that callers stay cheap. */
  lemma SameArguments(g: seq<byte>, p: nat, dqt: seq<byte>, dqt': seq<byte>, dht: seq<byte>, dht': seq<byte>)
    requires dqt == dqt' && dht == dht'
    ensures ExtractLoop(g, p, dqt, dht) == ExtractLoop(g, p, dqt', dht')
  {
  }

  /** From offset `p` to offset `q`, `g` holds nothing but whole segments of kind `kind`, each
      accepted by the header checks. */
  predicate KindRun(g: seq<byte>, p: nat, q: nat, kind: byte)
    decreases q - p
  {
    if p >= q then p == q && q <= |g|
    else
      match SegmentAt(g, p)
      case None => false
      case Some(s) => s.marker == kind && KindRun(g, p + s.size, q, kind)
  }

  /** A segment of kind `kind` followed by a run of that kind is a run. */
  lemma RunCons(g: seq<byte>, kind: byte, p: nat, n: nat, q: nat)
    requires IsSegmentAt(g, Segment(kind, p, n)) && p < q
    requires KindRun(g, p + n, q, kind)
    ensures KindRun(g, p, q, kind)
  {
    SegmentAtIs(g, Segment(kind, p, n));
  }

  /** Well-formed tables copied into a frame, ending at `q` with more than four bytes after them,
      form a run of segments of their kind. */
  lemma {:induction false} TablesAreRun(g: seq<byte>, p: nat, t: seq<byte>, q: nat, kind: byte)
    requires kind == DQT || kind == DHT
    requires WellFormedTables(t, kind)
    requires q == p + |t| && q + 4 < |g| && g[p .. q] == t
    ensures KindRun(g, p, q, kind)
    decreases |t|, 1
  {
    if |t| > 0 {
      TableHead(g, p, t, q, kind);
      RestAreRun(g, p, BigEndian16(t[2], t[3]) + 2, t[BigEndian16(t[2], t[3]) + 2 ..], q, kind);
    }
  }

  /** TablesAreRun past the first table, which is `n` bytes long and followed by the tables `t`. */
  lemma {:induction false} RestAreRun(g: seq<byte>, p: nat, n: nat, t: seq<byte>, q: nat, kind: byte)
    requires kind == DQT || kind == DHT
    requires IsSegmentAt(g, Segment(kind, p, n)) && p < q
    requires WellFormedTables(t, kind)
    requires q == p + n + |t| && q + 4 < |g| && g[p + n .. q] == t
    ensures KindRun(g, p, q, kind)
    decreases |t|, 2
  {
    TablesAreRun(g, p + n, t, q, kind);
    RunCons(g, kind, p, n, q);
  }

  /** The first table of a copy of well-formed tables is a segment of the frame, and the rest of
      the copy follows it. */
  lemma TableHead(g: seq<byte>, p: nat, t: seq<byte>, q: nat, kind: byte)
    requires kind == DQT || kind == DHT
    requires WellFormedTables(t, kind) && |t| > 0
    requires q == p + |t| && q + 4 < |g| && g[p .. q] == t
    ensures IsSegmentAt(g, Segment(kind, p, BigEndian16(t[2], t[3]) + 2)) && p < q
    ensures WellFormedTables(t[BigEndian16(t[2], t[3]) + 2 ..], kind)
    ensures q == p + (BigEndian16(t[2], t[3]) + 2) + |t[BigEndian16(t[2], t[3]) + 2 ..]|
    ensures g[p + (BigEndian16(t[2], t[3]) + 2) .. q] == t[BigEndian16(t[2], t[3]) + 2 ..]
  {
    var n := BigEndian16(t[2], t[3]) + 2;
    SubSlices(g, p, t, n);
  }

  /** The extraction loop run over a run of segments of one kind gathers the run whole. */
  lemma {:induction false} ExtractLoopOverRun(g: seq<byte>, p: nat, q: nat, kind: byte, dqt: seq<byte>, dht: seq<byte>)
    requires KindRun(g, p, q, kind)
    ensures p <= q <= |g|
    ensures ExtractLoop(g, p, dqt, dht)
         == ExtractLoop(g, q, Gather(dqt, g[p..q], kind, DQT), Gather(dht, g[p..q], kind, DHT))
    decreases q - p
  {
    if p == q {
      GatherNothing(dqt, g[p..q], kind, DQT);
      GatherNothing(dht, g[p..q], kind, DHT);
    } else {
      var s := SegmentAt(g, p).value;
      var chunk := g[s.at .. s.at + s.size];
      ExtractLoopOverRun(g, s.at + s.size, q, kind, Gather(dqt, chunk, kind, DQT), Gather(dht, chunk, kind, DHT));
      RunStep(g, s, q, kind, dqt, dht);
    }
  }

  /** The step of ExtractLoopOverRun over the first segment of the run. */
  lemma RunStep(g: seq<byte>, s: Segment, q: nat, kind: byte, dqt: seq<byte>, dht: seq<byte>)
    requires IsSegmentAt(g, s) && s.marker == kind && s.at + s.size <= q <= |g|
    requires var chunk := g[s.at .. s.at + s.size];
      ExtractLoop(g, s.at + s.size, Gather(dqt, chunk, kind, DQT), Gather(dht, chunk, kind, DHT))
      == ExtractLoop(g, q, Gather(Gather(dqt, chunk, kind, DQT), g[s.at + s.size .. q], kind, DQT),
                           Gather(Gather(dht, chunk, kind, DHT), g[s.at + s.size .. q], kind, DHT))
    ensures ExtractLoop(g, s.at, dqt, dht)
         == ExtractLoop(g, q, Gather(dqt, g[s.at .. q], kind, DQT), Gather(dht, g[s.at .. q], kind, DHT))
  {
    ExtractStep(g, s, dqt, dht);
    GatherPieces(dqt, g, s.at, s.at + s.size, q, kind, DQT);
    GatherPieces(dht, g, s.at, s.at + s.size, q, kind, DHT);
  }

  /** Gathering two adjacent slices gathers their union. */
  lemma GatherPieces(acc: seq<byte>, g: seq<byte>, p: nat, m: nat, q: nat, marker: byte, kind: byte)
    requires p <= m <= q <= |g|
    ensures Gather(Gather(acc, g[p..m], marker, kind), g[m..q], marker, kind) == Gather(acc, g[p..q], marker, kind)
  {
    assert g[p..m] + g[m..q] == g[p..q];
    assert (acc + g[p..m]) + g[m..q] == acc + (g[p..m] + g[m..q]);
  }

  /** The extraction loop run over a copy of well-formed tables gathers them whole. */
  lemma ExtractLoopOverTable(g: seq<byte>, p: nat, t: seq<byte>, kind: byte, dqt: seq<byte>, dht: seq<byte>)
    requires kind == DQT || kind == DHT
    requires WellFormedTables(t, kind)
    requires p + |t| + 4 < |g| && g[p .. p + |t|] == t
    ensures ExtractLoop(g, p, dqt, dht)
         == ExtractLoop(g, p + |t|, Gather(dqt, t, kind, DQT), Gather(dht, t, kind, DHT))
  {
    TablesAreRun(g, p, t, p + |t|, kind);
    ExtractLoopOverRun(g, p, p + |t|, kind, dqt, dht);
  }

  lemma GatherNothing(acc: seq<byte>, t: seq<byte>, marker: byte, kind: byte)
    requires t == []
    ensures Gather(acc, t, marker, kind) == acc
  {
    assert acc + [] == acc;
  }

  /** The bytes of `g` that copy `t` from offset `p`, split after the first `n`. */
  lemma SubSlices(g: seq<byte>, p: nat, t: seq<byte>, n: nat)
    requires p + |t| <= |g| && g[p .. p + |t|] == t && 4 <= n <= |t|
    ensures g[p] == t[0] && g[p + 1] == t[1] && g[p + 2] == t[2] && g[p + 3] == t[3]
    ensures g[p .. p + n] == t[..n]
    ensures p + n + |t[n..]| == p + |t| && g[p + n .. p + n + |t[n..]|] == t[n..]
  {
    assert g[p .. p + |t|][..n] == g[p .. p + n];
    assert g[p .. p + |t|][n..] == g[p + n .. p + |t|];
  }

  /** The extraction loop stops on the SOS marker. */
  lemma ExtractStopsAtScan(g: seq<byte>, p: nat, dqt: seq<byte>, dht: seq<byte>)
    requires ScanAt(g, p)
    ensures ExtractLoop(g, p, dqt, dht) == (dqt, dht)
  {
  }

  /** Where the four pieces of a patched frame lie in it. */
  lemma Pieces(x: seq<byte>, a: seq<byte>, b: seq<byte>, y: seq<byte>)
    ensures var g := x + a + b + y;
      && g[..|x|] == x
      && g[|x| .. |x| + |a|] == a
      && g[|x| + |a| .. |x| + |a| + |b|] == b
      && g[|x| + |a| + |b| ..] == y
  {
  }

  /** A frame with two tables inserted before its SOS marker at `q` keeps its bytes before `q`,
      holds the tables after them and still has the SOS marker after the tables. */
  lemma PatchedPieces(f: seq<byte>, q: nat, a: seq<byte>, b: seq<byte>, g: seq<byte>)
    requires ScanAt(f, q) && g == f[..q] + a + b + f[q..]
    ensures q + |a| + |b| + 4 < |g| && g[..q] == f[..q]
    ensures g[q .. q + |a|] == a && g[q + |a| .. q + |a| + |b|] == b
    ensures ScanAt(g, q + |a| + |b|)
  {
    Pieces(f[..q], a, b, f[q..]);
    assert |f[..q]| == q;
    var r := q + |a| + |b|;
    assert g[r..] == f[q..];
    assert g[r] == g[r..][0] && g[r + 1] == g[r..][1];
  }

  /** The extraction loop over a copy of well-formed quantisation tables appends them to the
      saved ones and carries on after them. */
  lemma OverQuantisation(g: seq<byte>, p: nat, t: seq<byte>, dqt: seq<byte>, dht: seq<byte>, r: (seq<byte>, seq<byte>))
    requires WellFormedTables(t, DQT)
    requires p + |t| + 4 < |g| && g[p .. p + |t|] == t
    requires ExtractLoop(g, p + |t|, dqt + t, dht) == r
    ensures ExtractLoop(g, p, dqt, dht) == r
  {
    ExtractLoopOverTable(g, p, t, DQT, dqt, dht);
    SameArguments(g, p + |t|, Gather(dqt, t, DQT, DQT), dqt + t, Gather(dht, t, DQT, DHT), dht);
    Chain(ExtractLoop(g, p, dqt, dht), ExtractLoop(g, p + |t|, Gather(dqt, t, DQT, DQT), Gather(dht, t, DQT, DHT)),
          ExtractLoop(g, p + |t|, dqt + t, dht), r);
  }

  /** The extraction loop over a copy of well-formed Huffman tables appends them to the saved
      ones and carries on after them. */
  lemma OverHuffman(g: seq<byte>, p: nat, t: seq<byte>, dqt: seq<byte>, dht: seq<byte>, r: (seq<byte>, seq<byte>))
    requires WellFormedTables(t, DHT)
    requires p + |t| + 4 < |g| && g[p .. p + |t|] == t
    requires ExtractLoop(g, p + |t|, dqt, dht + t) == r
    ensures ExtractLoop(g, p, dqt, dht) == r
  {
    ExtractLoopOverTable(g, p, t, DHT, dqt, dht);
    SameArguments(g, p + |t|, Gather(dqt, t, DHT, DQT), dqt, Gather(dht, t, DHT, DHT), dht + t);
    Chain(ExtractLoop(g, p, dqt, dht), ExtractLoop(g, p + |t|, Gather(dqt, t, DHT, DQT), Gather(dht, t, DHT, DHT)),
          ExtractLoop(g, p + |t|, dqt, dht + t), r);
  }

  /** The extraction loop over the frame's own segments of a patched frame gathers the frame's
      tables. */
  lemma OverOwnSegments(f: seq<byte>, segs: seq<Segment>, q: nat, g: seq<byte>)
    requires Tiles(f, segs, 2, q) && ScanAt(f, q)
    requires q + 4 < |g| && g[..q] == f[..q]
    ensures InFrame(f, segs)
    ensures ExtractLoop(g, 2, [], []) == ExtractLoop(g, q, Tables(f, segs, DQT), Tables(f, segs, DHT))
  {
    TilesInFrame(f, segs, 2, q);
    TilesWide(f, segs, 2, q);
    ExtractLoopOverTiles(f, g, segs, 2, q, [], []);
    assert [] + Tables(f, segs, DQT) == Tables(f, segs, DQT);
    assert [] + Tables(f, segs, DHT) == Tables(f, segs, DHT);
    SameArguments(g, q, [] + Tables(f, segs, DQT), Tables(f, segs, DQT), [] + Tables(f, segs, DHT), Tables(f, segs, DHT));
  }

  /** The extraction loop over a copy of well-formed Huffman tables just before the SOS marker
      appends them and stops. */
  lemma HuffmanBeforeScan(g: seq<byte>, p: nat, b: seq<byte>, dqt: seq<byte>, dht: seq<byte>)
    requires WellFormedTables(b, DHT)
    requires p + |b| + 4 < |g| && g[p .. p + |b|] == b
    requires ScanAt(g, p + |b|)
    ensures ExtractLoop(g, p, dqt, dht) == (dqt, dht + b)
  {
    ExtractStopsAtScan(g, p + |b|, dqt, dht + b);
    OverHuffman(g, p, b, dqt, dht, (dqt, dht + b));
  }

  /** The extraction loop over the inserted tables of a patched frame appends them and stops at
      the SOS marker after them. */
  lemma OverInserted(g: seq<byte>, q: nat, a: seq<byte>, b: seq<byte>, dqt: seq<byte>, dht: seq<byte>)
    requires WellFormedTables(a, DQT)
    requires q + |a| + 4 < |g| && g[q .. q + |a|] == a
    requires ExtractLoop(g, q + |a|, dqt + a, dht) == (dqt + a, dht + b)
    ensures ExtractLoop(g, q, dqt, dht) == (dqt + a, dht + b)
  {
    OverQuantisation(g, q, a, dqt, dht, (dqt + a, dht + b));
  }

  /** The extraction loop over a patched frame: the frame's own segments, then the inserted
      tables, then the SOS marker where it stops. */
  lemma ExtractLoopOverPatch(f: seq<byte>, segs: seq<Segment>, q: nat, a: seq<byte>, b: seq<byte>, g: seq<byte>)
    requires Tiles(f, segs, 2, q) && ScanAt(f, q)
    requires WellFormedTables(a, DQT) && WellFormedTables(b, DHT)
    requires g == f[..q] + a + b + f[q..]
    ensures InFrame(f, segs)
    ensures ExtractLoop(g, 2, [], []) == (Tables(f, segs, DQT) + a, Tables(f, segs, DHT) + b)
  {
    PatchedPieces(f, q, a, b, g);
    OverOwnSegments(f, segs, q, g);
    HuffmanBeforeScan(g, q + |a|, b, Tables(f, segs, DQT) + a, Tables(f, segs, DHT));
    OverInserted(g, q, a, b, Tables(f, segs, DQT), Tables(f, segs, DHT));
  }

  /** Saving the tables of a patched frame gives back the frame's own tables of each kind, or the
      inserted ones where the frame had none: the proxy's patch makes a motion frame decodable with
      exactly the tables a key frame supplied. A frame whose walk does not reach its scan is
      neither patched nor changed. */
  lemma ExtractAfterPatch(f: seq<byte>, dqt: seq<byte>, dht: seq<byte>)
    requires 2 <= |f|
    requires WellFormedTables(dqt, DQT) && WellFormedTables(dht, DHT)
    ensures Walk(f, 2).1.AtScan? ==>
      ExtractDqtDht(PatchDqtDht(f, dqt, dht))
      == (if ExtractDqtDht(f).0 == [] then dqt else ExtractDqtDht(f).0,
          if ExtractDqtDht(f).1 == [] then dht else ExtractDqtDht(f).1)
    ensures Walk(f, 2).1.Halted? ==> ExtractDqtDht(PatchDqtDht(f, dqt, dht)) == ExtractDqtDht(f)
  {
    if Walk(f, 2).1.AtScan? {
      ExtractAfterPatchAtScan(f, dqt, dht);
    } else {
      assert PatchDqtDht(f, dqt, dht) == f;
    }
  }

  /** ExtractAfterPatch for a frame whose walk reaches the scan. */
  lemma ExtractAfterPatchAtScan(f: seq<byte>, dqt: seq<byte>, dht: seq<byte>)
    requires 2 <= |f| && Walk(f, 2).1.AtScan?
    requires WellFormedTables(dqt, DQT) && WellFormedTables(dht, DHT)
    ensures ExtractDqtDht(PatchDqtDht(f, dqt, dht))
         == (if ExtractDqtDht(f).0 == [] then dqt else ExtractDqtDht(f).0,
             if ExtractDqtDht(f).1 == [] then dht else ExtractDqtDht(f).1)
  {
    WalkInFrame(f, 2);
    WalkTiles(f, 2);
    var td := Tables(f, Walk(f, 2).0, DQT);
    var th := Tables(f, Walk(f, 2).0, DHT);
    PatchedAtScan(f, dqt, dht);
    ExtractLoopOverPatch(f, Walk(f, 2).0, Walk(f, 2).1.at, Inserted(td, dqt), Inserted(th, dht), PatchDqtDht(f, dqt, dht));
    OwnOrInserted(td, dqt);
    OwnOrInserted(th, dht);
    assert ExtractDqtDht(PatchDqtDht(f, dqt, dht)) == ExtractLoop(PatchDqtDht(f, dqt, dht), 2, [], []);
  }

  /** The patched frame of a frame whose walk reaches the scan, spelt out. */
  lemma PatchedAtScan(f: seq<byte>, dqt: seq<byte>, dht: seq<byte>)
    requires 2 <= |f| && Walk(f, 2).1.AtScan?
    ensures InFrame(f, Walk(f, 2).0)
    ensures PatchDqtDht(f, dqt, dht)
         == f[..Walk(f, 2).1.at] + Inserted(Tables(f, Walk(f, 2).0, DQT), dqt)
            + Inserted(Tables(f, Walk(f, 2).0, DHT), dht) + f[Walk(f, 2).1.at..]
  {
    WalkInFrame(f, 2);
    assert PatchDqtDht(f, dqt, dht) == Patched(f, dqt, dht);
  }

  /** A frame's own tables followed by what the patch inserts: the own tables, or the saved ones
      when there are none. */
  lemma OwnOrInserted(own: seq<byte>, saved: seq<byte>)
    ensures own + Inserted(own, saved) == if own == [] then saved else own
  {
    if own == [] {
      assert [] + saved == saved;
    } else {
      assert own + [] == own;
    }
  }

  /** A motion frame without tables of its own, patched with well-formed saved tables, yields
      exactly those tables when its tables are saved again. */
  lemma PatchSuppliesMissingTables(f: seq<byte>, dqt: seq<byte>, dht: seq<byte>)
    requires 2 <= |f| && Walk(f, 2).1.AtScan?
    requires ExtractDqtDht(f) == ([], [])
    requires WellFormedTables(dqt, DQT) && WellFormedTables(dht, DHT)
    ensures ExtractDqtDht(PatchDqtDht(f, dqt, dht)) == (dqt, dht)
  {
    ExtractAfterPatch(f, dqt, dht);
  }
}

=== FILE: json_value.dfy ===
/** The tolerant accessors over decoded JSON events (mobell/json_value.go).

    Go's json.Unmarshal yields nil, bool, float64, string, []interface{} or
    map[string]interface{}; `jsonValue` wraps one of them, and every accessor answers with a
    default (nil, 0, "", false) when the value is nil or of another kind, so a chain of lookups
    into a malformed event never fails. */
module JsonValue {
  import opened Bytes

  /** A decoded JSON value. Numbers are integers here: the proxy only reads ids and device
      numbers, which are integral. */
  datatype Json =
    | Null
    | Bool(b: bool)
    | Num(n: int)
    | Str(s: string)
    | Arr(items: seq<Json>)
    | Obj(fields: map<string, Json>)

  /** isNil: only the absent value is nil, and every accessor then answers its default. */
  predicate IsNil(v: Json): (r: bool)
    ensures r <==> v == Null
    ensures r ==> AsMap(v).None? && AsArr(v).None? && AsInt(v) == 0 && AsString(v) == ""
  {
    v.Null?
  }

  /** asMap: the object's fields, or nil (None) for anything else. */
  function AsMap(v: Json): (r: Option<map<string, Json>>)
    ensures r.Some? <==> v.Obj?
    ensures r.Some? ==> Obj(r.value) == v
  {
    match v
    case Obj(m) => Some(m)
    case _ => None
  }

  /** asArr: the array's items, or nil (None) for anything else. */
  function AsArr(v: Json): (r: Option<seq<Json>>)
    ensures r.Some? <==> v.Arr?
    ensures r.Some? ==> Arr(r.value) == v
  {
    match v
    case Arr(a) => Some(a)
    case _ => None
  }

  /** asInt: the number, or 0 for anything else. */
  function AsInt(v: Json): (r: int)
    ensures v.Num? ==> Num(r) == v
    ensures !v.Num? ==> r == 0
  {
    match v
    case Num(n) => n
    case _ => 0
  }

  /** asString: the string, or "" for anything else. */
  function AsString(v: Json): (r: string)
    ensures v.Str? ==> Str(r) == v
    ensures !v.Str? ==> r == ""
  {
    match v
    case Str(s) => s
    case _ => ""
  }

  /** asBool: a boolean is itself; any other non-nil value is true when its string form is
      "true", which only the string "true" has. */
  function AsBool(v: Json): (r: bool)
    ensures r <==> v == Bool(true) || v == Str("true")
  {
    match v
    case Null => false
    case Bool(b) => b
    case _ => "true" == AsString(v)
  }

  /** mapGet: the field under `key`, or nil when the value is not an object or has no such
      field (a field holding null reads the same as a missing one). */
  function MapGet(v: Json, key: string): (r: Json)
    ensures !v.Obj? ==> r == Null
    ensures v.Obj? && key !in v.fields ==> r == Null
    ensures v.Obj? && key in v.fields ==> r == v.fields[key]
  {
    match AsMap(v)
    case None => Null
    case Some(m) => if key in m then m[key] else Null
  }

  /** arrGet: the item at `pos`, or nil when the value is not an array or `pos` is out of range. */
  function ArrGet(v: Json, pos: int): (r: Json)
    ensures !v.Arr? || pos < 0 || pos >= |v.items| ==> r == Null
    ensures v.Arr? && 0 <= pos < |v.items| ==> r == v.items[pos]
  {
    match AsArr(v)
    case None => Null
    case Some(a) => if pos < 0 || pos >= |a| then Null else a[pos]
  }

  // ---------------------------------------------------------------------------------------
  // Properties

  /** On nil every accessor gives its default, and every lookup gives nil again. */
  lemma NilDefaults(v: Json, key: string, pos: int)
    requires IsNil(v)
    ensures AsMap(v) == None && AsArr(v) == None
    ensures AsInt(v) == 0 && AsString(v) == "" && !AsBool(v)
    ensures MapGet(v, key) == Null && ArrGet(v, pos) == Null
  {
  }

  /** isNil holds exactly for the nil value, and the typed accessors give back what a value of
      their kind holds. */
  lemma AccessorsRecover(b: bool, n: int, s: string, a: seq<Json>, m: map<string, Json>)
    ensures IsNil(Null) && !IsNil(Bool(b)) && !IsNil(Num(n)) && !IsNil(Str(s)) && !IsNil(Arr(a)) && !IsNil(Obj(m))
    ensures AsBool(Bool(b)) == b && AsInt(Num(n)) == n && AsString(Str(s)) == s
    ensures AsArr(Arr(a)) == Some(a) && AsMap(Obj(m)) == Some(m)
  {
  }

  /** An accessor applied to a value of another kind gives its default. */
  lemma WrongKindDefaults(v: Json)
    ensures !v.Obj? ==> AsMap(v) == None
    ensures !v.Arr? ==> AsArr(v) == None
    ensures !v.Num? ==> AsInt(v) == 0
    ensures !v.Str? ==> AsString(v) == ""
  {
  }

  /** One step of a lookup chain: a field name or an array index. */
  datatype Step = Key(key: string) | Index(pos: int)

  /** A chain of mapGet / arrGet calls, as in `e.mapGet("result").arrGet(0).arrGet(0)`. */
  function Follow(v: Json, path: seq<Step>): Json
    decreases |path|
  {
    if path == [] then v
    else
      var w := match path[0] case Key(k) => MapGet(v, k) case Index(i) => ArrGet(v, i);
      Follow(w, path[1..])
  }

  /** Any chain of lookups from nil yields nil. */
  lemma {:induction false} FollowNil(path: seq<Step>)
    ensures Follow(Null, path) == Null
    decreases |path|
  {
    if path != [] {
      FollowNil(path[1..]);
    }
  }

  /** A chain that reaches nil part way stays nil to the end. */
  lemma {:induction false} FollowSplit(v: Json, p: seq<Step>, q: seq<Step>)
    ensures Follow(v, p + q) == Follow(Follow(v, p), q)
    decreases |p|
  {
    if p != [] {
      var w := match p[0] case Key(k) => MapGet(v, k) case Index(i) => ArrGet(v, i);
      assert (p + q)[0] == p[0] && (p + q)[1..] == p[1..] + q;
      FollowSplit(w, p[1..], q);
    } else {
      assert p + q == q;
    }
  }

  /** Once a lookup chain meets nil, whatever follows gives nil. */
  lemma NilAbsorbs(v: Json, p: seq<Step>, q: seq<Step>)
    requires Follow(v, p) == Null
    ensures Follow(v, p + q) == Null
  {
    FollowSplit(v, p, q);
    FollowNil(q);
  }
}

=== FILE: modular.dfy ===
/** Reduction of an integer modulo a positive size, as the ring buffer's index arithmetic and
    the stream cursor use it, and the laws of that reduction. `Mod` is defined by repeated
    addition or subtraction of the size, and is shown equal to the remainder of Euclidean
    division (`%`); the laws are first proved about `%` and then carried over. */
module Modular {

  /** `x` reduced into [0, n) by adding or subtracting `n`. */
  function Mod(x: int, n: int): (m: nat)
    requires n > 0
    ensures m < n
    decreases if x < 0 then 1 else 0, if x < 0 then -x else x
  {
    if x < 0 then Mod(x + n, n)
    else if x < n then x
    else Mod(x - n, n)
  }

  /** The reduction is the remainder of Euclidean division. */
  lemma {:induction false} ModIsRemainder(x: int, n: int)
    requires n > 0
    ensures Mod(x, n) == x % n
    decreases if x < 0 then 1 else 0, if x < 0 then -x else x
  {
    if x < 0 {
      ModIsRemainder(x + n, n);
      ModMultiple(x, 1, n);
    } else if x < n {
      ModIs(x, n, 0, x);
    } else {
      ModIsRemainder(x - n, n);
      ModMultiple(x - n, 1, n);
    }
  }

  // ---------------------------------------------------------------------------------------
  // Laws of the remainder

  /** The remainder is determined by any quotient that leaves it in range. */
  lemma ModIs(x: int, n: int, k: int, y: int)
    requires n > 0 && 0 <= y < n && x == n * k + y
    ensures x % n == y
  {
    var q := x / n;
    assert x == n * q + x % n;
    assert n * (k - q) == x % n - y;
    if k > q {
      MulAtLeast(n, k - q);
    } else if k < q {
      MulAtLeast(n, q - k);
    }
  }

  lemma MulAtLeast(n: int, k: int)
    requires n > 0 && k >= 1
    ensures n * k >= n
  {
  }

  /** Adding a multiple of `n` does not change the remainder. */
  lemma ModMultiple(x: int, k: int, n: int)
    requires n > 0
    ensures (x + n * k) % n == x % n
  {
    var q := x / n;
    assert x == n * q + x % n;
    assert x + n * k == n * (q + k) + x % n;
    ModIs(x + n * k, n, q + k, x % n);
  }

  /** A remainder can stand for its operand inside a sum taken modulo `n`. */
  lemma ModAdd(x: int, d: int, n: int)
    requires n > 0
    ensures (x % n + d) % n == (x + d) % n
  {
    var q := x / n;
    assert x == n * q + x % n;
    ModMultiple(x % n + d, q, n);
    assert x % n + d + n * q == x + d;
  }

  /** The distance from `b` to `a + 1` is one more than the distance to `a`, unless that
      reaches `n`. */
  lemma ModSucc(a: int, b: int, n: int)
    requires n > 0
    ensures (a - b) % n + 1 < n ==> (a + 1 - b) % n == (a - b) % n + 1
    ensures (a - b) % n + 1 == n ==> (a + 1 - b) % n == 0
  {
    ModAdd(a - b, 1, n);
    if (a - b) % n + 1 < n {
      ModIs((a - b) % n + 1, n, 0, (a - b) % n + 1);
    } else {
      ModIs((a - b) % n + 1, n, 1, 0);
    }
  }

  /** Going from `b` the distance to `a` lands back on `a`. */
  lemma ModBack(a: int, b: int, n: int)
    requires n > 0 && 0 <= a < n
    ensures (b + (a - b) % n) % n == a
  {
    ModAdd(a - b, b, n);
    ModIs(a, n, 0, a);
  }

  /** Distances compose: from `b` to `a` less from `b` to `c` is from `c` to `a`, when the
      first is the longer. */
  lemma ModDiff(a: int, b: int, c: int, n: int)
    requires n > 0 && (c - b) % n <= (a - b) % n
    ensures (a - c) % n == (a - b) % n - (c - b) % n
  {
    var k1 := (a - b) / n;
    var k2 := (c - b) / n;
    assert a - b == n * k1 + (a - b) % n;
    assert c - b == n * k2 + (c - b) % n;
    assert a - c == n * (k1 - k2) + ((a - b) % n - (c - b) % n);
    ModIs(a - c, n, k1 - k2, (a - b) % n - (c - b) % n);
  }

  // ---------------------------------------------------------------------------------------
  // Laws of the reduction

  lemma MSmall(x: int, n: int)
    requires n > 0 && 0 <= x < n
    ensures Mod(x, n) == x
  {
    ModIsRemainder(x, n);
    ModIs(x, n, 0, x);
  }

  lemma MAbove(x: int, n: int)
    requires n > 0 && n <= x < 2 * n
    ensures Mod(x, n) == x - n
  {
    ModIsRemainder(x, n);
    ModIs(x, n, 1, x - n);
  }

  lemma MBelow(x: int, n: int)
    requires n > 0 && -n <= x < 0
    ensures Mod(x, n) == x + n
  {
    ModIsRemainder(x, n);
    ModIs(x, n, -1, x + n);
  }

  lemma MSucc(a: int, b: int, n: int)
    requires n > 0
    ensures Mod(a - b, n) + 1 < n ==> Mod(a + 1 - b, n) == Mod(a - b, n) + 1
    ensures Mod(a - b, n) + 1 == n ==> Mod(a + 1 - b, n) == 0
  {
    ModIsRemainder(a - b, n);
    ModIsRemainder(a + 1 - b, n);
    ModSucc(a, b, n);
  }

  lemma MBack(a: int, b: int, n: int)
    requires n > 0 && 0 <= a < n
    ensures Mod(b + Mod(a - b, n), n) == a
  {
    ModIsRemainder(a - b, n);
    ModIsRemainder(b + Mod(a - b, n), n);
    ModBack(a, b, n);
  }

  lemma MDiff(a: int, b: int, c: int, n: int)
    requires n > 0 && Mod(c - b, n) <= Mod(a - b, n)
    ensures Mod(a - c, n) == Mod(a - b, n) - Mod(c - b, n)
  {
    ModIsRemainder(a - b, n);
    ModIsRemainder(c - b, n);
    ModIsRemainder(a - c, n);
    ModDiff(a, b, c, n);
  }

  /** Reducing a summand first does not change the reduced sum. */
  lemma MAdd(x: int, d: int, n: int)
    requires n > 0
    ensures Mod(Mod(x, n) + d, n) == Mod(x + d, n)
  {
    ModIsRemainder(x, n);
    ModIsRemainder(Mod(x, n) + d, n);
    ModIsRemainder(x + d, n);
    ModAdd(x, d, n);
  }

  lemma MMove(p: int, s: int, b: int, n: int)
    requires n > 0
    ensures Mod(Mod(p + s, n) - b, n) == Mod(Mod(p - b, n) + s, n)
  {
    MAdd(p + s, -b, n);
    MAdd(p - b, s, n);
    assert p + s + -b == p - b + s;
  }

  lemma MShift(b: int, c: int, i: int, n: int)
    requires n > 0
    ensures Mod(b + (Mod(c - b, n) + i), n) == Mod(c + i, n)
  {
    MAdd(c - b, b + i, n);
    assert Mod(c - b, n) + (b + i) == b + (Mod(c - b, n) + i);
  }

  /** Reducing a subtrahend first does not change the reduced difference. */
  lemma MSub(a: int, b: int, n: int)
    requires n > 0
    ensures Mod(a - Mod(b, n), n) == Mod(a - b, n)
  {
    ModIsRemainder(b, n);
    ModIsRemainder(a - Mod(b, n), n);
    ModIsRemainder(a - b, n);
    ModSub(a, b, n);
  }

  lemma MCut(pos: int, start: int, q: int, n: int)
    requires n > 0
    ensures Mod(pos - q, n) == Mod(Mod(pos - start, n) - Mod(q - start, n), n)
  {
    var m: int := Mod(q - start, n);
    MAdd(pos - start, -m, n);
    MSub(pos - start, q - start, n);
    assert (pos - start) - (q - start) == pos - q;
  }

  lemma MRange(from: int, to: int, n: int)
    requires n > 0
    ensures Mod(Mod(to - 1, n) + 1 - Mod(from, n), n) == Mod(to - from, n)
  {
    MAdd(to - 1, 1 - Mod(from, n), n);
    MSub(to, from, n);
    assert to - 1 + (1 - Mod(from, n)) == to - Mod(from, n);
  }

  /** A remainder can stand for the subtrahend of a difference taken modulo `n`. */
  lemma ModSub(a: int, b: int, n: int)
    requires n > 0
    ensures (a - b % n) % n == (a - b) % n
  {
    var k := b / n;
    assert b == n * k + b % n;
    ModMultiple(a - b, k, n);
    assert a - b + n * k == a - b % n;
  }
}

=== FILE: packet_format.dfy ===
/** The layout of the packets the camera sends, as the MxPEG reader (module PacketReader)
    expects it, and the round trips: whatever bytes without 0xFF come first, a well-formed packet
    is read back whole, and the stream after it is left for the next packet. */
module PacketFormat {
  import opened Bytes
  import opened StreamCursor
  import opened PacketReader

  /** One marker segment of a video frame: the marker, the bytes the length field covers after
      itself, and (for SOS only) the entropy-coded data after the segment. */
  datatype FrameSegment = FrameSegment(marker: byte, body: seq<byte>, scan: seq<byte>)

  predicate WellFormedSegment(s: FrameSegment) {
    && VideoMarker(s.marker)
    && |s.body| + 2 < 0x1_0000
    && (s.marker == SOS ==> Stuffed(s.scan))
    && (s.marker != SOS ==> s.scan == [])
  }

  predicate WellFormedSegments(segs: seq<FrameSegment>) {
    forall i :: 0 <= i < |segs| ==> WellFormedSegment(segs[i])
  }

  /** The two bytes of a big-endian 16-bit length field. */
  function Length16(n: nat): (r: seq<byte>)
    ensures |r| == 2
  {
    [Split16(n).0, Split16(n).1]
  }

  function EncodeSegment(s: FrameSegment): seq<byte> {
    [0xFF, s.marker] + Length16(|s.body| + 2) + s.body + s.scan
  }

  function EncodeSegments(segs: seq<FrameSegment>): seq<byte> {
    if segs == [] then [] else EncodeSegment(segs[0]) + EncodeSegments(segs[1..])
  }

  /** A video frame: SOI, the segments, EOI. */
  function EncodeFrame(segs: seq<FrameSegment>): seq<byte> {
    [0xFF, SOI] + EncodeSegments(segs) + [0xFF, EOI]
  }

  /** Whether the frame holds an SOF0 segment: the frame-start flag readVideo reports. */
  predicate HasSOF0(segs: seq<FrameSegment>) {
    segs != [] && (segs[0].marker == SOF0 || HasSOF0(segs[1..]))
  }

  /** The frame-start flag is set exactly when some segment is SOF0. */
  lemma {:induction false} HasSOF0Exactly(segs: seq<FrameSegment>)
    ensures HasSOF0(segs) <==> exists i :: 0 <= i < |segs| && segs[i].marker == SOF0
  {
    if segs != [] {
      HasSOF0Exactly(segs[1..]);
      if !HasSOF0(segs) {
        forall i | 0 <= i < |segs|
          ensures segs[i].marker != SOF0
        {
          if i > 0 {
            assert segs[1..][i - 1] == segs[i];
          }
        }
      } else if segs[0].marker != SOF0 {
        var j :| 0 <= j < |segs[1..]| && segs[1..][j].marker == SOF0;
        assert segs[j + 1].marker == SOF0;
      }
    }
  }

  /** A PCM audio segment: APP11, the length field, 'M', 'X', the type byte and the samples. */
  function EncodeAudio(t: byte, samples: seq<byte>): seq<byte> {
    [0xFF, APP11] + Length16(|samples| + 5) + [ASCII_M, ASCII_X, t] + samples
  }

  /** An event segment: APP12, the length field and the payload. */
  function EncodeEvent(payload: seq<byte>): seq<byte> {
    [0xFF, APP12] + Length16(|payload| + 2) + payload
  }

  /** Bytes without 0xFF, which the reader skips before a packet. */
  predicate Garbage(g: seq<byte>) {
    forall i :: 0 <= i < |g| ==> g[i] != 0xFF
  }

  // ---------------------------------------------------------------------------------------
  // Round trips

  /** A video frame of well-formed segments is read back whole, with the frame-start flag set
      exactly when it holds an SOF0 segment, and the cut moves past it. */
  lemma ReadPacketVideo(g: seq<byte>, segs: seq<FrameSegment>, rest: seq<byte>, cap: nat)
    requires Garbage(g) && WellFormedSegments(segs)
    requires |g| + 1 < cap && |EncodeFrame(segs)| < cap
    ensures ReadPacket(Cursor(g + EncodeFrame(segs) + rest, 0, cap))
            == Ok((Video(EncodeFrame(segs), HasSOF0(segs)), Cursor(rest, 0, cap)))
  {
    FrameLayout(segs, rest);
    SkipGarbage(g, EncodeFrame(segs), rest, cap);
    ReadFrame(segs, rest, cap);
  }

  /** A frame from SOI on is read back whole. */
  lemma ReadFrame(segs: seq<FrameSegment>, rest: seq<byte>, cap: nat)
    requires WellFormedSegments(segs) && |EncodeFrame(segs)| < cap
    ensures ReadMarked(Cursor(EncodeFrame(segs) + rest, 1, cap))
            == Ok((Video(EncodeFrame(segs), HasSOF0(segs)), Cursor(rest, 0, cap)))
  {
    var f := EncodeFrame(segs);
    FrameLayout(segs, rest);
    FrameLoop(segs, rest, cap);
    ReadMarkedVideoAt(f + rest, cap, HasSOF0(segs), |f|);
  }

  /** The segment loop of a frame ends right after it. */
  lemma FrameLoop(segs: seq<FrameSegment>, rest: seq<byte>, cap: nat)
    requires WellFormedSegments(segs) && |EncodeFrame(segs)| < cap
    ensures VideoLoop(Cursor(EncodeFrame(segs) + rest, 2, cap))
            == Ok((HasSOF0(segs), Cursor(EncodeFrame(segs) + rest, |EncodeFrame(segs)|, cap)))
  {
    var d := EncodeFrame(segs) + rest;
    FrameLayout(segs, rest);
    assert BytesAt(d, 2, EncodeSegments(segs) + [0xFF, EOI]);
    EncodedSegmentsAt(d, 2, segs);
    SegsLenEncoded(segs);
    var ps := SegmentsSkipped(d, 2, cap, segs);
    LoopOverRounds(d, ps, cap, segs, 2, |EncodeFrame(segs)|);
  }

  /** A PCM audio segment is handed on whole when its type byte is 'A' and dropped otherwise;
      either way the cut moves past it. */
  lemma ReadPacketAudio(g: seq<byte>, t: byte, samples: seq<byte>, rest: seq<byte>, cap: nat)
    requires Garbage(g) && |samples| + 5 < 0x1_0000
    requires |g| + 1 < cap && |EncodeAudio(t, samples)| < cap
    ensures ReadPacket(Cursor(g + EncodeAudio(t, samples) + rest, 0, cap))
            == Ok((if t == ASCII_A then Audio(EncodeAudio(t, samples)) else Discarded, Cursor(rest, 0, cap)))
  {
    var a := EncodeAudio(t, samples);
    AudioLayout(t, samples, rest);
    ReadMarkedAudioAt(a + rest, cap, t, |samples|);
    SkipGarbage(g, a, rest, cap);
  }

  /** An event segment is read back as its payload, less one trailing NUL, and the cut moves
      past it. */
  lemma ReadPacketEvent(g: seq<byte>, payload: seq<byte>, rest: seq<byte>, cap: nat)
    requires Garbage(g) && |payload| + 2 < 0x1_0000
    requires |g| + 1 < cap && |EncodeEvent(payload)| < cap
    ensures ReadPacket(Cursor(g + EncodeEvent(payload) + rest, 0, cap))
            == Ok((Event(TrimNul(payload)), Cursor(rest, 0, cap)))
  {
    var e := EncodeEvent(payload);
    EventLayout(payload, rest);
    ReadMarkedEventAt(e + rest, cap, |payload|);
    SkipGarbage(g, e, rest, cap);
  }

  // ---------------------------------------------------------------------------------------
  // Reading from positions

  /** The garbage is skipped and the packet is read from the stream that starts at its 0xFF. */
  lemma SkipGarbage(g: seq<byte>, a: seq<byte>, rest: seq<byte>, cap: nat)
    requires Garbage(g) && 2 <= |a| && a[0] == 0xFF && |g| + 1 < cap
    ensures ReadPacket(Cursor(g + a + rest, 0, cap)) == ReadMarked(Cursor(a + rest, 1, cap))
  {
    var d := g + a + rest;
    assert d[|g|] == 0xFF;
    assert d[|g|..] == a + rest;
    ReadPacketSkipsTo(Cursor(d, 0, cap), |g|);
  }

  /** SOI, then a segment loop that ends at `p`: the frame is the first `p` bytes. */
  lemma ReadMarkedVideoAt(d: seq<byte>, cap: nat, flag: bool, p: nat)
    requires 2 < |d| && 2 < cap && d[1] == SOI && p <= |d|
    requires VideoLoop(Cursor(d, 2, cap)) == Ok((flag, Cursor(d, p, cap)))
    ensures ReadMarked(Cursor(d, 1, cap)) == Ok((Video(d[..p], flag), Cursor(d[p..], 0, cap)))
  {
  }

  /** APP11, the length field, 'M', 'X', the type byte `t` and `n` more bytes. */
  lemma ReadMarkedAudioAt(d: seq<byte>, cap: nat, t: byte, n: nat)
    requires 7 + n <= |d| && 7 + n < cap
    requires d[1] == APP11 && d[4] == ASCII_M && d[5] == ASCII_X && d[6] == t && LengthAt(d, 2) == n + 5
    ensures ReadMarked(Cursor(d, 1, cap))
            == Ok((if t == ASCII_A then Audio(d[..7 + n]) else Discarded, Cursor(d[7 + n..], 0, cap)))
  {
    assert AudioHeader(Cursor(d, 2, cap)) == Ok((n + 5, t, Cursor(d, 7, cap)));
  }

  /** APP12, the length field and `n` bytes of payload. */
  lemma ReadMarkedEventAt(d: seq<byte>, cap: nat, n: nat)
    requires 4 + n <= |d| && 4 + n < cap && d[1] == APP12 && LengthAt(d, 2) == n + 2
    ensures ReadMarked(Cursor(d, 1, cap)) == Ok((Event(TrimNul(d[4 .. 4 + n])), Cursor(d[4 + n..], 0, cap)))
  {
    assert d[4..][..n] == d[4 .. 4 + n] && d[4..][n..] == d[4 + n..];
  }

  /** The number of bytes an encoded segment takes. */
  function SegLen(s: FrameSegment): nat {
    4 + |s.body| + |s.scan|
  }

  function SegsLen(segs: seq<FrameSegment>): nat {
    if segs == [] then 0 else SegLen(segs[0]) + SegsLen(segs[1..])
  }

  /** The segment `s` at `p` in `d`: 0xFF, its marker, its length field, and stuffed data
      after its body. */
  predicate FrameSegmentAt(d: seq<byte>, p: nat, s: FrameSegment) {
    && p + SegLen(s) <= |d|
    && d[p] == 0xFF && d[p + 1] == s.marker
    && LengthAt(d, p + 2) == |s.body| + 2
    && Stuffed(d[p + 4 + |s.body| .. p + SegLen(s)])
  }

  /** The segments at `p` in `d`, followed by 0xFF EOI. */
  predicate SegmentsAt(d: seq<byte>, p: nat, segs: seq<FrameSegment>)
    decreases |segs|
  {
    if segs == [] then p + 2 <= |d| && d[p] == 0xFF && d[p + 1] == EOI
    else FrameSegmentAt(d, p, segs[0]) && SegmentsAt(d, p + SegLen(segs[0]), segs[1..])
  }

  /** The loop over rounds from `p` ends at `q`, two bytes past the last segment. */
  lemma LoopOverRounds(d: seq<byte>, ps: seq<nat>, cap: nat, segs: seq<FrameSegment>, p: nat, q: nat)
    requires RoundsAt(d, ps, cap, segs) && ps[0] == p && ps[|segs|] + 2 == q && p < cap
    ensures VideoLoop(Cursor(d, p, cap)) == Ok((HasSOF0(segs), Cursor(d, q, cap)))
  {
    LoopFrom(d, ps, cap, segs, 0);
    assert segs[0..] == segs;
    LoopResult(d, p, cap, q, HasSOF0(segs));
  }

  /** A loop result given by its parts. */
  lemma LoopResult(d: seq<byte>, p: nat, cap: nat, q: nat, flag: bool)
    requires LoopsTo(d, p, cap, q, flag)
    ensures VideoLoop(Cursor(d, p, cap)) == Ok((flag, Cursor(d, q, cap)))
  {
  }

  /** One round of the segment loop: 0xFF and the video marker `m` at `p`, and a skip over
      the segment to `p2`. */
  predicate RoundAt(d: seq<byte>, p: nat, p2: nat, cap: nat, m: byte) {
    && p + 1 < |d| && p + 2 < cap && d[p] == 0xFF && d[p + 1] == m && m != EOI && VideoMarker(m)
    && SkipSegment(Cursor(d, p + 2, cap), m) == Ok(Cursor(d, p2, cap))
  }

  /** Segment `i`, if there is one, is the round from `ps[i]` to `ps[i + 1]`. */
  predicate RoundNo(d: seq<byte>, ps: seq<nat>, cap: nat, segs: seq<FrameSegment>, i: int) {
    0 <= i < |segs| && i + 1 < |ps| ==> RoundAt(d, ps[i], ps[i + 1], cap, segs[i].marker)
  }

  /** The segments as the segment loop sees them: segment `i` is the round from `ps[i]` to
      `ps[i + 1]`, and 0xFF EOI follows the last. */
  ghost predicate RoundsAt(d: seq<byte>, ps: seq<nat>, cap: nat, segs: seq<FrameSegment>) {
    && |ps| == |segs| + 1
    && (forall i :: RoundNo(d, ps, cap, segs, i))
    && ps[|segs|] + 1 < |d| && ps[|segs|] + 2 < cap && d[ps[|segs|]] == 0xFF && d[ps[|segs|] + 1] == EOI
  }

  /** Each well-formed segment laid out at `p` is one round of the loop. */
  lemma {:induction false} SegmentsSkipped(d: seq<byte>, p: nat, cap: nat, segs: seq<FrameSegment>)
    returns (ps: seq<nat>)
    requires WellFormedSegments(segs) && SegmentsAt(d, p, segs) && p + SegsLen(segs) + 2 < cap
    ensures RoundsAt(d, ps, cap, segs) && ps[0] == p && ps[|segs|] == p + SegsLen(segs)
    decreases |segs|
  {
    if segs == [] {
      ps := [p];
    } else {
      SegmentsTail(d, p, segs);
      var qs := SegmentsSkipped(d, p + SegLen(segs[0]), cap, segs[1..]);
      FirstRound(d, p, cap, segs);
      RoundsCons(d, p, qs, cap, segs);
      ps := [p] + qs;
      assert ps[|segs|] == qs[|segs| - 1];
    }
  }

  /** The first of the segments at `p` is a round of the loop. */
  lemma FirstRound(d: seq<byte>, p: nat, cap: nat, segs: seq<FrameSegment>)
    requires WellFormedSegments(segs) && segs != [] && SegmentsAt(d, p, segs) && p + SegsLen(segs) + 2 < cap
    ensures RoundAt(d, p, p + SegLen(segs[0]), cap, segs[0].marker)
  {
    SegmentsTail(d, p, segs);
    MarkerFollows(d, p + SegLen(segs[0]), segs[1..]);
    SegmentSkipped(d, p, cap, segs[0]);
  }

  /** A first round in front of the rounds `qs`. */
  lemma RoundsCons(d: seq<byte>, p: nat, qs: seq<nat>, cap: nat, segs: seq<FrameSegment>)
    requires segs != [] && RoundsAt(d, qs, cap, segs[1..])
    requires RoundAt(d, p, qs[0], cap, segs[0].marker)
    ensures RoundsAt(d, [p] + qs, cap, segs)
  {
    var ps := [p] + qs;
    forall i
      ensures RoundNo(d, ps, cap, segs, i)
    {
      if 0 < i < |segs| {
        assert RoundNo(d, qs, cap, segs[1..], i - 1);
        assert ps[i] == qs[i - 1] && ps[i + 1] == qs[i] && segs[i] == segs[1..][i - 1];
      }
    }
  }

  /** The loop, started at round `k`, runs the remaining rounds and stops after EOI. */
  lemma {:induction false} LoopFrom(d: seq<byte>, ps: seq<nat>, cap: nat, segs: seq<FrameSegment>, k: nat)
    requires RoundsAt(d, ps, cap, segs) && k <= |segs| && ps[k] < cap
    ensures LoopsTo(d, ps[k], cap, ps[|segs|] + 2, HasSOF0(segs[k..]))
    decreases |segs| - k
  {
    if k == |segs| {
      LoopEnd(d, ps, cap, segs);
    } else {
      NextRound(d, ps, cap, segs, k);
      LoopFrom(d, ps, cap, segs, k + 1);
      LoopFromStep(d, ps, cap, segs, k);
    }
  }

  /** The segment loop started at `p` succeeds, ends at `q` and reports `flag`. */
  predicate LoopsTo(d: seq<byte>, p: nat, cap: nat, q: nat, flag: bool) {
    && p < cap
    && VideoLoop(Cursor(d, p, cap)).Ok?
    && VideoLoop(Cursor(d, p, cap)).value.1 == Cursor(d, q, cap)
    && (VideoLoop(Cursor(d, p, cap)).value.0 <==> flag)
  }

  /** After the last round the loop meets EOI and stops. */
  lemma LoopEnd(d: seq<byte>, ps: seq<nat>, cap: nat, segs: seq<FrameSegment>)
    requires RoundsAt(d, ps, cap, segs)
    ensures LoopsTo(d, ps[|segs|], cap, ps[|segs|] + 2, HasSOF0(segs[|segs|..]))
  {
    NextMarkerAt(d, ps[|segs|], cap);
    assert segs[|segs|..] == [];
  }

  /** Each round ends inside the buffer. */
  lemma NextRound(d: seq<byte>, ps: seq<nat>, cap: nat, segs: seq<FrameSegment>, k: nat)
    requires RoundsAt(d, ps, cap, segs) && k < |segs|
    ensures ps[k + 1] < cap
  {
    assert RoundNo(d, ps, cap, segs, k);
    if k + 1 < |segs| {
      assert RoundNo(d, ps, cap, segs, k + 1);
    }
  }

  /** Round `k` in front of the loop from round `k + 1`. */
  lemma LoopFromStep(d: seq<byte>, ps: seq<nat>, cap: nat, segs: seq<FrameSegment>, k: nat)
    requires RoundsAt(d, ps, cap, segs) && k < |segs|
    requires LoopsTo(d, ps[k + 1], cap, ps[|segs|] + 2, HasSOF0(segs[k + 1..]))
    ensures LoopsTo(d, ps[k], cap, ps[|segs|] + 2, HasSOF0(segs[k..]))
  {
    assert RoundNo(d, ps, cap, segs, k);
    HasSOF0From(segs, k);
    RoundThenLoop(d, ps[k], ps[k + 1], cap, segs[k].marker, ps[|segs|] + 2, HasSOF0(segs[k + 1..]), HasSOF0(segs[k..]));
  }

  lemma HasSOF0From(segs: seq<FrameSegment>, k: nat)
    requires k < |segs|
    ensures HasSOF0(segs[k..]) <==> segs[k].marker == SOF0 || HasSOF0(segs[k + 1..])
  {
    assert segs[k..][0] == segs[k] && segs[k..][1..] == segs[k + 1..];
  }

  /** One round of the segment loop in front of a loop that succeeds. */
  lemma RoundThenLoop(d: seq<byte>, p: nat, p2: nat, cap: nat, m: byte, q: nat, flag: bool, flag2: bool)
    requires RoundAt(d, p, p2, cap, m) && LoopsTo(d, p2, cap, q, flag) && (flag2 <==> m == SOF0 || flag)
    ensures LoopsTo(d, p, cap, q, flag2)
  {
    NextMarkerAt(d, p, cap);
  }

  /** A well-formed segment at `p` that 0xFF and a non-zero byte follow is skipped, to the
      byte after it. */
  lemma SegmentSkipped(d: seq<byte>, p: nat, cap: nat, s: FrameSegment)
    requires WellFormedSegment(s) && FrameSegmentAt(d, p, s)
    requires p + SegLen(s) + 1 < |d| && p + SegLen(s) + 2 < cap
    requires d[p + SegLen(s)] == 0xFF && d[p + SegLen(s) + 1] != 0
    ensures SkipSegment(Cursor(d, p + 2, cap), s.marker) == Ok(Cursor(d, p + SegLen(s), cap))
  {
    SkipSegmentAt(d, p + 2, cap, |s.body|, s.marker);
    if s.marker == SOS {
      ScanStopsAt(d, p + 4 + |s.body|, p + SegLen(s), cap);
    }
  }

  /** After a segment comes 0xFF and a marker, never 0x00. */
  lemma MarkerFollows(d: seq<byte>, q: nat, segs: seq<FrameSegment>)
    requires WellFormedSegments(segs) && SegmentsAt(d, q, segs)
    ensures q + 1 < |d| && d[q] == 0xFF && d[q + 1] != 0
  {
    if segs != [] {
      assert WellFormedSegment(segs[0]);
    }
  }

  /** The head segment and the tail of a non-empty segment list. */
  lemma SegmentsTail(d: seq<byte>, p: nat, segs: seq<FrameSegment>)
    requires WellFormedSegments(segs) && segs != [] && SegmentsAt(d, p, segs)
    ensures WellFormedSegment(segs[0]) && WellFormedSegments(segs[1..])
    ensures FrameSegmentAt(d, p, segs[0]) && SegmentsAt(d, p + SegLen(segs[0]), segs[1..])
    ensures SegsLen(segs) == SegLen(segs[0]) + SegsLen(segs[1..])
  {
    WellFormedTail(segs);
  }

  /** The first encoded segment, then the others. */
  lemma EncodedCons(segs: seq<FrameSegment>)
    requires segs != []
    ensures EncodeSegments(segs) + [0xFF, EOI] == EncodeSegment(segs[0]) + (EncodeSegments(segs[1..]) + [0xFF, EOI])
    ensures |EncodeSegments(segs)| == |EncodeSegment(segs[0])| + |EncodeSegments(segs[1..])|
  {
  }

  lemma WellFormedTail(segs: seq<FrameSegment>)
    requires WellFormedSegments(segs) && segs != []
    ensures WellFormedSegment(segs[0]) && WellFormedSegments(segs[1..])
  {
    forall i | 0 <= i < |segs[1..]| ensures WellFormedSegment(segs[1..][i]) {
      assert segs[1..][i] == segs[i + 1];
    }
  }

  // ---------------------------------------------------------------------------------------
  // Layouts of the encodings

  /** The encoded segments, followed by 0xFF EOI at `p` in `d`, are laid out as SegmentsAt
      says. */
  lemma {:induction false} EncodedSegmentsAt(d: seq<byte>, p: nat, segs: seq<FrameSegment>)
    requires WellFormedSegments(segs) && BytesAt(d, p, EncodeSegments(segs) + [0xFF, EOI])
    ensures SegmentsAt(d, p, segs)
    decreases |segs|
  {
    if segs == [] {
      SliceAt(d, p, 2, [0xFF, EOI]);
    } else {
      var s := segs[0];
      var tail := EncodeSegments(segs[1..]) + [0xFF, EOI];
      WellFormedTail(segs);
      EncodedCons(segs);
      SegmentBytes(d, p, s, tail);
      EncodedSegmentsAt(d, p + SegLen(s), segs[1..]);
    }
  }

  /** The segments take as many bytes as their encoding. */
  lemma {:induction false} SegsLenEncoded(segs: seq<FrameSegment>)
    ensures SegsLen(segs) == |EncodeSegments(segs)|
    decreases |segs|
  {
    if segs != [] {
      SegsLenEncoded(segs[1..]);
      EncodedCons(segs);
    }
  }

  /** The bytes of one encoded segment at `p` in `d`, followed by `tail`. */
  lemma SegmentBytes(d: seq<byte>, p: nat, s: FrameSegment, tail: seq<byte>)
    requires WellFormedSegment(s) && BytesAt(d, p, EncodeSegment(s) + tail)
    ensures |EncodeSegment(s)| == SegLen(s) && FrameSegmentAt(d, p, s)
    ensures BytesAt(d, p + SegLen(s), tail)
  {
    var x := EncodeSegment(s) + tail;
    var n := |x|;
    var e := |EncodeSegment(s)|;
    var b := |s.body|;
    var l := Length16(b + 2);
    var w := d[p .. p + n];
    assert d[p] == w[0] && d[p + 1] == w[1] && d[p + 2] == w[2] && d[p + 3] == w[3];
    assert EncodeSegment(s) == [0xFF, s.marker] + l + s.body + s.scan;
    assert x[0] == 0xFF && x[1] == s.marker && x[2] == l[0] && x[3] == l[1];
    Length16Reads(b + 2);
    SliceOfSlice(d, p, n, x, 4 + b, e);
    assert x[4 + b .. e] == s.scan;
    SliceOfSlice(d, p, n, x, e, n);
    assert x[e .. n] == tail;
  }

  /** The bytes of a frame followed by the rest of the stream. */
  lemma FrameLayout(segs: seq<FrameSegment>, rest: seq<byte>)
    ensures |EncodeFrame(segs)| == |EncodeSegments(segs)| + 4
    ensures (EncodeFrame(segs) + rest)[0] == 0xFF && (EncodeFrame(segs) + rest)[1] == SOI
    ensures (EncodeFrame(segs) + rest)[2 .. |EncodeSegments(segs)| + 4] == EncodeSegments(segs) + [0xFF, EOI]
    ensures (EncodeFrame(segs) + rest)[..|EncodeFrame(segs)|] == EncodeFrame(segs)
    ensures (EncodeFrame(segs) + rest)[|EncodeFrame(segs)|..] == rest
  {
    var x := EncodeSegments(segs);
    var e := EncodeFrame(segs);
    var d := e + rest;
    assert e == [0xFF, SOI] + (x + [0xFF, EOI]);
    assert e[2..] == x + [0xFF, EOI];
    assert d[2 .. |x| + 4] == e[2..];
  }

  /** The bytes of an audio segment followed by the rest of the stream. */
  lemma AudioLayout(t: byte, samples: seq<byte>, rest: seq<byte>)
    requires |samples| + 5 < 0x1_0000
    ensures |EncodeAudio(t, samples)| == 7 + |samples|
    ensures (EncodeAudio(t, samples) + rest)[0] == 0xFF && (EncodeAudio(t, samples) + rest)[1] == APP11
    ensures (EncodeAudio(t, samples) + rest)[4] == ASCII_M && (EncodeAudio(t, samples) + rest)[5] == ASCII_X
    ensures (EncodeAudio(t, samples) + rest)[6] == t
    ensures LengthAt(EncodeAudio(t, samples) + rest, 2) == |samples| + 5
    ensures (EncodeAudio(t, samples) + rest)[..|EncodeAudio(t, samples)|] == EncodeAudio(t, samples)
    ensures (EncodeAudio(t, samples) + rest)[|EncodeAudio(t, samples)|..] == rest
  {
    var e := EncodeAudio(t, samples);
    var d := e + rest;
    var l := Length16(|samples| + 5);
    assert e == [0xFF, APP11] + l + [ASCII_M, ASCII_X, t] + samples;
    Length16Reads(|samples| + 5);
    assert d[2] == l[0] && d[3] == l[1];
  }

  /** The bytes of an event segment followed by the rest of the stream. */
  lemma EventLayout(payload: seq<byte>, rest: seq<byte>)
    requires |payload| + 2 < 0x1_0000
    ensures |EncodeEvent(payload)| == 4 + |payload|
    ensures (EncodeEvent(payload) + rest)[0] == 0xFF && (EncodeEvent(payload) + rest)[1] == APP12
    ensures LengthAt(EncodeEvent(payload) + rest, 2) == |payload| + 2
    ensures (EncodeEvent(payload) + rest)[4 .. 4 + |payload|] == payload
    ensures (EncodeEvent(payload) + rest)[4 + |payload|..] == rest
  {
    var n := |payload| + 2;
    var e := EncodeEvent(payload);
    var d := e + rest;
    var l := Length16(n);
    assert e == [0xFF, APP12] + l + payload;
    Length16Reads(n);
    assert d[2] == l[0] && d[3] == l[1];
    assert e[4..] == payload;
  }

  /** A length below 2^16 reads back from its two bytes. */
  lemma Length16Reads(n: nat)
    requires n < 0x1_0000
    ensures BigEndian16(Length16(n)[0], Length16(n)[1]) == n
  {
    assert n % 0x1_0000 == n;
  }

  /** Reading a marker at a 0xFF. */
  lemma NextMarkerAt(d: seq<byte>, p: nat, cap: nat)
    requires p + 1 < |d| && p + 2 < cap && d[p] == 0xFF
    ensures NextMarker(Cursor(d, p, cap)) == Ok((d[p + 1], Cursor(d, p + 2, cap)))
  {
    SkipFinds(Cursor(d, p, cap), p);
  }

  /** Skipping a segment whose length field at `q` covers `n` more bytes. */
  lemma SkipSegmentAt(d: seq<byte>, q: nat, cap: nat, n: nat, m: byte)
    requires q + 1 < |d| && LengthAt(d, q) == n + 2 && q + 2 + n < cap
    ensures m != SOS ==> SkipSegment(Cursor(d, q, cap), m) == Ok(Cursor(d, q + 2 + n, cap))
    ensures m == SOS ==> SkipSegment(Cursor(d, q, cap), m) == ScanEntropy(Cursor(d, q + 2 + n, cap))
  {
    assert ReadLength(Cursor(d, q, cap)) == Ok((n + 2, Cursor(d, q + 2, cap)));
    assert Move(Cursor(d, q + 2, cap), n) == Ok(Cursor(d, q + 2 + n, cap));
  }

  /** The entropy-coded scan from `q` passes over stuffed data and stops on the 0xFF at `k`
      that a non-zero byte follows. */
  lemma {:induction false} ScanStopsAt(d: seq<byte>, q: nat, k: nat, cap: nat)
    requires q <= k && k + 1 < |d| && k + 2 < cap
    requires Stuffed(d[q .. k]) && d[k] == 0xFF && d[k + 1] != 0
    ensures ScanEntropy(Cursor(d, q, cap)) == Ok(Cursor(d, k, cap))
    decreases k - q
  {
    var c := Cursor(d, q, cap);
    if q == k {
      SkipFinds(c, k);
    } else if d[q] == 0xFF {
      assert d[q .. k][0] == 0xFF;
      assert d[q + 1] == 0 by { assert d[q .. k][1] == d[q + 1]; }
      SkipFinds(c, q);
      StuffedDrop(d, q, k, 2);
      ScanStopsAt(d, q + 2, k, cap);
    } else {
      SkipPastOther(c);
      StuffedDrop(d, q, k, 1);
      ScanStopsAt(d, q + 1, k, cap);
    }
  }

  /** A byte other than 0xFF is skipped over. */
  lemma SkipPastOther(c: Cursor)
    requires c.pos < |c.data| && c.pos + 1 < c.cap && c.data[c.pos] != 0xFF
    ensures ScanEntropy(c) == ScanEntropy(c.(pos := c.pos + 1))
  {
    assert SkipPastFF(c) == SkipPastFF(c.(pos := c.pos + 1));
  }

  /** Stuffed data stays stuffed when its first `j` bytes are dropped, unless that splits a
      stuffed pair (the caller drops whole pairs). */
  lemma StuffedDrop(d: seq<byte>, q: nat, k: nat, j: nat)
    requires q + j <= k <= |d| && Stuffed(d[q .. k])
    ensures Stuffed(d[q + j .. k])
  {
    var s := d[q + j .. k];
    forall i | 0 <= i < |s| && s[i] == 0xFF ensures i + 1 < |s| && s[i + 1] == 0 {
      assert d[q .. k][i + j] == s[i];
      assert d[q .. k][i + j + 1] == d[q + j + i + 1];
    }
  }

  /** The bytes of `x` found at `p` in `d`. */
  lemma SliceAt(d: seq<byte>, p: nat, n: nat, x: seq<byte>)
    requires p + n <= |d| && d[p .. p + n] == x
    ensures forall i :: 0 <= i < n ==> d[p + i] == x[i]
  {
    forall i | 0 <= i < n ensures d[p + i] == x[i] {
      assert d[p .. p + n][i] == d[p + i];
    }
  }

  /** The bytes `x` found at `p` in `d`. */
  predicate BytesAt(d: seq<byte>, p: nat, x: seq<byte>) {
    p + |x| <= |d| && d[p .. p + |x|] == x
  }

  /** A slice of bytes found at `p` in `d`. */
  lemma SliceOfSlice(d: seq<byte>, p: nat, n: nat, x: seq<byte>, a: nat, b: nat)
    requires p + n <= |d| && d[p .. p + n] == x && a <= b <= n
    ensures d[p + a .. p + b] == x[a .. b]
  {
    SliceAt(d, p, n, x);
  }
}

=== FILE: packet_reader.dfy ===
/** The MxPEG packet splitter (mobell/mxpeg/packet_reader.go), stated over the stream cursor.

    Each packet of the camera's stream starts with 0xFF and a marker byte. The reader skips the
    bytes before that 0xFF, cuts the stream there, and reads by the marker:
      - SOI, a video frame of marker segments up to EOI, whose SOS segment is followed by
        entropy-coded data in which 0xFF 0x00 is a stuffed 0xFF;
      - APP11, a PCM audio segment, kept only when its type byte is 'A';
      - APP12, an event, whose payload is handed to the JSON decoder;
      - APP13 (A-law audio) and every other marker, a parse error.
    A ring-buffer failure inside the reader (the source failed, or a position would leave the
    capacity) is the packet's error; the JSON decoder itself is not part of this model. */
module PacketReader {
  import opened Bytes
  import opened StreamCursor

  /** What one packet hands to the client: the callback the Go reader invokes, with its argument. */
  datatype Packet =
    | Video(frame: seq<byte>, frameStart: bool)   // onVideo: the frame from SOI to EOI
    | Audio(segment: seq<byte>)                   // onAudio: the whole APP11 segment
    | Event(payload: seq<byte>)                   // the bytes given to json.Unmarshal
    | Discarded                                   // audio of another type: nothing is called

  const ASCII_A: byte := 0x41
  const ASCII_M: byte := 0x4D
  const ASCII_X: byte := 0x58

  /** No 0xFF in `d` from `from` up to (not including) `to`. */
  predicate NoFF(d: seq<byte>, from: nat, to: int) {
    forall j :: from <= j < to && j < |d| ==> d[j] != 0xFF
  }

  /** Entropy-coded data: every 0xFF is followed by a stuffed 0x00 (section B.1.1.5 of ITU-T
      T.81). */
  predicate Stuffed(s: seq<byte>) {
    forall i :: 0 <= i < |s| && s[i] == 0xFF ==> i + 1 < |s| && s[i + 1] == 0
  }

  /** The markers a video frame may hold besides SOI and EOI. */
  predicate VideoMarker(m: byte) {
    m == SOF0 || m == SOS || m == APP0 || m == COM || m == DQT || m == DHT
  }

  // ---------------------------------------------------------------------------------------
  // Reading primitives

  /** `for r.Next() != 0xff {}`: reads up to and including the first 0xFF from the position. */
  function SkipPastFF(c: Cursor): (r: Result<Cursor>)
    requires Valid(c)
    ensures r.Ok? ==> Valid(r.value) && r.value.data == c.data && r.value.cap == c.cap
    ensures r.Ok? ==> c.pos < r.value.pos <= |c.data|
    ensures r.Ok? ==> c.data[r.value.pos - 1] == 0xFF
    ensures r.Err? && c.pos <= |c.data| && |c.data| + 1 < c.cap ==> r.error == ReadError
    decreases c.cap - c.pos
  {
    match Next(c)
    case Err(e) => Err(e)
    case Ok(n) => if n.0 == 0xFF then Ok(n.1) else SkipPastFF(n.1)
  }

  /** The skip stops at the first 0xFF, and fails only when there is none before the capacity
      or the end of the stream. */
  lemma {:induction false} SkipStopsAtFirst(c: Cursor)
    requires Valid(c)
    ensures SkipPastFF(c).Ok? ==> NoFF(c.data, c.pos, SkipPastFF(c).value.pos - 1)
    ensures SkipPastFF(c).Err? ==> NoFF(c.data, c.pos, c.cap - 1)
    decreases c.cap - c.pos
  {
    if Next(c).Ok? && Next(c).value.0 != 0xFF {
      SkipStopsAtFirst(Next(c).value.1);
    }
  }

  /** The first 0xFF at or after the position, when it lies within the capacity, is where the
      skip stops. */
  lemma SkipFinds(c: Cursor, k: nat)
    requires Valid(c) && c.pos <= k < |c.data| && k + 1 < c.cap
    requires c.data[k] == 0xFF && NoFF(c.data, c.pos, k)
    ensures SkipPastFF(c) == Ok(c.(pos := k + 1))
  {
    SkipStopsAtFirst(c);
  }

  /** `(r.Next() << 8) | r.Next()`: a big-endian 16-bit length field. */
  function ReadLength(c: Cursor): (r: Result<(nat, Cursor)>)
    requires Valid(c)
    ensures r.Ok? <==> c.pos + 2 < c.cap && c.pos + 1 < |c.data|
    ensures r.Ok? ==> r.value.0 == LengthAt(c.data, c.pos)
    ensures r.Ok? ==> r.value.1 == c.(pos := c.pos + 2) && Valid(r.value.1)
  {
    match Next(c)
    case Err(e) => Err(e)
    case Ok(hi) =>
      match Next(hi.1)
      case Err(e) => Err(e)
      case Ok(lo) => Ok((BigEndian16(hi.0, lo.0), lo.1))
  }

  /** The entropy-coded data after SOS: skips to each 0xFF and stops, back on it, at the first
      one not followed by a stuffed 0x00. */
  function ScanEntropy(c: Cursor): (r: Result<Cursor>)
    requires Valid(c)
    ensures r.Ok? ==> Valid(r.value) && r.value.data == c.data && r.value.cap == c.cap
    ensures r.Ok? ==> c.pos <= r.value.pos && r.value.pos + 2 < c.cap && r.value.pos + 1 < |c.data|
    ensures r.Ok? ==> c.data[r.value.pos] == 0xFF && c.data[r.value.pos + 1] != 0
    decreases c.cap - c.pos
  {
    match SkipPastFF(c)
    case Err(e) => Err(e)
    case Ok(c1) =>
      match Next(c1)
      case Err(e) => Err(e)
      case Ok(m) => if m.0 != 0 then Move(m.1, -2) else ScanEntropy(m.1)
  }

  /** The data the scan passes over is stuffed: the stop is the first 0xFF that is not. */
  lemma {:induction false} ScanPassesStuffed(c: Cursor)
    requires Valid(c) && ScanEntropy(c).Ok?
    ensures Stuffed(c.data[c.pos .. ScanEntropy(c).value.pos])
    decreases c.cap - c.pos
  {
    var c1 := SkipPastFF(c).value;
    var m := Next(c1).value;
    var e := ScanEntropy(c).value.pos;
    var k := c1.pos - 1;
    SkipStopsAtFirst(c);
    if m.0 == 0 {
      ScanPassesStuffed(m.1);
      StuffedStep(c.data, c.pos, k, e);
    } else {
      StuffedRun(c.data, c.pos, k);
    }
  }

  /** Bytes without 0xFF followed by a stuffed 0xFF 0x00 and stuffed data are stuffed data. */
  lemma StuffedStep(d: seq<byte>, p: nat, k: nat, e: nat)
    requires p <= k && k + 2 <= e <= |d|
    requires NoFF(d, p, k) && d[k] == 0xFF && d[k + 1] == 0 && Stuffed(d[k + 2 .. e])
    ensures Stuffed(d[p .. e])
  {
    var s := d[p .. e];
    forall i | 0 <= i < |s| && s[i] == 0xFF ensures i + 1 < |s| && s[i + 1] == 0 {
      if p + i > k + 1 {
        assert d[k + 2 .. e][p + i - k - 2] == s[i];
      }
    }
  }

  /** Bytes without 0xFF are stuffed data. */
  lemma StuffedRun(d: seq<byte>, p: nat, k: nat)
    requires p <= k <= |d| && NoFF(d, p, k)
    ensures Stuffed(d[p .. k])
  {
  }

  // ---------------------------------------------------------------------------------------
  // Video

  /** One segment of a video frame after its marker `m`: the length field, a move past the
      rest of the segment, and for SOS the entropy-coded data after it. */
  function SkipSegment(c: Cursor, m: byte): (r: Result<Cursor>)
    requires Valid(c)
    ensures r.Ok? ==> Valid(r.value) && r.value.data == c.data && r.value.cap == c.cap && c.pos <= r.value.pos
    ensures r.Ok? && m != SOS ==> c.pos + 1 < |c.data| && r.value.pos == c.pos + LengthAt(c.data, c.pos)
  {
    match ReadLength(c)
    case Err(e) => Err(e)
    case Ok(n) =>
      match Move(n.1, n.0 - 2)
      case Err(e) => Err(e)
      case Ok(c1) => if m == SOS then ScanEntropy(c1) else Ok(c1)
  }

  /** The next marker: skips to the next 0xFF and reads the byte after it. */
  function NextMarker(c: Cursor): (r: Result<(byte, Cursor)>)
    requires Valid(c)
    ensures r.Ok? ==> Valid(r.value.1) && r.value.1.data == c.data && r.value.1.cap == c.cap
    ensures r.Ok? ==> c.pos + 2 <= r.value.1.pos <= |c.data|
    ensures r.Ok? ==> c.data[r.value.1.pos - 2] == 0xFF && c.data[r.value.1.pos - 1] == r.value.0
  {
    match SkipPastFF(c)
    case Err(e) => Err(e)
    case Ok(c1) => Next(c1)
  }

  /** The segment loop of readVideo, from the position: each round reads the next marker; EOI
      ends the frame, an unexpected marker is a parse error, and any other segment is passed
      over by SkipSegment. The result is whether an SOF0 segment was passed and the cursor just
      after EOI. */
  function VideoLoop(c: Cursor): (r: Result<(bool, Cursor)>)
    requires Valid(c)
    ensures r.Ok? ==> Valid(r.value.1) && r.value.1.data == c.data && r.value.1.cap == c.cap
    ensures r.Ok? ==> c.pos + 2 <= r.value.1.pos && EndsFrame(c.data, r.value.1.pos)
    decreases c.cap - c.pos
  {
    match NextMarker(c)
    case Err(e) => Err(e)
    case Ok(m) =>
      if m.0 == EOI then Ok((false, m.1))
      else
        match VideoSegment(m.1, m.0)
        case Err(e) => Err(e)
        case Ok(c2) =>
          match VideoLoop(c2)
          case Err(e) => Err(e)
          case Ok(v) => Ok((m.0 == SOF0 || v.0, v.1))
  }

  /** One round of the segment loop after a marker `m` other than EOI: a marker readVideo does
      not expect is a parse error, and the segment of any other is skipped. */
  function VideoSegment(c: Cursor, m: byte): (r: Result<Cursor>)
    requires Valid(c)
    ensures r.Ok? <==> VideoMarker(m) && SkipSegment(c, m).Ok?
    ensures r.Ok? ==> Valid(r.value) && r.value.data == c.data && r.value.cap == c.cap && c.pos <= r.value.pos
    ensures r.Err? && !VideoMarker(m) ==> r.error == ParseError
  {
    if !VideoMarker(m) then Err(ParseError) else SkipSegment(c, m)
  }

  /** The `p` bytes of `d` end with the 0xFF EOI marker. */
  predicate EndsFrame(d: seq<byte>, p: nat) {
    2 <= p <= |d| && d[p - 2] == 0xFF && d[p - 1] == EOI
  }

  /** readVideo, on the cursor just past SOI: the frame is everything from the cut point (the
      0xFF of SOI) through the 0xFF EOI marker that ends it, and the cut moves past it. */
  function ReadVideo(c: Cursor): (r: Result<(Packet, Cursor)>)
    requires Valid(c)
    ensures r.Ok? ==> r.value.0.Video? && r.value.1.pos == 0 && r.value.1.cap == c.cap
    ensures r.Ok? ==> c.pos + 2 <= |r.value.0.frame| <= |c.data|
    ensures r.Ok? ==> r.value.0.frame == c.data[..|r.value.0.frame|] && r.value.1.data == c.data[|r.value.0.frame|..]
    ensures r.Ok? ==> EndsFrame(r.value.0.frame, |r.value.0.frame|)
  {
    match VideoLoop(c)
    case Err(e) => Err(e)
    case Ok(v) =>
      match GetAndCut(v.1)
      case Err(e) => Err(e)
      case Ok(cut) =>
        assert v.1.data == c.data;
        FrameEnd(c.data, v.1.pos, cut.0);
        Ok((Video(cut.0, v.0), cut.1))
  }

  lemma FrameEnd(d: seq<byte>, p: nat, v: seq<byte>)
    requires EndsFrame(d, p) && v == d[..p]
    ensures EndsFrame(v, |v|)
  {
  }

  // ---------------------------------------------------------------------------------------
  // Audio and events

  /** The big-endian length field at `p`. */
  function LengthAt(d: seq<byte>, p: nat): nat
    requires p + 1 < |d|
  {
    BigEndian16(d[p], d[p + 1])
  }

  /** readAudioPcm, on the cursor just past APP11: the length field, 'M', 'X' and the type byte;
      the position then moves to the end of the segment, which is handed on whole when the type
      is 'A' and dropped otherwise. */
  function ReadAudioPcm(c: Cursor): (r: Result<(Packet, Cursor)>)
    requires Valid(c)
    ensures r.Ok? ==> c.pos + 4 < |c.data| && c.data[c.pos + 2] == ASCII_M && c.data[c.pos + 3] == ASCII_X
    ensures r.Ok? ==> (r.value.0.Audio? || r.value.0.Discarded?) && r.value.1.pos == 0 && r.value.1.cap == c.cap
    ensures r.Ok? ==> (r.value.0.Audio? <==> c.data[c.pos + 4] == ASCII_A)
    ensures r.Ok? ==> c.pos + LengthAt(c.data, c.pos) <= |c.data|
    ensures r.Ok? ==> r.value.1.data == c.data[c.pos + LengthAt(c.data, c.pos) ..]
    ensures r.Ok? && r.value.0.Audio? ==> r.value.0.segment == c.data[.. c.pos + LengthAt(c.data, c.pos)]
    ensures BadMagic(c) ==> r == Err(ParseError)
  {
    match AudioHeader(c)
    case Err(e) => Err(e)
    case Ok(h) => AudioTail(h.2, h.0, h.1)
  }

  /** The bytes after the length field are there to read and are not 'M', 'X'. */
  predicate BadMagic(c: Cursor) {
    || (c.pos + 3 < c.cap && c.pos + 2 < |c.data| && c.data[c.pos + 2] != ASCII_M)
    || (c.pos + 4 < c.cap && c.pos + 3 < |c.data| && c.data[c.pos + 2] == ASCII_M && c.data[c.pos + 3] != ASCII_X)
  }

  /** The header of a PCM audio segment after its marker: the length field, then 'M' and 'X'
      (a parse error otherwise), then the type byte. The result is the length, the type and the
      cursor past the type byte. */
  function AudioHeader(c: Cursor): (r: Result<(nat, byte, Cursor)>)
    requires Valid(c)
    ensures r.Ok? ==> c.pos + 4 < |c.data| && c.data[c.pos + 2] == ASCII_M && c.data[c.pos + 3] == ASCII_X
    ensures r.Ok? ==> r.value.0 == LengthAt(c.data, c.pos) && r.value.1 == c.data[c.pos + 4]
    ensures r.Ok? ==> r.value.2 == c.(pos := c.pos + 5) && Valid(r.value.2)
    ensures BadMagic(c) ==> r == Err(ParseError)
  {
    match ReadLength(c)
    case Err(e) => Err(e)
    case Ok(n) =>
      match Next(n.1)
      case Err(e) => Err(e)
      case Ok(m) =>
        if m.0 != ASCII_M then Err(ParseError)
        else
          match Next(m.1)
          case Err(e) => Err(e)
          case Ok(x) =>
            if x.0 != ASCII_X then Err(ParseError)
            else
              match Next(x.1)
              case Err(e) => Err(e)
              case Ok(t) => Ok((n.0, t.0, t.1))
  }

  /** The end of readAudioPcm, with the position after the type byte `t` of a segment whose
      length field is `len`: the segment ends `len - 5` bytes further on. */
  function AudioTail(c: Cursor, len: nat, t: byte): (r: Result<(Packet, Cursor)>)
    requires Valid(c) && 5 <= c.pos
    ensures r.Ok? ==> (r.value.0.Audio? <==> t == ASCII_A) && (r.value.0.Audio? || r.value.0.Discarded?)
    ensures r.Ok? ==> r.value.1.pos == 0 && r.value.1.cap == c.cap
    ensures r.Ok? ==> c.pos + len - 5 <= |c.data| && r.value.1.data == c.data[c.pos + len - 5 ..]
    ensures r.Ok? && r.value.0.Audio? ==> r.value.0.segment == c.data[.. c.pos + len - 5]
  {
    match Move(c, len - 2 - 3)
    case Err(e) => Err(e)
    case Ok(c1) =>
      if t == ASCII_A then
        match GetAndCut(c1)
        case Err(e) => Err(e)
        case Ok(cut) => Ok((Audio(cut.0), cut.1))
      else
        match Cut(c1)
        case Err(e) => Err(e)
        case Ok(c2) => Ok((Discarded, c2))
  }

  /** The payload of an APP12 segment as readEvents hands it to the decoder: the bytes with one
      trailing NUL dropped. */
  function TrimNul(v: seq<byte>): (p: seq<byte>)
    ensures |v| > 0 && v[|v| - 1] == 0 ==> p == v[..|v| - 1]
    ensures !(|v| > 0 && v[|v| - 1] == 0) ==> p == v
  {
    if |v| > 0 && v[|v| - 1] == 0 then v[..|v| - 1] else v
  }

  /** readEvents, on the cursor just past APP12: the length field, a cut after it, and the
      `length - 2` bytes of payload after the cut, with one trailing NUL dropped. The payload may
      be empty (a length field of 2), and then nothing is dropped. */
  function ReadEvents(c: Cursor): (r: Result<(Packet, Cursor)>)
    requires Valid(c)
    ensures r.Ok? ==> r.value.0.Event? && r.value.1.pos == 0 && r.value.1.cap == c.cap
    ensures r.Ok? ==> c.pos + 1 < |c.data|
    ensures r.Ok? && 2 <= LengthAt(c.data, c.pos) ==>
              && c.pos + LengthAt(c.data, c.pos) <= |c.data|
              && r.value.0.payload == TrimNul(c.data[c.pos + 2 .. c.pos + LengthAt(c.data, c.pos)])
              && r.value.1.data == c.data[c.pos + LengthAt(c.data, c.pos) ..]
  {
    match EventBytes(c)
    case Err(e) => Err(e)
    case Ok(v) => Ok((Event(TrimNul(v.0)), v.1))
  }

  /** The bytes readEvents takes from the stream: the length field, a cut, a move by
      `length - 2`, and the bytes from the cut to the position. */
  function EventBytes(c: Cursor): (r: Result<(seq<byte>, Cursor)>)
    requires Valid(c)
    ensures r.Ok? ==> c.pos + 1 < |c.data| && r.value.1.pos == 0 && r.value.1.cap == c.cap
    ensures r.Ok? && 2 <= LengthAt(c.data, c.pos) ==>
              && c.pos + LengthAt(c.data, c.pos) <= |c.data|
              && r.value.0 == c.data[c.pos + 2 .. c.pos + LengthAt(c.data, c.pos)]
              && r.value.1.data == c.data[c.pos + LengthAt(c.data, c.pos) ..]
  {
    match ReadLength(c)
    case Err(e) => Err(e)
    case Ok(n) =>
      match Cut(n.1)
      case Err(e) => Err(e)
      case Ok(c1) =>
        match Move(c1, n.0 - 2)
        case Err(e) => Err(e)
        case Ok(c2) => GetAndCut(c2)
  }

  /** readEvents as written: the last byte of the payload is read without checking that there
      is one, so an empty payload is an index-out-of-range panic, which the reader's recover
      re-raises. */
  function ReadEventsAsWritten(c: Cursor): (r: Result<(Packet, Cursor)>)
    requires Valid(c)
    ensures r.Ok? ==> r == ReadEvents(c)
    ensures r.Err? && ReadEvents(c).Ok? ==> r.error == Panic && ReadEvents(c).value.0.payload == []
  {
    match EventBytes(c)
    case Err(e) => Err(e)
    case Ok(v) =>
      if |v.0| == 0 then Err(Panic)
      else Ok((Event(if v.0[|v.0| - 1] == 0 then v.0[..|v.0| - 1] else v.0), v.1))
  }

  /** An APP12 segment whose length field is 2 (no payload) crashes the reader as written, and
      is read as an empty event by ReadEvents. */
  lemma EmptyEventPanics(rest: seq<byte>, cap: nat)
    requires 4 < cap
    ensures ReadEventsAsWritten(Cursor([0xFF, APP12, 0, 2] + rest, 2, cap)) == Err(Panic)
    ensures ReadEvents(Cursor([0xFF, APP12, 0, 2] + rest, 2, cap)) == Ok((Event([]), Cursor(rest, 0, cap)))
  {
    var d := [0xFF, APP12, 0, 2] + rest;
    var c := Cursor(d, 2, cap);
    assert BigEndian16(d[2], d[3]) == 2;
    assert d[4..] == rest;
    assert d[4..4] == [];
  }

  // ---------------------------------------------------------------------------------------
  // Packets

  /** ReadPacket: skips to the first 0xFF, moves the cut point onto it, and reads the packet its
      marker announces. */
  function ReadPacket(c: Cursor): (r: Result<(Packet, Cursor)>)
    requires Valid(c)
    ensures r.Ok? ==> r.value.1.pos == 0 && r.value.1.cap == c.cap && |r.value.1.data| < |c.data|
  {
    match SkipPastFF(c)
    case Err(e) => Err(e)
    case Ok(c1) =>
      match CutWithStep(c1, -1)
      case Err(e) => Err(e)
      case Ok(c2) => ReadMarked(c2)
  }

  /** A packet read is the one announced by the marker after the first 0xFF at or after the
      position. */
  lemma ReadPacketAnnounced(c: Cursor)
    requires Valid(c) && ReadPacket(c).Ok?
    ensures exists k :: c.pos <= k < |c.data| && c.data[k] == 0xFF && NoFF(c.data, c.pos, k)
                        && 2 <= |c.data[k..]| && Announces(c.data[k..], ReadPacket(c).value)
  {
    SkipStopsAtFirst(c);
    var k := SkipPastFF(c).value.pos - 1;
    ReadPacketSkipsTo(c, k);
  }

  /** Whatever precedes the first 0xFF is skipped: the packet is read from the stream that
      starts at that 0xFF, with the position on its marker. */
  lemma ReadPacketSkipsTo(c: Cursor, k: nat)
    requires Valid(c) && c.pos <= k < |c.data| && k + 1 < c.cap
    requires c.data[k] == 0xFF && NoFF(c.data, c.pos, k)
    ensures ReadPacket(c) == ReadMarked(Cursor(c.data[k..], 1, c.cap))
  {
    SkipFinds(c, k);
  }

  /** The dispatch of ReadPacket, with the cut point on the 0xFF and the position on the marker. */
  function ReadMarked(c: Cursor): (r: Result<(Packet, Cursor)>)
    requires Valid(c) && c.pos == 1
    ensures r.Ok? ==> 2 <= |c.data| && Announces(c.data, r.value)
    ensures r.Ok? ==> r.value.1.pos == 0 && r.value.1.cap == c.cap
    ensures 2 < c.cap && |c.data| < 2 ==> r == Err(ReadError)
    ensures 2 < c.cap && 1 < |c.data| && c.data[1] !in {SOI, APP11, APP12} ==> r == Err(ParseError)
  {
    match Next(c)
    case Err(e) => Err(e)
    case Ok(m) =>
      if m.0 == SOI then ReadVideo(m.1)
      else if m.0 == APP11 then ReadAudioPcm(m.1)
      else if m.0 == APP12 then ReadEvents(m.1)
      else Err(ParseError)
  }

  /** The packet read from the stream `s`, which starts with 0xFF, is of the kind its marker
      names, and the frame or audio segment handed on is the front of `s`, the rest of the stream
      following it. */
  predicate Announces(s: seq<byte>, p: (Packet, Cursor))
    requires 2 <= |s|
  {
    && (p.0.Video? <==> s[1] == SOI)
    && (p.0.Event? <==> s[1] == APP12)
    && (p.0.Audio? || p.0.Discarded? <==> s[1] == APP11)
    && |p.1.data| <= |s|
    && (p.0.Video? ==> |p.0.frame| <= |s| && p.0.frame == s[..|p.0.frame|] && p.1.data == s[|p.0.frame|..])
    && (p.0.Audio? ==> |p.0.segment| <= |s| && p.0.segment == s[..|p.0.segment|] && p.1.data == s[|p.0.segment|..])
  }
}

=== FILE: ring_buffer.dfy ===
/** The ring buffer every stream parser of the proxy reads through (mobell/mxpeg/ring_buffer.go).

    A power-of-two array `buf` holds the window of the stream between `start` (the cut point)
    and `end` (where the next read from the source writes); `pos` is the parser's read position.
    All three are array indices, and the distance of an index from `start` is taken modulo the
    size with the mask `size - 1`. The byte source is a list of chunks: each read delivers at most
    the room it is given of the first chunk, and an exhausted source is a read error.

    The module shows that the buffer implements the logical cursor of module StreamCursor: the
    window followed by the bytes the source still holds is the stream from the cut point, and
    every operation acts on it as the corresponding cursor operation does. */
module RingBuffer {
  import opened Bytes
  import opened Modular
  import StreamCursor

  // ---------------------------------------------------------------------------------------
  // Sizes and the mask

  /** `n` is a power of two. */
  predicate IsPow2(n: int)
    decreases n
  {
    if n < 1 then false
    else if n == 1 then true
    else n % 2 == 0 && IsPow2(n / 2)
  }

  /** The capacity NewRingBuffer allocates for a requested size: the least power of two that is
      at least the request, and at least 1. */
  function Capacity(size: int): (s: nat)
    ensures IsPow2(s) && size <= s
    ensures s == 1 || s / 2 < size
  {
    Grow(1, size)
  }

  /** The doubling loop of NewRingBuffer. */
  function Grow(s: nat, size: int): (r: nat)
    requires IsPow2(s) && (s == 1 || s / 2 < size)
    ensures IsPow2(r) && size <= r && (r == 1 || r / 2 < size)
    decreases size - s
  {
    if s >= size then s else Grow(2 * s, size)
  }

  /** Go's `&` of a two's-complement integer with a non-negative mask, bit by bit: `a % 2` is
      the lowest bit and `a / 2` the arithmetic shift right, also for negative `a`. */
  function BitAnd(a: int, m: nat): nat
    decreases m
  {
    if m == 0 then 0
    else (if a % 2 == 1 && m % 2 == 1 then 1 else 0) + 2 * BitAnd(a / 2, m / 2)
  }

  /** Masking with `n - 1` for a power of two `n` is the non-negative remainder modulo `n`, also
      for negative operands. */
  lemma {:induction false} MaskIsMod(a: int, n: int)
    requires IsPow2(n)
    ensures BitAnd(a, n - 1) == a % n
    decreases n
  {
    if n > 1 {
      var h := n / 2;
      MaskIsMod(a / 2, h);
      assert (n - 1) % 2 == 1 && (n - 1) / 2 == h - 1;
      assert n == 2 * h;
      HalveMod(a, h);
    }
  }

  lemma HalveMod(a: int, h: int)
    requires h > 0
    ensures a % (2 * h) == a % 2 + 2 * ((a / 2) % h)
  {
    var q := (a / 2) / h;
    var r := (a / 2) % h;
    assert a / 2 == h * q + r;
    assert a == 2 * (a / 2) + a % 2;
    assert a == (2 * h) * q + (2 * r + a % 2);
    ModIs(a, 2 * h, q, 2 * r + a % 2);
  }

  /** Go's `x & (size - 1)` is the reduction, for negative `x` too. */
  lemma MaskIsReduction(x: int, n: int)
    requires IsPow2(n)
    ensures BitAnd(x, n - 1) == Mod(x, n)
  {
    MaskIsMod(x, n);
    ModIsRemainder(x, n);
  }

  // ---------------------------------------------------------------------------------------
  // The byte source

  /** The bytes a list of chunks will deliver, in order. */
  function Flatten(src: seq<seq<byte>>): seq<byte>
  {
    if |src| == 0 then [] else src[0] + Flatten(src[1..])
  }

  /** Decreases with every read that is given room for at least one byte. */
  function Measure(src: seq<seq<byte>>): nat
  {
    |Flatten(src)| + |src|
  }

  /** One `Read` of the source into a slice of `room` bytes: the delivered bytes and the source
      left over. An exhausted source fails. */
  function Pull(src: seq<seq<byte>>, room: nat): (r: Result<(seq<byte>, seq<seq<byte>>)>)
    ensures r.Ok? <==> |src| > 0
    ensures r.Err? ==> r.error == ReadError
    ensures r.Ok? ==> |r.value.0| <= room && Flatten(src) == r.value.0 + Flatten(r.value.1)
    ensures r.Ok? && room > 0 ==> Measure(r.value.1) < Measure(src)
    ensures r.Ok? && |src[0]| >= room ==> |r.value.0| == room
  {
    if |src| == 0 then Err(ReadError)
    else if |src[0]| <= room then Ok((src[0], src[1..]))
    else
      var rest := [src[0][room..]] + src[1..];
      assert rest[1..] == src[1..];
      assert src[0] == src[0][..room] + src[0][room..];
      Ok((src[0][..room], rest))
  }

  // ---------------------------------------------------------------------------------------
  // The buffer

  datatype Ring = Ring(buf: seq<byte>, start: int, end: int, pos: int, src: seq<seq<byte>>)

  predicate Valid(r: Ring) {
    && IsPow2(|r.buf|)
    && 0 <= r.start < |r.buf|
    && 0 <= r.end < |r.buf|
    && 0 <= r.pos < |r.buf|
  }

  /** norm: an index masked with `size - 1`, which MaskIsReduction shows to be its reduction
      modulo the size. */
  function Norm(r: Ring, p: int): (n: nat)
    requires IsPow2(|r.buf|)
    ensures n < |r.buf|
  {
    Mod(p, |r.buf|)
  }

  /** dist: how far index `p` lies after `start`, round the ring. */
  function Dist(r: Ring, p: int): nat
    requires IsPow2(|r.buf|)
  {
    Norm(r, p - r.start)
  }

  /** The buffered bytes from `start` to `end`. */
  function Window(r: Ring): seq<byte>
    requires Valid(r)
  {
    if r.start <= r.end then r.buf[r.start .. r.end]
    else r.buf[r.start..] + r.buf[..r.end]
  }

  /** The stream from the cut point: what is buffered, then what the source still holds. */
  function Stream(r: Ring): seq<byte>
    requires Valid(r)
  {
    Window(r) + Flatten(r.src)
  }

  /** The logical cursor the buffer implements. */
  function Abs(r: Ring): StreamCursor.Cursor
    requires Valid(r)
  {
    StreamCursor.Cursor(Stream(r), Dist(r, r.pos), |r.buf|)
  }

  /** `dist(end)` counts the buffered bytes. */
  lemma WindowLength(r: Ring)
    requires Valid(r)
    ensures |Window(r)| == Dist(r, r.end)
  {
    var n := |r.buf|;
    if r.start <= r.end {
      MSmall(r.end - r.start, n);
    } else {
      MBelow(r.end - r.start, n);
    }
  }

  /** The `i`-th buffered byte sits `i` slots after `start`, round the ring. */
  lemma WindowAt(r: Ring, i: int)
    requires Valid(r) && 0 <= i < |Window(r)|
    ensures Window(r)[i] == r.buf[Mod(r.start + i, |r.buf|)]
  {
    var n := |r.buf|;
    WindowLength(r);
    if r.start + i < n {
      MSmall(r.start + i, n);
    } else {
      MAbove(r.start + i, n);
    }
  }

  // ---------------------------------------------------------------------------------------
  // Reading from the source

  /** The slice `read` hands to the source, corrected to leave the slot before `start` free:
      the rest of the array when the window does not wrap (all but its last slot when `start` is
      0), else the gap up to the slot before `start`. */
  function Room(r: Ring): nat
    requires Valid(r)
  {
    if r.end >= r.start then (if r.start == 0 then |r.buf| - 1 - r.end else |r.buf| - r.end)
    else r.start - r.end - 1
  }

  /** The slice `read` hands to the source as written: the rest of the array, or the whole gap
      up to `start`. */
  function RoomAsWritten(r: Ring): nat
    requires Valid(r)
  {
    if r.end >= r.start then |r.buf| - r.end else r.start - r.end
  }

  /** `read` with the slice size given: overflow when the window already fills all but one
      slot, else one read of the source written at `end`, and `end` advanced past it. */
  function Fill(r: Ring, room: nat): (r': Result<Ring>)
    requires Valid(r) && r.end + room <= |r.buf|
    ensures r'.Ok? <==> Dist(r, r.end) < |r.buf| - 1 && |r.src| > 0
    ensures r'.Err? ==> r'.error == (if Dist(r, r.end) >= |r.buf| - 1 then Overflow else ReadError)
    ensures r'.Ok? ==> Valid(r'.value) && |r'.value.buf| == |r.buf|
    ensures r'.Ok? ==> r'.value.start == r.start && r'.value.pos == r.pos
  {
    if Dist(r, r.end) >= |r.buf| - 1 then Err(Overflow)
    else
      var t :- Pull(r.src, room);
      Ok(Written(r, t.0).(src := t.1))
  }

  /** read (corrected): one read of the source into the free slots, leaving the slot before
      `start` free. */
  function Read(r: Ring): (r': Result<Ring>)
    requires Valid(r)
    ensures r'.Ok? <==> Dist(r, r.end) < |r.buf| - 1 && |r.src| > 0
    ensures r'.Err? ==> r'.error == (if Dist(r, r.end) >= |r.buf| - 1 then Overflow else ReadError)
    ensures r'.Ok? ==> Valid(r'.value) && |r'.value.buf| == |r.buf|
    ensures r'.Ok? ==> r'.value.start == r.start && r'.value.pos == r.pos
    ensures r'.Ok? ==> Measure(r'.value.src) < Measure(r.src)
  {
    ReadRoom(r);
    Fill(r, Room(r))
  }

  /** Whenever the window leaves a slot to fill, the corrected slice is not empty. */
  lemma ReadRoom(r: Ring)
    requires Valid(r)
    ensures Dist(r, r.end) < |r.buf| - 1 ==> Room(r) > 0
  {
    WindowLength(r);
    if r.start > r.end {
      MBelow(r.end - r.start, |r.buf|);
    }
  }

  /** The delivered bytes join the window and nothing buffered is lost, so the stream from the
      cut point is unchanged; the source shrinks. */
  lemma ReadKeepsStream(r: Ring)
    requires Valid(r) && Read(r).Ok?
    ensures Stream(Read(r).value) == Stream(r)
    ensures Window(r) <= Window(Read(r).value)
  {
    var t := Pull(r.src, Room(r)).value;
    ReadKeepsWindow(r);
    MovedAcross(Window(r), t.0, Flatten(t.1), Window(Read(r).value), Flatten(r.src));
  }

  /** Bytes moved from the front of the source to the back of the window leave their
      concatenation unchanged and extend the window. */
  lemma MovedAcross(w: seq<byte>, t: seq<byte>, rest: seq<byte>, w': seq<byte>, src: seq<byte>)
    requires w' == w + t && src == t + rest
    ensures w' + rest == w + src
    ensures w <= w'
  {
    assert (w + t) + rest == w + (t + rest);
  }

  lemma ReadKeepsWindow(r: Ring)
    requires Valid(r) && Fill(r, Room(r)).Ok?
    ensures var t := Pull(r.src, Room(r)).value;
      Window(Fill(r, Room(r)).value) == Window(r) + t.0
  {
    var w := Pull(r.src, Room(r)).value.0;
    if r.start <= r.end {
      if r.end + |w| < |r.buf| {
        WriteFlat(r, w);
      } else {
        WriteToEdge(r, w);
      }
    } else {
      WriteWrapped(r, w);
    }
  }

  /** The buffer after bytes `w` are written at `end` and `end` advanced past them. */
  function Written(r: Ring, w: seq<byte>): (r': Ring)
    requires Valid(r) && r.end + |w| <= |r.buf|
    ensures Valid(r')
  {
    r.(buf := r.buf[..r.end] + w + r.buf[r.end + |w| ..], end := Norm(r, r.end + |w|))
  }

  /** Bytes written after an unwrapped window that stop short of the array's end extend it. */
  lemma WriteFlat(r: Ring, w: seq<byte>)
    requires Valid(r) && r.start <= r.end && r.end + |w| < |r.buf|
    ensures Window(Written(r, w)) == Window(r) + w
  {
    var buf' := Written(r, w).buf;
    MSmall(r.end + |w|, |r.buf|);
    assert buf'[r.start .. r.end + |w|] == r.buf[r.start .. r.end] + w;
  }

  /** Bytes written up to the array's end, after a window that starts past slot 0, extend it
      with `end` wrapping to 0. */
  lemma WriteToEdge(r: Ring, w: seq<byte>)
    requires Valid(r) && 0 < r.start <= r.end && r.end + |w| == |r.buf|
    ensures Window(Written(r, w)) == Window(r) + w
  {
    var buf' := Written(r, w).buf;
    MAbove(r.end + |w|, |r.buf|);
    assert Written(r, w).end == 0;
    assert buf'[r.start..] == r.buf[r.start .. r.end] + w;
    assert buf'[..0] == [];
  }

  /** Bytes written into the gap of a wrapped window, short of `start`, extend it. */
  lemma WriteWrapped(r: Ring, w: seq<byte>)
    requires Valid(r) && r.end < r.start && r.end + |w| < r.start
    ensures Window(Written(r, w)) == Window(r) + w
  {
    var buf' := Written(r, w).buf;
    MSmall(r.end + |w|, |r.buf|);
    assert buf'[r.start..] == r.buf[r.start..];
    assert buf'[..r.end + |w|] == r.buf[..r.end] + w;
  }

  /** read as written: when the delivered bytes fill the whole slice, `end` lands on `start`, the
      window reads as empty, and everything buffered together with the bytes just read drops
      out of the stream. */
  function ReadAsWritten(r: Ring): (r': Result<Ring>)
    requires Valid(r)
    ensures r'.Ok? <==> Dist(r, r.end) < |r.buf| - 1 && |r.src| > 0
    ensures r'.Ok? ==> Valid(r'.value) && r'.value.start == r.start && r'.value.pos == r.pos
  {
    Fill(r, RoomAsWritten(r))
  }

  /** Whenever the window starts at slot 0 or wraps, and the source has a whole slice ready, the
      read as written empties the window and loses the buffered bytes and the slice it has just
      read. (When the window starts later and does not wrap, the slice ends at the end of the
      array and `end` wraps to 0, which is still before `start`.) */
  lemma ReadAsWrittenLosesWindow(r: Ring)
    requires Valid(r) && Dist(r, r.end) < |r.buf| - 1
    requires r.start == 0 || r.end < r.start
    requires |r.src| > 0 && |r.src[0]| >= RoomAsWritten(r)
    ensures ReadAsWritten(r).Ok?
    ensures Window(ReadAsWritten(r).value) == []
    ensures Stream(ReadAsWritten(r).value) == Stream(r)[|Window(r)| + RoomAsWritten(r) ..]
    ensures Stream(ReadAsWritten(r).value) != Stream(r)
  {
    var n := |r.buf|;
    var room := RoomAsWritten(r);
    var t := Pull(r.src, room).value;
    var r' := ReadAsWritten(r).value;
    assert |t.0| == room;
    if r.start <= r.end {
      MAbove(r.end + room, n);
      assert r'.end == 0;
    } else {
      MSmall(r.end + room, n);
    }
    assert r'.end == r.start;
    assert Window(r') == [];
    assert Stream(r) == Window(r) + (t.0 + Flatten(t.1));
    assert Stream(r) == (Window(r) + t.0) + Flatten(t.1);
  }

  /** A concrete instance: a fresh four-byte buffer whose source first delivers four bytes.
      The read as written leaves only the fifth byte of the stream; the corrected read keeps all
      five. */
  lemma ReadAsWrittenExample()
    ensures var r := Ring([0, 0, 0, 0], 0, 0, 0, [[1, 2, 3, 4], [5]]);
      && Stream(r) == [1, 2, 3, 4, 5]
      && ReadAsWritten(r).Ok? && Stream(ReadAsWritten(r).value) == [5]
      && Read(r).Ok? && Stream(Read(r).value) == [1, 2, 3, 4, 5]
  {
    var r := Ring([0, 0, 0, 0], 0, 0, 0, [[1, 2, 3, 4], [5]]);
    assert IsPow2(4) by { assert IsPow2(2); }
    assert Flatten(r.src) == [1, 2, 3, 4, 5] by {
      assert Flatten(r.src[1..]) == [5] by { assert r.src[1..][1..] == []; }
    }
    ReadAsWrittenLosesWindow(r);
    assert Stream(r)[4..] == [5];
    ReadKeepsStream(r);
  }

  /** The buffer `r'` still has the cut point, position, size and stream of `r`. */
  predicate Kept(r: Ring, r': Ring)
    requires Valid(r) && Valid(r')
  {
    r'.start == r.start && r'.pos == r.pos && |r'.buf| == |r.buf| && Stream(r') == Stream(r)
  }

  /** readToPos: reads until index `p` lies within the window. It fails only when the source
      runs out first: the window never needs more than `size - 1` bytes, so it never overflows.
      Nothing is read when `p` is already buffered, and the stream is unchanged. */
  method ReadToPos(r: Ring, p: int) returns (res: Result<Ring>)
    requires Valid(r)
    ensures res.Ok? <==> Dist(r, p) <= |Stream(r)|
    ensures res.Err? ==> res.error == ReadError
    ensures res.Ok? ==> Valid(res.value) && Kept(r, res.value) && Dist(r, p) <= |Window(res.value)|
    ensures Dist(r, p) <= Dist(r, r.end) ==> res == Ok(r)
  {
    var cur := r;
    WindowLength(cur);
    while Dist(cur, p) > Dist(cur, cur.end)
      invariant Valid(cur) && Kept(r, cur)
      invariant cur == r || Dist(r, p) > Dist(r, r.end)
      decreases Measure(cur.src)
    {
      var next := Read(cur);
      if next.Err? {
        ReadFails(cur, p);
        return Err(ReadError);
      }
      ReadKeepsStream(cur);
      cur := next.value;
      WindowLength(cur);
    }
    WindowLength(cur);
    return Ok(cur);
  }

  /** A read that fails while index `p` is not yet buffered fails because the source is
      exhausted, and the stream then ends before `p`. */
  lemma ReadFails(r: Ring, p: int)
    requires Valid(r) && Dist(r, p) > Dist(r, r.end) && Read(r).Err?
    ensures Read(r).error == ReadError && Dist(r, p) > |Stream(r)|
  {
    WindowLength(r);
    assert |r.src| == 0;
    assert Stream(r) == Window(r);
  }

  // ---------------------------------------------------------------------------------------
  // The operations the parsers use

  /** An operation of the buffer returning a value agrees with a cursor operation: the same
      error, or the same value and a buffer whose logical view is the cursor's new state. */
  predicate Matches<T(==)>(a: Result<(T, Ring)>, c: Result<(T, StreamCursor.Cursor)>) {
    match a
    case Err(e) => c.Err? && c.error == e
    case Ok(v) => c.Ok? && Valid(v.1) && v.0 == c.value.0 && Abs(v.1) == c.value.1
  }

  predicate MatchesRing(a: Result<Ring>, c: Result<StreamCursor.Cursor>) {
    match a
    case Err(e) => c.Err? && c.error == e
    case Ok(v) => c.Ok? && Valid(v) && Abs(v) == c.value
  }

  /** Move: overflow when the position would reach `size` bytes past `start`; else `pos` moves
      by `step` round the ring. Nothing is read. */
  function Move(r: Ring, step: int): (r': Result<Ring>)
    requires Valid(r)
    ensures r'.Ok? ==> Valid(r'.value) && |r'.value.buf| == |r.buf|
    ensures r'.Ok? ==> Window(r'.value) == Window(r) && r'.value.src == r.src
  {
    if Dist(r, r.pos) + step >= |r.buf| then Err(Overflow)
    else Ok(r.(pos := Norm(r, r.pos + step)))
  }

  lemma MoveRefines(r: Ring, step: int)
    requires Valid(r)
    ensures MatchesRing(Move(r, step), StreamCursor.Move(Abs(r), step))
  {
    var c := Abs(r);
    if c.pos + step < c.cap {
      var r' := r.(pos := Norm(r, r.pos + step));
      MMove(r.pos, step, r.start, |r.buf|);
      assert Dist(r', r'.pos) == Mod(c.pos + step, c.cap);
      SameStream(r, r'.pos);
      assert Abs(r') == c.(pos := Mod(c.pos + step, c.cap));
    }
  }

  /** The stream does not depend on the read position. */
  lemma SameStream(r: Ring, p: int)
    requires Valid(r) && 0 <= p < |r.buf|
    ensures Stream(r.(pos := p)) == Stream(r)
  {
    assert Window(r.(pos := p)) == Window(r);
  }

  /** get of one byte: reads until the slot after `pos` is buffered and returns slot `pos`.
      Before the last slot this is the cursor's Get. On the last slot (the one before `start`)
      the index after it is `start` itself, so nothing is read and the slot's stale byte is
      returned; the cursor reports an overflow there, and so does Next. */
  method Get(r: Ring) returns (res: Result<(byte, Ring)>)
    requires Valid(r)
    ensures res.Ok? ==> Valid(res.value.1)
    ensures Dist(r, r.pos) + 1 < |r.buf| ==> (res.Ok? <==> StreamCursor.Get(Abs(r)).Ok?)
    ensures Dist(r, r.pos) + 1 < |r.buf| && res.Err? ==> res.error == StreamCursor.Get(Abs(r)).error
    ensures Dist(r, r.pos) + 1 < |r.buf| && res.Ok? ==>
      res.value.0 == StreamCursor.Get(Abs(r)).value && Abs(res.value.1) == Abs(r)
    ensures Dist(r, r.pos) + 1 == |r.buf| ==> res == Ok((r.buf[r.pos], r))
  {
    var n := |r.buf|;
    var d := Dist(r, r.pos);
    MSucc(r.pos, r.start, n);
    var rr := ReadToPos(r, r.pos + 1);
    if rr.Err? {
      return Err(rr.error);
    }
    var r' := rr.value;
    if d + 1 < n {
      GetByte(r, r');
      assert Stream(r')[d] == Window(r')[d];
    }
    return Ok((r'.buf[r'.pos], r'));
  }

  /** Once the slot after `pos` is buffered, the byte in slot `pos` is the window's byte at
      distance `dist(pos)`. */
  lemma GetByte(r: Ring, r': Ring)
    requires Valid(r) && Valid(r') && r'.start == r.start && r'.pos == r.pos && |r'.buf| == |r.buf|
    requires Dist(r, r.pos) < |Window(r')|
    ensures r'.buf[r.pos] == Window(r')[Dist(r, r.pos)]
  {
    WindowAt(r', Dist(r, r.pos));
    MBack(r.pos, r.start, |r.buf|);
  }

  /** Next: Get, then Move by one. */
  method Next(r: Ring) returns (res: Result<(byte, Ring)>)
    requires Valid(r)
    ensures Matches(res, StreamCursor.Next(Abs(r)))
  {
    var g := Get(r);
    if g.Err? {
      return Err(g.error);
    }
    var m := Move(g.value.1, 1);
    MoveRefines(g.value.1, 1);
    if m.Err? {
      return Err(m.error);
    }
    return Ok((g.value.0, m.value));
  }

  /** cut: `start` moves to index `p` (masked), after reading until it is buffered. */
  method CutAt(r: Ring, p: int) returns (res: Result<Ring>)
    requires Valid(r)
    ensures MatchesRing(res, StreamCursor.CutAt(Abs(r), Dist(r, Norm(r, p))))
  {
    var q := Norm(r, p);
    var rr := ReadToPos(r, q);
    if rr.Err? {
      return Err(rr.error);
    }
    CutMatches(r, rr.value, q);
    return Ok(rr.value.(start := q));
  }

  /** Once index `q` is buffered, moving `start` there is the cursor's cut at its distance. */
  lemma CutMatches(r: Ring, r1: Ring, q: int)
    requires Valid(r) && Valid(r1) && Kept(r, r1) && 0 <= q < |r.buf| && Dist(r, q) <= |Window(r1)|
    ensures Valid(r1.(start := q))
    ensures StreamCursor.CutAt(Abs(r), Dist(r, q)) == Ok(Abs(r1.(start := q)))
  {
    var c, d, r2 := Abs(r), Dist(r, q), r1.(start := q);
    KeptCut(r, r1, q);
    CutDist(r, r1, q);
    var c2 := Abs(r2);
    assert c2.pos == Mod(c.pos - d, c.cap);
    CursorCut(c, d, c2);
  }

  /** The stream after the cut, in terms of the stream before the read. */
  lemma KeptCut(r: Ring, r1: Ring, q: int)
    requires Valid(r) && Valid(r1) && Kept(r, r1) && 0 <= q < |r.buf| && Dist(r, q) <= |Window(r1)|
    ensures Valid(r1.(start := q)) && Stream(r1.(start := q)) == Stream(r)[Dist(r, q)..]
  {
    CutStream(r1, q);
    assert Dist(r1, q) == Dist(r, q);
  }

  /** The cursor's cut at `d`, spelled out. */
  lemma CursorCut(c: StreamCursor.Cursor, d: nat, c2: StreamCursor.Cursor)
    requires StreamCursor.Valid(c) && d < c.cap && d <= |c.data|
    requires c2 == StreamCursor.Cursor(c.data[d..], Mod(c.pos - d, c.cap), c.cap)
    ensures StreamCursor.CutAt(c, d) == Ok(c2)
  {
  }

  /** Moving `start` to `q` takes `dist(q)` off the distance of the position, round the ring. */
  lemma CutDist(r: Ring, r1: Ring, q: int)
    requires IsPow2(|r.buf|) && r1.start == r.start && r1.pos == r.pos && |r1.buf| == |r.buf|
    ensures Dist(r1.(start := q), r1.pos) == Mod(Dist(r, r.pos) - Dist(r, q), |r.buf|)
  {
    MCut(r.pos, r.start, q, |r.buf|);
  }

  /** Moving `start` to a buffered index drops the stream's bytes before it. */
  lemma CutStream(r: Ring, q: int)
    requires Valid(r) && 0 <= q < |r.buf| && Dist(r, q) <= |Window(r)|
    ensures Valid(r.(start := q)) && Stream(r.(start := q)) == Stream(r)[Dist(r, q)..]
  {
    CutWindow(r, q);
    assert Stream(r.(start := q)) == Window(r)[Dist(r, q)..] + Flatten(r.src);
  }

  /** cut at the position. */
  method Cut(r: Ring) returns (res: Result<Ring>)
    requires Valid(r)
    ensures MatchesRing(res, StreamCursor.Cut(Abs(r)))
  {
    MSmall(r.pos, |r.buf|);
    res := CutAt(r, r.pos);
  }

  /** cutWithStep: cut `step` bytes from the position. */
  method CutWithStep(r: Ring, step: int) returns (res: Result<Ring>)
    requires Valid(r)
    ensures MatchesRing(res, StreamCursor.CutWithStep(Abs(r), step))
  {
    StepDist(r, step);
    res := CutAt(r, r.pos + step);
  }

  /** The cursor's cutWithStep is its cut at the distance of the masked index. */
  lemma StepDist(r: Ring, step: int)
    requires Valid(r)
    ensures StreamCursor.CutWithStep(Abs(r), step) == StreamCursor.CutAt(Abs(r), Dist(r, Norm(r, r.pos + step)))
  {
    MMove(r.pos, step, r.start, |r.buf|);
    assert Dist(r, Norm(r, r.pos + step)) == Mod(Abs(r).pos + step, Abs(r).cap);
  }

  /** Moving `start` to a buffered index drops the window's bytes before it. */
  lemma CutWindow(r: Ring, q: int)
    requires Valid(r) && 0 <= q < |r.buf| && Dist(r, q) <= |Window(r)|
    ensures Valid(r.(start := q)) && Window(r.(start := q)) == Window(r)[Dist(r, q)..]
  {
    var d := Dist(r, q);
    var r2 := r.(start := q);
    CutWindowLength(r, q);
    forall i | 0 <= i < |Window(r2)| ensures Window(r2)[i] == Window(r)[d + i] {
      CutWindowAt(r, q, i);
    }
  }

  lemma CutWindowLength(r: Ring, q: int)
    requires Valid(r) && 0 <= q < |r.buf| && Dist(r, q) <= |Window(r)|
    ensures |Window(r.(start := q))| == |Window(r)| - Dist(r, q)
  {
    WindowLength(r);
    WindowLength(r.(start := q));
    MDiff(r.end, r.start, q, |r.buf|);
  }

  lemma CutWindowAt(r: Ring, q: int, i: int)
    requires Valid(r) && 0 <= q < |r.buf| && Dist(r, q) <= |Window(r)|
    requires 0 <= i < |Window(r)| - Dist(r, q)
    ensures |Window(r.(start := q))| == |Window(r)| - Dist(r, q)
    ensures Window(r.(start := q))[i] == Window(r)[Dist(r, q) + i]
  {
    CutWindowLength(r, q);
    WindowAt(r.(start := q), i);
    WindowAt(r, Dist(r, q) + i);
    MShift(r.start, q, i, |r.buf|);
  }

  /** The two copies of `get`: from slot `f` up to slot `t` (exclusive, 1 <= t <= size), round
      the ring, into a slice of `(t - f) mod size` bytes. */
  method CopyRange(buf: seq<byte>, f: int, t: int) returns (b: seq<byte>)
    requires |buf| > 0 && 0 <= f < |buf| && 1 <= t <= |buf|
    ensures |b| == Mod(t - f, |buf|)
    ensures forall i :: 0 <= i < |b| ==> b[i] == buf[Mod(f + i, |buf|)]
  {
    if f < t {
      CopiedForward(buf, f, t);
      b := buf[f..t][..Mod(t - f, |buf|)];
    } else if f > t {
      CopiedWrapped(buf, f, t);
      b := buf[f..] + buf[..t];
    } else {
      MSmall(0, |buf|);
      b := [];
    }
  }

  lemma CopiedForward(buf: seq<byte>, f: int, t: int)
    requires |buf| > 0 && 0 <= f < t <= |buf|
    ensures Mod(t - f, |buf|) <= t - f
    ensures forall i :: 0 <= i < Mod(t - f, |buf|) ==> buf[f..t][i] == buf[Mod(f + i, |buf|)]
  {
    var n := |buf|;
    if t - f < n {
      MSmall(t - f, n);
    } else {
      MAbove(t - f, n);
    }
    forall i | 0 <= i < Mod(t - f, n) ensures buf[f..t][i] == buf[Mod(f + i, n)] {
      MSmall(f + i, n);
    }
  }

  lemma CopiedWrapped(buf: seq<byte>, f: int, t: int)
    requires |buf| > 0 && 0 <= t < f < |buf|
    ensures |buf[f..] + buf[..t]| == Mod(t - f, |buf|)
    ensures forall i :: 0 <= i < |buf[f..] + buf[..t]| ==> (buf[f..] + buf[..t])[i] == buf[Mod(f + i, |buf|)]
  {
    var n := |buf|;
    MBelow(t - f, n);
    forall i | 0 <= i < |buf[f..] + buf[..t]| ensures (buf[f..] + buf[..t])[i] == buf[Mod(f + i, n)] {
      if f + i < n {
        MSmall(f + i, n);
      } else {
        MAbove(f + i, n);
      }
    }
  }

  /** get: reads until index `to` is buffered and returns the `norm(to - from)` bytes from
      index `from` on, in stream order round the ring. */
  method GetRange(r: Ring, from: int, to: int) returns (res: Result<(seq<byte>, Ring)>)
    requires Valid(r)
    ensures res.Ok? <==> Dist(r, to) <= |Stream(r)|
    ensures res.Err? ==> res.error == ReadError
    ensures res.Ok? ==> Valid(res.value.1) && Kept(r, res.value.1) && Dist(r, to) <= |Window(res.value.1)|
    ensures res.Ok? ==> res.value.0 == Slots(res.value.1, Norm(res.value.1, from), Norm(res.value.1, to - from))
  {
    var rr := ReadToPos(r, to);
    if rr.Err? {
      return Err(rr.error);
    }
    var b := CopyOut(rr.value, from, to);
    return Ok((b, rr.value));
  }

  /** The copy-out half of get: `norm(to - from)` bytes from slot `norm(from)` on, round the
      ring; the last index is normalised as `norm(to - 1) + 1` so that a range ending at slot 0
      ends at the end of the array. */
  method CopyOut(r: Ring, from: int, to: int) returns (b: seq<byte>)
    requires Valid(r)
    ensures b == Slots(r, Norm(r, from), Norm(r, to - from))
  {
    var f, t := Norm(r, from), Norm(r, to - 1) + 1;
    b := CopyRange(r.buf, f, t);
    MRange(from, to, |r.buf|);
    forall i | 0 <= i < |b| ensures b[i] == Slots(r, f, |b|)[i] {
      assert b[i] == r.buf[Mod(f + i, |r.buf|)];
      assert Slots(r, f, |b|)[i] == r.buf[Norm(r, f + i)];
    }
  }

  /** `len` bytes of the array from slot `f` on, round the ring. */
  function Slots(r: Ring, f: int, len: nat): (s: seq<byte>)
    requires Valid(r)
    ensures |s| == len
  {
    seq(len, i requires 0 <= i < len => r.buf[Norm(r, f + i)])
  }

  /** getAndCut: the bytes from the cut point up to the position, then a cut at the position. */
  method GetAndCut(r: Ring) returns (res: Result<(seq<byte>, Ring)>)
    requires Valid(r)
    ensures Matches(res, StreamCursor.GetAndCut(Abs(r)))
  {
    var g := GetRange(r, r.start, r.pos);
    if g.Err? {
      return Err(g.error);
    }
    var bytes := g.value.0;
    var r1 := g.value.1;
    GotPrefix(r1, bytes, Dist(r, r.pos));
    BufferedPrefix(r1, Dist(r, r.pos));
    assert Abs(r1) == Abs(r);
    var c := Cut(r1);
    return Ok((bytes, c.value));
  }

  /** A prefix of the window is a prefix of the stream. */
  lemma BufferedPrefix(r: Ring, len: nat)
    requires Valid(r) && len <= |Window(r)|
    ensures Window(r)[..len] == Stream(r)[..len]
  {
  }

  /** The bytes get copies from `start` on are the first buffered bytes. */
  lemma GotPrefix(r: Ring, bytes: seq<byte>, len: nat)
    requires Valid(r) && len <= |Window(r)| && bytes == Slots(r, Norm(r, r.start), len)
    ensures bytes == Window(r)[..len]
  {
    forall i | 0 <= i < len ensures bytes[i] == Window(r)[i] {
      assert bytes[i] == r.buf[Norm(r, Norm(r, r.start) + i)];
      SlotInWindow(r, i);
    }
  }

  /** The `i`-th slot from `start` holds the `i`-th buffered byte. */
  lemma SlotInWindow(r: Ring, i: int)
    requires Valid(r) && 0 <= i < |Window(r)|
    ensures r.buf[Norm(r, Norm(r, r.start) + i)] == Window(r)[i]
  {
    MSmall(r.start, |r.buf|);
    WindowAt(r, i);
  }

  // ---------------------------------------------------------------------------------------
  // Reset and a new buffer

  /** Reset: the window is dropped and every index returns to slot 0. */
  function Reset(r: Ring): (r': Ring)
    requires Valid(r)
    ensures Valid(r') && r'.buf == r.buf && r'.src == r.src
    ensures Window(r') == [] && Dist(r', r'.pos) == 0
  {
    r.(start := 0, end := 0, pos := 0)
  }

  /** NewRingBuffer: an empty buffer of the capacity for the requested size. */
  function New(size: int, src: seq<seq<byte>>): (r: Ring)
    ensures Valid(r) && |r.buf| == Capacity(size) && r.src == src
    ensures Window(r) == [] && Dist(r, r.pos) == 0
  {
    Ring(seq(Capacity(size), _ => 0), 0, 0, 0, src)
  }

  /** After Reset the buffer holds nothing and the stream is what the source still holds. */
  lemma ResetRefines(r: Ring)
    requires Valid(r)
    ensures Abs(Reset(r)) == StreamCursor.Cursor(Flatten(r.src), 0, |r.buf|)
  {
    MSmall(0, |r.buf|);
    assert Window(Reset(r)) == [];
  }

  /** A new buffer is an empty window of the chosen capacity over the whole source. */
  lemma NewRefines(size: int, src: seq<seq<byte>>)
    ensures Abs(New(size, src)) == StreamCursor.Cursor(Flatten(src), 0, Capacity(size))
  {
    MSmall(0, Capacity(size));
    assert Window(New(size, src)) == [];
  }
}

=== FILE: server.dfy ===
/** The proxy's server state (mobell/server.go): the app connections, the one connection that
    may talk back to the camera, the last quantization and Huffman tables seen in the camera's
    video, and whether the next frame must carry them.

    Every change of this state runs as one step of the server's command loop, so each operation
    here is a function from a state to the next state and the bytes the step sends: to an app
    connection, to the camera, or as a command to the camera. */
module Server {
  import opened Bytes
  import opened StreamCursor
  import opened JsonValue
  import Connection
  import JpegTables

  /** An app connection, by identity. */
  type ConnId = nat

  /** The fields of an app connection the server changes. */
  datatype Conn = Conn(videoEnabled: bool, bellEvtId: int)

  datatype State = State(
    conns: seq<ConnId>,            // the connection list, in the order of arrival
    info: map<ConnId, Conn>,       // a connection not in the map has its initial fields
    audioConn: Option<ConnId>,     // the connection whose audio goes to the camera
    dqt: seq<byte>,                // the last DQT segments seen (empty: none yet)
    dht: seq<byte>,                // the last DHT segments seen (empty: none yet)
    patchDxt: bool)                // the next frame must carry dqt and dht

  /** What a step sends. */
  datatype Out =
    | ToApp(conn: ConnId, data: seq<byte>)     // connection.send: video, audio, raw bytes
    | EventToApp(conn: ConnId, evt: Json)      // connection.sendEvent: framed by EventFrame
    | ToCamera(data: seq<byte>)                // client.Write: talk-back audio
    | CameraCmd(name: string, params: Json)    // client.SendCmdSilent
    | Reconnect                                // client.Reconnect

  function Info(s: State, c: ConnId): Conn {
    if c in s.info then s.info[c] else Conn(false, 0)
  }

  /** Each connection is in the list at most once. */
  predicate Distinct(cs: seq<ConnId>) {
    forall i, j :: 0 <= i < j < |cs| ==> cs[i] != cs[j]
  }

  /** The state the command loop keeps: no connection twice, and the audio owner (if any) is
      a live connection. */
  predicate Inv(s: State) {
    Distinct(s.conns) && (s.audioConn.Some? ==> s.audioConn.value in s.conns)
  }

  /** The audio segment the server sends the camera for an owner that went away without
      stopping: an APP11 segment of 20 length bytes, 'M', 'X', type 'S', flag 0x01. */
  const AudioStopEvt: seq<byte> := [
    0xff, 0xeb, 0x00, 0x14, 0x4d, 0x58, 0x53, 0x00, 0x01, 0x01, 0x00,
    0x00, 0x80, 0x3e, 0x00, 0x00, 0x20, 0x50, 0x31, 0x36, 0x01, 0x01]

  // ---------------------------------------------------------------------------------------
  // The connection list

  /** addConnection: the connection goes to the back of the list. */
  function AddConnection(s: State, c: ConnId): (r: State)
    ensures r.conns == s.conns + [c]
    ensures r == s.(conns := r.conns)
    ensures c !in s.conns && Inv(s) ==> Inv(r)
  {
    s.(conns := s.conns + [c])
  }

  /** The delConnection loop: `s.conns.Remove(e)` clears `e`'s successor, so the loop ends at
      the first match and only that element goes. */
  function RemoveFirst(cs: seq<ConnId>, c: ConnId): (r: seq<ConnId>)
    ensures c !in cs ==> r == cs
    ensures c in cs ==> |r| == |cs| - 1
    decreases |cs|
  {
    if cs == [] then []
    else if cs[0] == c then cs[1..]
    else [cs[0]] + RemoveFirst(cs[1..], c)
  }

  /** Removing the first occurrence keeps every other connection, in its order: the result is
      the list with that one position cut out. */
  lemma {:induction false} RemoveFirstCuts(cs: seq<ConnId>, c: ConnId, i: nat)
    requires i < |cs| && cs[i] == c && c !in cs[..i]
    ensures RemoveFirst(cs, c) == cs[..i] + cs[i + 1..]
    decreases i
  {
    if i > 0 {
      assert cs[0] != c by { assert cs[0] == cs[..i][0]; }
      assert c !in cs[1..][..i - 1] by { assert cs[1..][..i - 1] == cs[..i][1..]; }
      RemoveFirstCuts(cs[1..], c, i - 1);
      assert cs[..i] == [cs[0]] + cs[1..][..i - 1];
    }
  }

  /** In a list without repeats, the connection is gone afterwards and the others stay, with
      no repeats. */
  lemma {:induction false} RemoveFirstDistinct(cs: seq<ConnId>, c: ConnId)
    requires Distinct(cs)
    ensures c !in RemoveFirst(cs, c) && Distinct(RemoveFirst(cs, c))
    ensures forall x :: x != c ==> (x in RemoveFirst(cs, c) <==> x in cs)
    decreases |cs|
  {
    if cs != [] && cs[0] != c {
      RemoveFirstDistinct(cs[1..], c);
      var r := RemoveFirst(cs, c);
      assert r == [cs[0]] + RemoveFirst(cs[1..], c);
      assert cs[0] !in cs[1..] by {
        forall j | 0 <= j < |cs| - 1 ensures cs[1..][j] != cs[0] { assert cs[1..][j] == cs[j + 1]; }
      }
    } else if cs != [] {
      assert c !in cs[1..] by {
        forall j | 0 <= j < |cs| - 1 ensures cs[1..][j] != cs[0] { assert cs[1..][j] == cs[j + 1]; }
      }
    }
  }

  /** delConnection: the connection leaves the list; if it owned the audio, the ownership is
      dropped and the camera gets the stop segment the connection never sent. */
  function DelConnection(s: State, c: ConnId): (r: (State, seq<Out>))
    ensures r.0.conns == RemoveFirst(s.conns, c) && r.0.audioConn != Some(c)
    ensures s.audioConn == Some(c) ==> r.0.audioConn == None && r.1 == [ToCamera(AudioStopEvt)]
    ensures s.audioConn != Some(c) ==> r.0.audioConn == s.audioConn && r.1 == []
    ensures r.0 == s.(conns := r.0.conns, audioConn := r.0.audioConn)
  {
    var s1 := s.(conns := RemoveFirst(s.conns, c));
    if s.audioConn == Some(c) then (s1.(audioConn := None), [ToCamera(AudioStopEvt)])
    else (s1, [])
  }

  /** Removing a connection keeps the invariant and the order of the others. */
  lemma DelConnectionKeeps(s: State, c: ConnId, i: nat)
    requires Inv(s) && i < |s.conns| && s.conns[i] == c
    ensures Inv(DelConnection(s, c).0)
    ensures DelConnection(s, c).0.conns == s.conns[..i] + s.conns[i + 1..]
    ensures c !in DelConnection(s, c).0.conns
  {
    assert c !in s.conns[..i] by {
      forall j | 0 <= j < i ensures s.conns[..i][j] != c { assert s.conns[..i][j] == s.conns[j]; }
    }
    RemoveFirstCuts(s.conns, c, i);
    RemoveFirstDistinct(s.conns, c);
  }

  /** An owner that leaves without stopping sends the camera exactly the stop segment an app
      sends: the event reader reads it whole and the dispatch takes it for a stop. */
  lemma AudioStopEvtIsStop(rest: seq<byte>, cap: nat, decode: seq<byte> -> Option<Json>)
    requires 22 < cap
    ensures Connection.ReadEvt(Cursor(AudioStopEvt + rest, 0, cap)) == Ok((AudioStopEvt, Cursor(rest, 0, cap)))
    ensures Connection.Classify(AudioStopEvt, decode) == Connection.AudioStop(AudioStopEvt)
  {
    AudioStopEvtIsFrame();
    Connection.ReadEvtBinary(AudioStopEvt[4..], rest, cap);
    AudioStopEvtIsControl();
  }

  lemma AudioStopEvtIsControl()
    ensures Connection.AudioAction(AudioStopEvt) == Connection.AudioStop(AudioStopEvt)
  {
    var e := AudioStopEvt;
    assert |e| == 22 && e[6] == 0x53 && e[9] == 0x01;
  }

  lemma AudioStopEvtIsFrame()
    ensures Connection.AudioFrame(AudioStopEvt[4..]) == AudioStopEvt
  {
    assert Split16(20) == (0, 0x14);
  }

  // ---------------------------------------------------------------------------------------
  // Talk-back audio

  /** audioStart: a free camera is taken by the connection, which sends its start segment;
      while another connection owns the audio nothing happens. */
  function AudioStart(s: State, c: ConnId, data: seq<byte>): (r: (State, seq<Out>))
    ensures s.audioConn.None? ==> r == (s.(audioConn := Some(c)), [ToCamera(data)])
    ensures s.audioConn.Some? ==> r == (s, [])
  {
    if s.audioConn.None? then (s.(audioConn := Some(c)), [ToCamera(data)]) else (s, [])
  }

  /** audioStop: only the owner can stop; its stop segment goes to the camera. */
  function AudioStop(s: State, c: ConnId, data: seq<byte>): (r: (State, seq<Out>))
    ensures r.0.audioConn != Some(c)
    ensures s.audioConn != Some(c) ==> r == (s, [])
    ensures s.audioConn == Some(c) ==> r == (s.(audioConn := None), [ToCamera(data)])
  {
    if s.audioConn == Some(c) then (s.(audioConn := None), [ToCamera(data)]) else (s, [])
  }

  /** audioData: only the owner's audio reaches the camera. */
  function AudioData(s: State, c: ConnId, data: seq<byte>): (r: (State, seq<Out>))
    ensures r.0 == s
    ensures r.1 != [] <==> s.audioConn == Some(c)
    ensures s.audioConn == Some(c) ==> r.1 == [ToCamera(data)]
  {
    (s, if s.audioConn == Some(c) then [ToCamera(data)] else [])
  }

  /** Only the owner can stop the audio or feed it; any other connection changes nothing and
      sends nothing, and cannot take the audio while it is owned. */
  lemma OwnerOnly(s: State, c: ConnId, data: seq<byte>)
    requires s.audioConn != Some(c)
    ensures AudioStop(s, c, data) == (s, []) && AudioData(s, c, data) == (s, [])
    ensures s.audioConn.Some? ==> AudioStart(s, c, data) == (s, [])
  {
  }

  /** A start and a stop from the same connection give the camera back, sending both segments;
      the owner's audio in between goes through. */
  lemma StartDataStop(s: State, c: ConnId, start: seq<byte>, audio: seq<byte>, stop: seq<byte>)
    requires s.audioConn.None?
    ensures AudioStart(s, c, start).1 == [ToCamera(start)]
    ensures AudioData(AudioStart(s, c, start).0, c, audio).1 == [ToCamera(audio)]
    ensures AudioStop(AudioStart(s, c, start).0, c, stop) == (s, [ToCamera(stop)])
  {
  }

  /** The audio owner stays a live connection across the audio steps of a live connection. */
  lemma AudioStepsKeepInv(s: State, c: ConnId, data: seq<byte>)
    requires Inv(s) && c in s.conns
    ensures Inv(AudioStart(s, c, data).0) && Inv(AudioStop(s, c, data).0) && Inv(AudioData(s, c, data).0)
  {
  }

  // ---------------------------------------------------------------------------------------
  // Video

  /** The connections of `cs` with video enabled, each sent `data`, in list order. */
  function VideoTo(s: State, cs: seq<ConnId>, data: seq<byte>): (r: seq<Out>)
    ensures forall o :: o in r ==> o.ToApp? && o.data == data && o.conn in cs && Info(s, o.conn).videoEnabled
    ensures forall c :: c in cs && Info(s, c).videoEnabled ==> ToApp(c, data) in r
    decreases |cs|
  {
    if cs == [] then []
    else (if Info(s, cs[0]).videoEnabled then [ToApp(cs[0], data)] else []) + VideoTo(s, cs[1..], data)
  }

  /** sendVideo: every connection that asked for video gets the data. */
  function SendVideo(s: State, data: seq<byte>): (r: seq<Out>)
    ensures forall c :: ToApp(c, data) in r <==> c in s.conns && Info(s, c).videoEnabled
    ensures forall o :: o in r ==> o.ToApp? && o.data == data
  {
    VideoTo(s, s.conns, data)
  }

  /** enableVideo: the first time, the connection is switched to video and sent the codec's
      key frame (`snapshot`, when the codec has one); every time, the next frame is patched. */
  function EnableVideo(s: State, c: ConnId, snapshot: Option<seq<byte>>): (r: (State, seq<Out>))
    ensures Info(r.0, c).videoEnabled && r.0.patchDxt
    ensures Info(r.0, c).bellEvtId == Info(s, c).bellEvtId
    ensures forall x :: x != c ==> Info(r.0, x) == Info(s, x)
    ensures r.1 != [] <==> !Info(s, c).videoEnabled && snapshot.Some?
    ensures r.1 != [] ==> r.1 == [ToApp(c, snapshot.value)]
    ensures r.0.conns == s.conns && r.0.audioConn == s.audioConn
    ensures r.0.dqt == s.dqt && r.0.dht == s.dht
    ensures r.0 == s.(info := r.0.info, patchDxt := true)
  {
    if !Info(s, c).videoEnabled then
      var s1 := s.(info := s.info[c := Info(s, c).(videoEnabled := true)], patchDxt := true);
      (s1, if snapshot.Some? then [ToApp(c, snapshot.value)] else [])
    else (s.(patchDxt := true), [])
  }

  /** A second enableVideo sends no second key frame. */
  lemma EnableVideoOnce(s: State, c: ConnId, k1: Option<seq<byte>>, k2: Option<seq<byte>>)
    ensures EnableVideo(EnableVideo(s, c, k1).0, c, k2).1 == []
  {
  }

  /** Keeps the saved tables when the frame has none of that kind. */
  function Latest(saved: seq<byte>, found: seq<byte>): seq<byte> {
    if found != [] then found else saved
  }

  /** OnVideo: a frame the codec cannot decode makes the client reconnect. Otherwise the
      frame's DQT and DHT segments replace the saved ones (when it has any), the frame is
      patched with the saved tables if a patch is pending, and it goes to every video
      connection. A pending patch of a frame shorter than two bytes is an index panic. */
  function OnVideo(s: State, decoded: bool, data: seq<byte>): (r: Result<(State, seq<Out>)>)
    ensures !decoded ==> r == Ok((s, [Reconnect]))
    ensures decoded && s.patchDxt && |data| < 2 ==> r == Err(Panic)
    ensures r.Ok? && decoded ==> !r.value.0.patchDxt
    ensures r.Ok? && decoded ==>
              && r.value.0.dqt == Latest(s.dqt, JpegTables.ExtractDqtDht(data).0)
              && r.value.0.dht == Latest(s.dht, JpegTables.ExtractDqtDht(data).1)
              && r.value.0.conns == s.conns && r.value.0.info == s.info && r.value.0.audioConn == s.audioConn
    ensures r.Ok? && decoded && !s.patchDxt ==> r.value.1 == SendVideo(s, data)
    ensures r.Ok? && decoded && s.patchDxt ==>
              r.value.1 == SendVideo(s, JpegTables.PatchDqtDht(data, r.value.0.dqt, r.value.0.dht))
  {
    if !decoded then Ok((s, [Reconnect]))
    else
      var t := JpegTables.ExtractDqtDht(data);
      var s1 := s.(dqt := Latest(s.dqt, t.0), dht := Latest(s.dht, t.1));
      if !s.patchDxt then Ok((s1, SendVideo(s, data)))
      else if |data| < 2 then Err(Panic)
      else Ok((s1.(patchDxt := false), SendVideo(s, JpegTables.PatchDqtDht(data, s1.dqt, s1.dht))))
  }

  /** Feeds decoded frames one after another: the frames as sent. */
  function FeedFrames(s: State, frames: seq<seq<byte>>): (r: Result<(State, seq<seq<byte>>)>)
    decreases |frames|
  {
    if frames == [] then Ok((s, []))
    else
      match OnVideo(s, true, frames[0])
      case Err(e) => Err(e)
      case Ok(v) =>
        var sent := if s.patchDxt then JpegTables.PatchDqtDht(frames[0], v.0.dqt, v.0.dht) else frames[0];
        match FeedFrames(v.0, frames[1..])
        case Err(e) => Err(e)
        case Ok(w) => Ok((w.0, [sent] + w.1))
  }

  /** Frames of at least two bytes. */
  predicate LongFrames(frames: seq<seq<byte>>) {
    forall i :: 0 <= i < |frames| ==> 2 <= |frames[i]|
  }

  /** At most one frame is patched per enableVideo: after the first frame every frame goes out
      as it came, and the first one is patched only when a patch was pending. */
  lemma {:induction false} PatchOnce(s: State, frames: seq<seq<byte>>)
    requires LongFrames(frames)
    ensures FeedFrames(s, frames).Ok?
    ensures |FeedFrames(s, frames).value.1| == |frames|
    ensures forall i :: 1 <= i < |frames| ==> FeedFrames(s, frames).value.1[i] == frames[i]
    ensures frames != [] && !s.patchDxt ==> FeedFrames(s, frames).value.1[0] == frames[0]
    ensures !FeedFrames(s, frames).value.0.patchDxt || (frames == [] && s.patchDxt)
    decreases |frames|
  {
    if frames != [] {
      var v := FeedHead(s, frames);
      UnpatchedFeed(v.0, frames[1..]);
      var w := FeedFrames(v.0, frames[1..]).value;
      var sent := if s.patchDxt then JpegTables.PatchDqtDht(frames[0], v.0.dqt, v.0.dht) else frames[0];
      assert FeedFrames(s, frames) == Ok((w.0, [sent] + w.1));
      forall i | 1 <= i < |frames| ensures ([sent] + w.1)[i] == frames[i] {
        assert ([sent] + w.1)[i] == w.1[i - 1] && frames[1..][i - 1] == frames[i];
      }
    }
  }

  /** The first decoded frame of at least two bytes is accepted, and it clears the pending patch. */
  lemma FeedHead(s: State, frames: seq<seq<byte>>) returns (v: (State, seq<Out>))
    requires LongFrames(frames) && frames != []
    ensures OnVideo(s, true, frames[0]) == Ok(v) && !v.0.patchDxt
    ensures LongFrames(frames[1..])
    ensures FeedFrames(s, frames) == match FeedFrames(v.0, frames[1..])
                                     case Err(e) => Err(e)
                                     case Ok(w) => Ok((w.0, [if s.patchDxt then JpegTables.PatchDqtDht(frames[0], v.0.dqt, v.0.dht) else frames[0]] + w.1))
  {
    v := OnVideo(s, true, frames[0]).value;
    forall i | 0 <= i < |frames[1..]| ensures 2 <= |frames[1..][i]| {
      assert frames[1..][i] == frames[i + 1];
    }
  }

  /** Without a pending patch every frame goes out as it came. */
  lemma {:induction false} UnpatchedFeed(s: State, frames: seq<seq<byte>>)
    requires LongFrames(frames) && !s.patchDxt
    ensures FeedFrames(s, frames).Ok?
    ensures |FeedFrames(s, frames).value.1| == |frames|
    ensures forall i :: 0 <= i < |frames| ==> FeedFrames(s, frames).value.1[i] == frames[i]
    ensures !FeedFrames(s, frames).value.0.patchDxt
    decreases |frames|
  {
    if frames != [] {
      var v := OnVideo(s, true, frames[0]).value;
      assert LongFrames(frames[1..]) by {
        forall i | 0 <= i < |frames[1..]| ensures 2 <= |frames[1..][i]| { assert frames[1..][i] == frames[i + 1]; }
      }
      UnpatchedFeed(v.0, frames[1..]);
      var w := FeedFrames(v.0, frames[1..]).value;
      assert FeedFrames(s, frames) == Ok((w.0, [frames[0]] + w.1));
      forall i | 0 <= i < |frames| ensures ([frames[0]] + w.1)[i] == frames[i] {
        if i > 0 {
          assert ([frames[0]] + w.1)[i] == w.1[i - 1] && frames[1..][i - 1] == frames[i];
        }
      }
    }
  }

  /** OnAudio: the camera's audio goes wherever the video goes. */
  function OnAudio(s: State, data: seq<byte>): (r: seq<Out>)
    ensures forall c :: ToApp(c, data) in r <==> c in s.conns && Info(s, c).videoEnabled
  {
    SendVideo(s, data)
  }

  // ---------------------------------------------------------------------------------------
  // Bells

  /** registerBell: bell events for the connection go out under `evtId`. */
  function RegisterBell(s: State, c: ConnId, evtId: int): (r: State)
    ensures Info(r, c).bellEvtId == evtId && Info(r, c).videoEnabled == Info(s, c).videoEnabled
    ensures forall x :: x != c ==> Info(r, x) == Info(s, x)
    ensures r.conns == s.conns && r.audioConn == s.audioConn
    ensures r == s.(info := r.info)
  {
    s.(info := s.info[c := Info(s, c).(bellEvtId := evtId)])
  }

  /** What a notification sends one connection: a bell event or a suppress event. */
  datatype Notice = Bell(isRing: bool) | Suppress

  function NoticeFor(s: State, c: ConnId, n: Notice): Option<Json> {
    match n
    case Bell(isRing) => Connection.BellEvent(Info(s, c).bellEvtId, isRing)
    case Suppress => Connection.SuppressEvent(Info(s, c).bellEvtId)
  }

  /** The notice to each connection of `cs` other than `except` that registered for bells. */
  function NotifyAll(s: State, cs: seq<ConnId>, except: Option<ConnId>, n: Notice): (r: seq<Out>)
    ensures forall o :: o in r ==> o.EventToApp? && o.conn in cs && Some(o.conn) != except
                                   && NoticeFor(s, o.conn, n) == Some(o.evt)
    ensures forall c :: c in cs && Some(c) != except && Info(s, c).bellEvtId > 0 ==>
              EventToApp(c, NoticeFor(s, c, n).value) in r
    decreases |cs|
  {
    if cs == [] then []
    else
      var rest := NotifyAll(s, cs[1..], except, n);
      if Some(cs[0]) != except && NoticeFor(s, cs[0], n).Some? then [EventToApp(cs[0], NoticeFor(s, cs[0], n).value)] + rest
      else rest
  }

  /** sendBell: every registered connection is told whether the bell rings. */
  function SendBell(s: State, isRing: bool): (r: seq<Out>)
    ensures forall c :: c in s.conns && Info(s, c).bellEvtId > 0 ==> EventToApp(c, Connection.BellEvent(Info(s, c).bellEvtId, isRing).value) in r
    ensures forall o :: o in r ==> o.EventToApp? && o.conn in s.conns && Info(s, o.conn).bellEvtId > 0
  {
    NotifyAll(s, s.conns, None, Bell(isRing))
  }

  /** notifyOthers: every registered connection but the one that acted gets the notice. */
  function NotifyOthers(s: State, origin: ConnId, n: Notice): (r: seq<Out>)
    ensures forall o :: o in r ==> o.EventToApp? && o.conn != origin && o.conn in s.conns
    ensures forall c :: c in s.conns && c != origin && Info(s, c).bellEvtId > 0 ==>
              EventToApp(c, NoticeFor(s, c, n).value) in r
  {
    NotifyAll(s, s.conns, Some(origin), n)
  }

  /** bellResp: the camera is sent the answer, and the other apps stop ringing. */
  function BellResp(s: State, origin: ConnId, name: string, params: Json): (r: seq<Out>)
    ensures |r| >= 1 && r[0] == CameraCmd(name, params)
    ensures r[1..] == NotifyOthers(s, origin, Bell(false))
  {
    [CameraCmd(name, params)] + NotifyOthers(s, origin, Bell(false))
  }

  /** onBell, the listener of the camera's bell events: a result whose first item is "bell"
      rings or stops ringing every app by its second item; the listener stays registered. */
  function OnBell(s: State, evt: Json): (r: (bool, seq<Out>))
    ensures !r.0
    ensures AsString(ArrGet(MapGet(evt, "result"), 0)) != "bell" ==> r.1 == []
    ensures AsString(ArrGet(MapGet(evt, "result"), 0)) == "bell" ==>
              r.1 == SendBell(s, AsBool(ArrGet(MapGet(evt, "result"), 1)))
  {
    var result := MapGet(evt, "result");
    if AsString(ArrGet(result, 0)) == "bell" then (false, SendBell(s, AsBool(ArrGet(result, 1))))
    else (false, [])
  }

  /** The bell event the proxy sends its apps has the camera's format: fed to onBell, it rings
      every app the same way. */
  lemma BellEventRoundTrip(s: State, bellEvtId: int, isRing: bool)
    requires bellEvtId > 0
    ensures OnBell(s, Connection.BellEvent(bellEvtId, isRing).value) == (false, SendBell(s, isRing))
  {
    Connection.BellEventReads(bellEvtId, isRing);
  }

  // ---------------------------------------------------------------------------------------
  // Requests from an app

  /** The server side of handleEvt's request from connection `c`. */
  function Apply(s: State, c: ConnId, req: Connection.Request, snapshot: Option<seq<byte>>): (r: (State, seq<Out>))
    ensures req == Connection.BellAck ==> r == (s, BellResp(s, c, "bell_ack", Arr([Bool(true)])))
    ensures req == Connection.BellReject ==> r == (s, BellResp(s, c, "bell_ack", Arr([Bool(false)])))
    ensures req == Connection.OpenDoor ==> r == (s, BellResp(s, c, "trigger", Arr([Str("door")])))
    ensures req == Connection.BellSuppress ==> r == (s, NotifyOthers(s, c, Suppress))
    ensures req.RegisterBell? ==> r == (RegisterBell(s, c, req.evtId), [])
    ensures req == Connection.NoRequest ==> r == (s, [])
    ensures req == Connection.EnableVideo ==> r == EnableVideo(s, c, snapshot)
  {
    match req
    case NoRequest => (s, [])
    case EnableVideo => EnableVideo(s, c, snapshot)
    case OpenDoor => (s, BellResp(s, c, "trigger", Arr([Str("door")])))
    case BellAck => (s, BellResp(s, c, "bell_ack", Arr([Bool(true)])))
    case BellReject => (s, BellResp(s, c, "bell_ack", Arr([Bool(false)])))
    case BellSuppress => (s, NotifyOthers(s, c, Suppress))
    case RegisterBell(evtId) => (RegisterBell(s, c, evtId), [])
  }

  /** An app's `bell_ack` reaches the camera as `bell_ack` with the app's answer, and every
      other registered app stops ringing; the app itself is answered under its command id. */
  lemma BellAckForwarded(s: State, c: ConnId, id: int, answer: bool, snapshot: Option<seq<byte>>)
    ensures Connection.HandleEvt(id, "bell_ack", Arr([Bool(answer)])).0.Some?
    ensures AsInt(MapGet(Connection.HandleEvt(id, "bell_ack", Arr([Bool(answer)])).0.value, "id")) == id
    ensures Apply(s, c, Connection.HandleEvt(id, "bell_ack", Arr([Bool(answer)])).1, snapshot).1[0]
         == CameraCmd("bell_ack", Arr([Bool(answer)]))
    ensures forall o :: o in Apply(s, c, Connection.HandleEvt(id, "bell_ack", Arr([Bool(answer)])).1, snapshot).1[1..] ==>
              o.EventToApp? && o.conn != c
  {
    assert AsBool(ArrGet(Arr([Bool(answer)]), 0)) == answer;
  }

  /** The other methods of handleEvt reach their server steps: "live" switches the app to video,
      "trigger" sends the camera the door command, "suppress" silences every other app, and a
      method handleEvt does not know changes nothing and sends nothing. */
  lemma MethodsReachServer(s: State, c: ConnId, id: int, name: string, params: Json, snapshot: Option<seq<byte>>)
    ensures name == "live" ==>
              var r := Apply(s, c, Connection.HandleEvt(id, name, params).1, snapshot);
              Info(r.0, c).videoEnabled && r.0.patchDxt
    ensures name == "trigger" ==>
              var r := Apply(s, c, Connection.HandleEvt(id, name, params).1, snapshot);
              r.0 == s && r.1[0] == CameraCmd("trigger", Arr([Str("door")]))
    ensures name == "suppress" ==>
              Apply(s, c, Connection.HandleEvt(id, name, params).1, snapshot) == (s, NotifyOthers(s, c, Suppress))
    ensures name !in {"live", "trigger", "bell_ack", "suppress", "register_device"} ==>
              Apply(s, c, Connection.HandleEvt(id, name, params).1, snapshot) == (s, [])
  {
  }
}
